=== FILE: README.md ===
# sklearn-instrumentation: the wrapper bookkeeping, modelled in Dafny

sklearn-instrumentation decorates the methods of scikit-learn estimators with
"instruments": profilers, loggers, metric timers. Each instrumented method
keeps a bookkeeping record, `SklearnMethodInstrumentation`, stored under the
attribute `_skli_<method>`. The record holds:

- the original function (`wrapped`);
- the instruments applied, with their keyword arguments;
- the composed function (`wrapper`).

`SklearnInstrumentor` attaches and detaches instruments in three places:

- on estimator instances, walking an estimator's attributes recursively;
- on estimator classes, through three paths: plain methods, properties, and
  delegating (`available_if` / `if_delegate_has_method`) descriptors;
- on the classes collected from an estimator hierarchy.

`SklearnInstrumentionAsserter` in `testing.py` states when an instance or a
class counts as instrumented or uninstrumented. The statsd and prometheus
instruments keep enumeration registries, so equal-looking estimators report
under different labels.

This project models all of that as immutable data and pure functions:

- A callable is a symbolic term: `Fn = Orig(id, qualname) | Wrap(instrument, kwargs, inner)`.
  - Composing instruments is a left fold (`Fns.Fold`).
  - "the wrapper is the fold" and "removal restores" are equalities of terms.
- A record is `MethodRecord.Record`. `Valid` says its wrapper is the fold of `wrapped`.
- An estimator instance is a node of a finite object tree (`Objects.Node`).
  - Its `__dict__` is an ordered list of pairs, as a Python dict is (`PyDict`).
- A set of classes is a registry of classes with their method resolution order
  (`Classes.Registry`).
  - Attribute lookup follows the MRO, as `getattr` on a class does.
- The instrumentor's configuration is `Config.Instrumentor`.
  - The defaults are the constants `DEFAULT_METHODS` and `DEFAULT_EXCLUDE`.
- The asserters are predicates. Lemmas prove that each operation establishes
  the asserter's postcondition (`ClassAsserter`, `InstanceAsserter`).

The modules follow the source:

| module | models |
|---|---|
| `Wrappers` | errors |
| `Fns` | callables and folds |
| `MethodRecord` | the record |
| `Config` | configuration and attribute names |
| `Utils` | `utils.py` |
| `PyDict`, `Objects` | dictionaries and object trees |
| `Instance` | instance attach/detach |
| `Walk` | the recursive walks and class collection |
| `Classes` | class attach/detach |
| `EstimatorClasses` | instrumenting the classes of estimators |
| `ClassAsserter`, `InstanceAsserter` | the asserters |
| `ClassLists` | the class and estimator lists against the asserters |
| `ClassRoundTrip` | class round trips and `has_instrumentation` |
| `ClassFindings` | the class-level defects |
| `Enumerations`, `Statsd`, `Prometheus` | the metric instruments |

### Inherited methods

A method a class inherits is not instrumented on that class:

- `_instrument_class_method` skips it (`sklearn_instrumentation/instrumentor.py:460-461`).
- `_uninstrument_class_method` skips it too (`sklearn_instrumentation/instrumentor.py:591-592`).

`Classes.Classify` returns `Skip` for an inherited name, so no record is ever
created on a subclass for a method it inherits.

### Lists of classes

Instrumenting one class can change what another class shows. A delegating
descriptor belongs to the class that defines it, and every subclass that
reaches it through the MRO sees the change. `ClassLists` proves that the
list operations still establish the list asserters
(`assert_instrumented_classes`, `assert_uninstrumented_classes`):

- each step changes at most the class the lookup resolved the method to, and
  keeps that attribute's kind and qualified name (`ClassLists.ChangesOnlyAt`);
- so every class classifies every method along the same branch before and
  after, and a class already done stays done.

The proofs assume the registry is coherent (`ClassLists.Coherent`):

- an own-path method sits in its class's dictionary;
- a record a class holds has as wrapper the function that class shows;
- a descriptor's record has as wrapper the descriptor's function.

Instrumenting and uninstrumenting both keep coherence.

These proofs are about the corrected steps (`Classes.InstrumentClassMethod`,
`Classes.UninstrumentClassMethod`). Those steps use the class's own record
and pass `full` to the property path. The source as written fetches the
record with `getattr`, which also finds an ancestor's record
(`sklearn_instrumentation/instrumentor.py:474-478` and `607`), and calls the
property path without `full` (`sklearn_instrumentation/instrumentor.py:595`).
As written, the list results do not hold:

- instrumenting a subclass's override extends the ancestor's record, so the
  registry is no longer coherent (`ClassFindings.InheritedRecordBreaksCoherence`);
- `instrument_classes([P, C])`, where C overrides P's property, leaves P failing
  `assert_instrumented_classes` (`ClassFindings.PropertyOverrideClassesAsWritten`).

## Model

| member | source | states |
|---|---|---|
| MethodRecord.New | sklearn_instrumentation/instrumentor.py:31-35 | a fresh record is valid, its wrapper is the original function itself, and no instrument is applied |
| MethodRecord.WrapFunction | sklearn_instrumentation/instrumentor.py:49-52 | recomputing the wrapper by the loop gives the fold of the original through the instruments in list order, one layer per instrument |
| MethodRecord.Add | sklearn_instrumentation/instrumentor.py:37-47 | adding keeps the record valid and the original; the instrument and its kwargs are appended; the new wrapper is one new outermost layer over the old wrapper |
| MethodRecord.FilterOut | sklearn_instrumentation/instrumentor.py:62-69 | the kept instruments are exactly those different from the removed one, each with its multiplicity; the two lists stay the same length; nothing changes when the instrument is absent; the (instrument, kwargs) pairs kept are the original pairs without the removed instrument's, in their original order |
| MethodRecord.Remove | sklearn_instrumentation/instrumentor.py:54-71 | removal keeps the record valid and the original, drops every occurrence of the instrument, keeps every other with its multiplicity, keeps each remaining instrument paired with its own kwargs in the original order, and is the identity when the instrument is absent |
| MethodRecord.EmptyMeansUnwrapped | sklearn_instrumentation/instrumentor.py:73-78 | a record is empty exactly when its wrapper is the original function |
| MethodRecord.FilterOutConcat | sklearn_instrumentation/instrumentor.py:62-69 | filtering distributes over concatenation, so order among kept entries is preserved |
| MethodRecord.RemoveAfterAdd | sklearn_instrumentation/instrumentor.py:45-71 | removing an instrument just added gives the same record as removing it without the add |
| MethodRecord.RemoveCommutesWithOtherAdd | sklearn_instrumentation/instrumentor.py:45-71 | removing one instrument commutes with adding a different one |
| MethodRecord.AddTwiceStacks | sklearn_instrumentation/instrumentor.py:45-47 | adding the same instrument twice records it twice and wraps the function twice, unlike one add: there is no de-duplication |
| MethodRecord.AddAllAppends | sklearn_instrumentation/instrumentor.py:37-52 | a sequence of adds appends all instruments and kwargs and folds them over the previous wrapper |
| MethodRecord.RemoveAllLeaves | sklearn_instrumentation/instrumentor.py:54-71 | after a sequence of removals exactly the instruments not removed remain, over the same original |
| MethodRecord.Reversible | sklearn_instrumentation/instrumentor.py:31-71 | adding any instruments and then removing each of them leaves an empty record whose wrapper is the original function |
| MethodRecord.RemoveSoleInstrumentEmpties | sklearn_instrumentation/instrumentor.py:62-78 | removing the only instrument present empties the record and restores the original |
| Fns.FoldSnoc | sklearn_instrumentation/instrumentor.py:49-52 | folding one more instrument adds it as the outermost layer |
| Fns.FoldConcat | sklearn_instrumentation/instrumentor.py:49-52 | folding a concatenation is folding the second part over the fold of the first |
| Fns.FoldDepth | sklearn_instrumentation/instrumentor.py:49-52 | the fold adds exactly one layer per instrument |
| Fns.FoldQualname | sklearn_instrumentation/instruments/statsd.py:45-50 | wrapping never changes the reported qualified name, as `functools.wraps` copies it |
| Fns.FoldEntryOrder | sklearn_instrumentation/instrumentor.py:49-52 | a call enters the layers last-added first: the entry order is the reversed instrument list |
| Fns.FoldStrip | sklearn_instrumentation/instrumentor.py:49-52 | peeling as many layers as were folded gives back the original function |
| Fns.FoldNonEmptyDiffers | sklearn_instrumentation/instrumentor.py:49-52 | folding at least one instrument never yields the original function |
| Utils.PyIndex | sklearn_instrumentation/utils.py:119-123 | Python indexing succeeds exactly for indices from minus the length up to the length, otherwise raises IndexError |
| Utils.IndexOf | sklearn_instrumentation/instruments/statsd.py:31-32 | `list.index` finds the first occurrence, and raises ValueError exactly when the element is absent |
| Utils.FirstCell | sklearn_instrumentation/utils.py:57-60 | the closure search returns the first matching cell, and nothing exactly when no cell matches |
| Utils.Composed | sklearn_instrumentation/utils.py:19-38 | composing adds one layer per decorator, keeps the qualified name, and an empty list calls the function itself |
| Utils.ComposedEntryOrder | sklearn_instrumentation/utils.py:28-36 | the last decorator in the list is entered first |
| Utils.ComposedIsStackedRecord | sklearn_instrumentation/utils.py:19-38 | composing decorators gives the same function as a record to which the decorators were added in order |
| Utils.ComposedConcat | sklearn_instrumentation/utils.py:28-36 | composing a concatenated list is composing the second part over the first |
| Utils.EstimatorFromMethod | sklearn_instrumentation/utils.py:41-63 | a bound method yields its object when that is an estimator; otherwise the first estimator cell of the closure; TypeError exactly when there is none |
| Utils.IsClassMethod | sklearn_instrumentation/utils.py:66-68 | true exactly when the first parameter is named `self`; IndexError when there are no parameters |
| Utils.IsInstanceMethod | sklearn_instrumentation/utils.py:71-72 | the negation of the class-method test, with the same error |
| Utils.GetDelegator | sklearn_instrumentation/utils.py:75-79 | returns the first delegation descriptor among the closure cells; TypeError exactly when there is no closure |
| Utils.DelegatorAgreement | sklearn_instrumentation/utils.py:75-90 | `is_delegator` holds exactly when `get_delegator` finds a descriptor, so it never raises |
| Utils.NonSelfArg | sklearn_instrumentation/utils.py:119-123 | the argument is taken one position later when the first parameter is `self`, with Python's index errors |
| Utils.ArgByKey | sklearn_instrumentation/utils.py:126-131 | the argument at the key's parameter position, one position earlier for a delegator; ValueError when the key is not a parameter |
| Utils.NonSelfArgBoundAgrees | sklearn_instrumentation/utils.py:119-123 | the unbound function with `self` prepended to the arguments and the bound method select the same argument |
| Utils.ArgByKeyBoundAgrees | sklearn_instrumentation/utils.py:126-131 | the unbound function with `self` prepended and the bound method find the same keyed argument |
| Utils.ArgByKeyDelegatorShift | sklearn_instrumentation/utils.py:126-131 | a delegator called without `self` finds the same keyed argument as the delegated function called with `self` |
| Utils.FirstSegment | sklearn_instrumentation/utils.py:97 | the text before the first dot: a dot-free prefix followed by a dot or the end |
| Utils.FirstSegmentOfJoin | sklearn_instrumentation/utils.py:97 | the first segment of `C.rest` is `C` for a dot-free `C` |
| Utils.MethodIsInherited | sklearn_instrumentation/utils.py:93-102 | inherited exactly when the qualified name's first segment differs from the owner's name; AttributeError when there is no qualified name |
| Utils.MethodIsInheritedByDefiner | sklearn_instrumentation/utils.py:93-102 | a method defined in class C counts as inherited on a class exactly when that class's name is not C |
| Config.AttributeName | sklearn_instrumentation/instrumentor.py:134-141 | the record's attribute name is reserved and is the prefix followed by the method name |
| Config.AttributeNameInjective | sklearn_instrumentation/instrumentor.py:134-141 | different methods get different record attributes |
| Config.AttributeNameIsNotMethod | sklearn_instrumentation/instrumentor.py:134-141 | no record attribute collides with an unreserved method name |
| Config.MakeInstrumentor | sklearn_instrumentation/instrumentor.py:122-132 | each missing or falsy argument falls back to its default, a given one is kept, and the method and exclusion lists are never empty |
| Config.EffectiveKwargs | sklearn_instrumentation/instrumentor.py:215 | a non-empty per-call kwargs wins, otherwise the instrumentor's own |
| Instance.InstrumentMethod | sklearn_instrumentation/instrumentor.py:198-238 | properties and missing methods are skipped; otherwise the record is created if absent or extended, the attribute is the record's wrapper, and nothing else changes |
| Instance.UninstrumentMethod | sklearn_instrumentation/instrumentor.py:290-318 | no-op without a record; a full or emptied removal deletes the record and restores the original; otherwise the record loses the instrument and the attribute is the new wrapper |
| Instance.InstrumentMethodKeeps | sklearn_instrumentation/instrumentor.py:198-238 | instrumenting one method keeps every other method instrumented and keeps their layers |
| Instance.UninstrumentMethodKeeps | sklearn_instrumentation/instrumentor.py:290-318 | uninstrumenting one method keeps every other method uninstrumented or restored |
| Instance.InstrumentMethods | sklearn_instrumentation/instrumentor.py:169-175 | every configured method present and not a property ends instrumented, and methods instrumented before stay so |
| Instance.UninstrumentMethods | sklearn_instrumentation/instrumentor.py:285-288 | every configured method ends uninstrumented, and one carrying only this instrument's layers is restored to its original |
| Instance.InstrumentMethodsSkips | sklearn_instrumentation/instrumentor.py:204-213 | a property or missing method is left untouched by instrumentation |
| Instance.UninstrumentMethodsSkips | sklearn_instrumentation/instrumentor.py:293-306 | a property, a missing method or one without a record is left untouched by uninstrumentation |
| Instance.InstrumentEstimator | sklearn_instrumentation/instrumentor.py:169-175 | every configured method of the estimator ends instrumented; only the configured methods and their records change |
| Instance.FullMethodsAsWritten | sklearn_instrumentation/instrumentor.py:281 | the full-removal method list built from the dictionary's keys is always empty, since no key is callable |
| Instance.UninstrumentEstimatorAsWritten | sklearn_instrumentation/instrumentor.py:279-288 | as written, full removal leaves the estimator unchanged and partial removal behaves as intended |
| Instance.AsWrittenFullKeepsRecords | sklearn_instrumentation/instrumentor.py:279-288 | as written, full removal keeps every record, so a method carrying the instrument stays instrumented |
| Instance.CallableNames | sklearn_instrumentation/instrumentor.py:281 | the names of exactly the attributes whose values are methods |
| Instance.UninstrumentEstimator | sklearn_instrumentation/instrumentor.py:279-288 | partial removal uninstruments every configured method and changes nothing else |
| Instance.FullUninstrumentClearsRecords | sklearn_instrumentation/instrumentor.py:279-318 | full removal over the callable attributes leaves no record on the estimator |
| Instance.InstrumentMethodKeepsCoherent | sklearn_instrumentation/instrumentor.py:198-238 | instrumenting keeps every record paired with a method attribute |
| Instance.UninstrumentMethodKeepsCoherent | sklearn_instrumentation/instrumentor.py:290-318 | uninstrumenting keeps every record paired with a method attribute |
| Instance.InstrumentThenUninstrumentRestores | sklearn_instrumentation/instrumentor.py:169-318 | instrumenting an uninstrumented estimator and then removing the instrument restores every configured method and leaves no record |
| Instance.InstrumentMethodAdds | sklearn_instrumentation/instrumentor.py:220-233 | the stored record is the previous one, or a new one over the current method, with this instrument added |
| Instance.OtherInstrumentorSurvives | sklearn_instrumentation/instrumentor.py:290-318 | removing one instrumentor keeps another's layer, now directly over the original |
| Walk.Step | sklearn_instrumentation/instrumentor.py:169-175 | processing one estimator keeps its class and identity and only adds or replaces leaf attributes |
| Walk.Walk | sklearn_instrumentation/instrumentor.py:177-196 | an excluded object is untouched; methods and records are leaves; the `__dict__`, mapping and sequence branches apply in that priority and keep the node's shape |
| Walk.WalkDict | sklearn_instrumentation/instrumentor.py:186-190 | every attribute is visited in order, `_skli_` attributes are not descended, and the keys are kept |
| Walk.WalkSeq | sklearn_instrumentation/instrumentor.py:191-196 | every element of a sequence is walked in place |
| Walk.WalkKeepsStep | sklearn_instrumentation/instrumentor.py:177-190 | after the walk, a non-excluded estimator's methods, records and properties are those its own processing step produced |
| Walk.OwnClasses | sklearn_instrumentation/instrumentor.py:379-388 | an estimator contributes its class and the defining classes of its configured bound methods, and nothing else |
| Walk.Classes | sklearn_instrumentation/instrumentor.py:374-400 | nothing for an excluded object; otherwise its own classes and everything collected from its children |
| Walk.ClassesOfAll | sklearn_instrumentation/instrumentor.py:390-398 | the union of the classes collected from each element |
| Walk.ClassesAreReachedOwnClasses | sklearn_instrumentation/instrumentor.py:374-400 | a class is collected exactly when some estimator reachable without crossing an excluded object contributes it |
| Classes.FindAttr | sklearn_instrumentation/instrumentor.py:456 | the first class along the order defining the attribute, and nothing exactly when none does |
| Classes.Getattr | sklearn_instrumentation/instrumentor.py:456 | a class's own attribute wins; otherwise one found along its MRO |
| Classes.GetRecord | sklearn_instrumentation/instrumentor.py:474-478 | the record under `_skli_<m>` as `getattr` sees it: the class's own, else one from an ancestor |
| Classes.Inherited | sklearn_instrumentation/utils.py:93-102 | AttributeError for a missing method; otherwise the qualified-name test on the resolved attribute |
| Classes.AttrIsDelegator | sklearn_instrumentation/utils.py:82-90 | true exactly for delegating descriptors, false for plain functions, AttributeError for values without a closure |
| Classes.Classify | sklearn_instrumentation/instrumentor.py:451-470 | missing or inherited names are skipped; introspection errors propagate; otherwise the plain, property or delegator path names the resolved attribute |
| Classes.InstrumentOwn | sklearn_instrumentation/instrumentor.py:471-507 | the class's own record, created over the function if absent, gains the instrument; the attribute becomes its wrapper; no other class changes |
| Classes.InstrumentDelegator | sklearn_instrumentation/instrumentor.py:509-525 | the descriptor's record gains the instrument and its function becomes the wrapper; the class's own records are untouched |
| Classes.InstrumentClassMethod | sklearn_instrumentation/instrumentor.py:451-492 | the corrected step, which extends the class's own record rather than one `getattr` finds along the MRO: fails exactly when classification fails, skips what classification skips, and never adds or removes classes |
| Classes.InstrumentClass | sklearn_instrumentation/instrumentor.py:437-449 | on the corrected step, an excluded class is left as it is |
| Classes.UninstrumentOwn | sklearn_instrumentation/instrumentor.py:606-638 | no-op without a record; a full or emptied removal restores the original and drops the record; otherwise the record loses the instrument and the attribute is the new wrapper |
| Classes.UninstrumentDelegator | sklearn_instrumentation/instrumentor.py:640-660 | the same three cases on the descriptor's function and records, never touching the class's own records |
| Classes.UninstrumentOwnAsWritten | sklearn_instrumentation/instrumentor.py:606-617 | as written, the record comes from `getattr`: an own record or none behaves as the corrected path; an ancestor's record is shrunk in place and then either `delattr` raises AttributeError (full or emptied) or the ancestor's remaining wrapper is installed on the class |
| Classes.UninstrumentClassMethodAsWritten | sklearn_instrumentation/instrumentor.py:581-617 | as written, the plain path looks the record up through the MRO and the property path is always a partial removal, whatever `full` says; with no inherited record it agrees with the corrected path, full or partial for plain methods and partial for properties |
| Classes.UninstrumentClassMethod | sklearn_instrumentation/instrumentor.py:581-617 | the corrected step, which uses the class's own record and passes `full` to the property path as well: fails exactly when classification fails and skips what classification skips |
| Classes.HasInstrumentation | sklearn_instrumentation/utils.py:105-116 | true when a record is visible; otherwise false for a plain function, the descriptor's record for a delegator, AttributeError otherwise |
| ClassAsserter.InstrumentClassMethodFrame | sklearn_instrumentation/instrumentor.py:451-525 | on the corrected steps, instrumenting one method changes nothing any class shows for another method |
| ClassAsserter.UninstrumentClassMethodFrame | sklearn_instrumentation/instrumentor.py:581-660 | on the corrected steps, uninstrumenting one method changes nothing any class shows for another method |
| ClassAsserter.InstrumentOwnEstablishes | sklearn_instrumentation/testing.py:163-203 | on the corrected steps, a plain method or property instrumented on its own class satisfies the instrumented-class asserter |
| ClassAsserter.InstrumentDelegatorEstablishes | sklearn_instrumentation/testing.py:205-216 | on the corrected steps, an instrumented delegator satisfies the asserter: the descriptor's function is its record's wrapper |
| ClassAsserter.InstrumentClassMethodEstablishes | sklearn_instrumentation/testing.py:163-190 | on the corrected steps, after a successful class-method instrumentation the asserter holds for that method |
| ClassAsserter.InstrumentClassMethodKeeps | sklearn_instrumentation/instrumentor.py:448-449 | on the corrected steps, instrumenting another method keeps an instrumented method instrumented |
| ClassAsserter.InstrumentClassMethodsKeep | sklearn_instrumentation/instrumentor.py:448-449 | on the corrected steps, instrumenting a list of methods keeps an instrumented method instrumented |
| ClassAsserter.InstrumentClassMethodsEstablish | sklearn_instrumentation/instrumentor.py:448-449 | on the corrected steps, after instrumenting a list of methods, each of them satisfies the asserter |
| ClassAsserter.InstrumentClassEstablishes | sklearn_instrumentation/testing.py:151-161 | on the corrected steps, a successfully instrumented class satisfies the class asserter for every configured method |
| ClassAsserter.UninstrumentOwnEstablishes | sklearn_instrumentation/testing.py:244-290 | a plain method or property uninstrumented on its own class satisfies the corrected uninstrumented asserter |
| ClassAsserter.UninstrumentDelegatorEstablishes | sklearn_instrumentation/testing.py:292-309 | an uninstrumented delegator satisfies the corrected delegator asserter, which reads the descriptor's records |
| ClassAsserter.UninstrumentClassMethodEstablishes | sklearn_instrumentation/testing.py:244-271 | after a successful uninstrumentation the corrected asserter holds for that method, full or partial |
| ClassAsserter.UninstrumentClassMethodNoInherited | sklearn_instrumentation/instrumentor.py:581-660 | on the corrected steps, uninstrumenting a method of any class never makes an ancestor's record visible to a class where none was |
| ClassAsserter.UninstrumentShrinks | sklearn_instrumentation/instrumentor.py:581-660 | uninstrumenting keeps every class and its ancestry and never adds a record |
| ClassAsserter.UninstrumentClassMethodKeeps | sklearn_instrumentation/instrumentor.py:576-579 | on the corrected steps, uninstrumenting another method keeps an uninstrumented method uninstrumented |
| ClassAsserter.UninstrumentClassMethodsKeep | sklearn_instrumentation/instrumentor.py:576-579 | on the corrected steps, uninstrumenting a list of methods keeps an uninstrumented method uninstrumented |
| ClassAsserter.UninstrumentClassMethodsEstablish | sklearn_instrumentation/instrumentor.py:576-579 | on the corrected steps, after uninstrumenting a list of methods, each of them satisfies the corrected asserter |
| ClassAsserter.UninstrumentClassEstablishes | sklearn_instrumentation/testing.py:228-242 | on the corrected steps, a successfully uninstrumented class satisfies the corrected class asserter for every configured method |
| ClassFindings.InstrumentOwnAsWritten | sklearn_instrumentation/instrumentor.py:471-507 | as written, the record is looked up with `getattr`; it agrees with the corrected path unless an ancestor's record is visible |
| ClassFindings.ExtendFoundRecord | sklearn_instrumentation/instrumentor.py:479-492 | an ancestor's record is extended in place on the ancestor, and its wrapper is installed on the subclass |
| ClassFindings.InstrumentClassMethodAsWritten | sklearn_instrumentation/instrumentor.py:451-492 | as written, the method fails exactly when its classification fails |
| ClassFindings.AsWrittenAgreesWithoutInheritedRecord | sklearn_instrumentation/instrumentor.py:451-492 | as written, the result agrees with the corrected instrumentation whenever no ancestor holds a record for the method |
| ClassFindings.InheritedRecordHijacksOverride | sklearn_instrumentation/instrumentor.py:474-492 | with an ancestor's record visible, the as-written subclass method becomes a wrapper of the ancestor's function and the ancestor's record grows; the corrected path wraps the override and leaves the ancestor alone |
| ClassFindings.InstrumentClassMethodsAsWritten | sklearn_instrumentation/instrumentor.py:448-449 | the loop over the method names on the as-written step: no names, no change; classes are never added or removed |
| ClassFindings.InstrumentClassAsWritten | sklearn_instrumentation/instrumentor.py:437-449 | `instrument_class` on the as-written step: an excluded class is left as it is; classes are never added or removed |
| ClassFindings.InstrumentClassesAsWritten | sklearn_instrumentation/instrumentor.py:425-435 | `instrument_classes` on the as-written step: no classes, no change; classes are never added or removed |
| ClassFindings.InstrumentClassMethodNoInherited | sklearn_instrumentation/instrumentor.py:451-525 | the corrected step on a class never gives one of its ancestors a record |
| ClassFindings.AsWrittenMethodsAgree | sklearn_instrumentation/instrumentor.py:448-449 | when no ancestor of the class holds a record of a listed method, the as-written loop gives the same result as the corrected one |
| ClassFindings.InheritedRecordBreaksCoherence | sklearn_instrumentation/instrumentor.py:474-492 | when an own method or property is instrumented while an ancestor holds a record beside its own function, the as-written step extends the ancestor's record so that its wrapper no longer is what the ancestor shows, and the registry is no longer coherent; the corrected step keeps it coherent |
| ClassFindings.BuiltinPropertyRaises | sklearn_instrumentation/utils.py:93-102 | when properties expose no `__qualname__`, a class whose lookup finds a property gets AttributeError from classification and from every instrument and uninstrument step, as written and corrected, and fails every class asserter |
| ClassFindings.PropertyPathNeedsQualname | sklearn_instrumentation/instrumentor.py:460-466 | the property path is taken only when properties expose `__qualname__` |
| ClassFindings.PropertyOverrideClassesAsWritten | sklearn_instrumentation/testing.py:192-203 | with properties that expose `__qualname__`, `instrument_classes([P, C])` as written, with C overriding P's property, returns normally and P fails `assert_instrumented_classes` |
| ClassFindings.PropertyOverrideClassesCorrected | sklearn_instrumentation/testing.py:151-153 | on the same input, with properties that expose `__qualname__`, the corrected `instrument_classes` leaves both P and C passing `assert_instrumented_classes` |
| ClassFindings.InheritedRecordBreaksUninstrument | sklearn_instrumentation/instrumentor.py:606-617 | when only an ancestor holds the record, the as-written removal raises AttributeError if full or emptied and otherwise installs the ancestor's remaining wrapper on the class and shrinks the ancestor's record; the corrected one changes nothing |
| ClassFindings.OverrideRegistryUninstrumentRaises | sklearn_instrumentation/instrumentor.py:606-615 | on the concrete parent and overriding child, uninstrumenting the child by the parent's only instrument raises AttributeError as written, full or not, and leaves the registry alone as intended |
| ClassFindings.OverrideRegistryHijacked | sklearn_instrumentation/instrumentor.py:474-478 | a concrete parent and overriding child where the child's lookup finds the parent's record |
| ClassFindings.PropertyFullUninstrumentAsWritten | sklearn_instrumentation/instrumentor.py:594-595 | with properties that expose `__qualname__`, a full removal on a property as written keeps the reduced record and installs its wrapper; the corrected one drops the record and restores the getter |
| ClassFindings.PropertyFullUninstrumentKeepsRecord | sklearn_instrumentation/instrumentor.py:594-595 | on a two-layer property that exposes `__qualname__`, the as-written full removal fails the full asserter, the corrected one passes it |
| ClassFindings.PropertyAsserterRejectsCorrectState | sklearn_instrumentation/testing.py:286-290 | after a correct partial removal from a two-layer property that exposes `__qualname__`, the as-written asserter fails while the corrected one holds |
| ClassFindings.DelegatorAsserterIsVacuous | sklearn_instrumentation/testing.py:298-299 | an instrumented delegator passes the as-written uninstrumented asserter, which looks for the record on the function instead of the descriptor |
| ClassRoundTrip.InstrumentOwnClassify | sklearn_instrumentation/instrumentor.py:471-507 | a fresh own method gets a one-instrument record and then classifies as the same path over the wrapper |
| ClassRoundTrip.InstrumentOwnRoundTrip | sklearn_instrumentation/instrumentor.py:606-638 | instrumenting a fresh plain method or property and then removing the instrument, fully or not, gives back the original registry |
| ClassRoundTrip.InstrumentDelegatorClassify | sklearn_instrumentation/instrumentor.py:509-525 | after instrumentation a delegator classifies as a delegator over the new wrapper and records |
| ClassRoundTrip.InstrumentDelegatorRoundTrip | sklearn_instrumentation/instrumentor.py:640-660 | instrumenting a fresh delegator and removing the instrument gives back the original registry |
| ClassRoundTrip.InstrumentClassMethodRoundTrip | sklearn_instrumentation/instrumentor.py:581-617 | on a fresh method, uninstrumentation undoes instrumentation exactly |
| ClassRoundTrip.HasInstrumentationAfterInstrumentOwn | sklearn_instrumentation/utils.py:105-116 | after own-path instrumentation the method has instrumentation |
| ClassRoundTrip.HasInstrumentationAfterInstrumentDelegator | sklearn_instrumentation/utils.py:105-116 | after delegator instrumentation the method has instrumentation |
| ClassRoundTrip.HasInstrumentationAfterInstrument | sklearn_instrumentation/utils.py:105-116 | instrumenting a method that is not skipped succeeds and turns instrumentation on |
| ClassRoundTrip.HasInstrumentationAfterFullUninstrument | sklearn_instrumentation/utils.py:105-116 | full removal turns it off: false for plain methods and delegators, AttributeError for a restored property |
| EstimatorClasses.Min | sklearn_instrumentation/instrumentor.py:434-435 | the least class of a non-empty set |
| EstimatorClasses.Ascending | sklearn_instrumentation/instrumentor.py:434-435 | the set's iteration order visits every class exactly once |
| EstimatorClasses.InstrumentClassesConcat | sklearn_instrumentation/instrumentor.py:425-435 | on the corrected steps, instrumenting a concatenated list is instrumenting the second part after the first, stopping at the first error |
| EstimatorClasses.InstrumentEstimatorClasses | sklearn_instrumentation/instrumentor.py:342-357 | on the corrected steps, an excluded estimator changes nothing; classes are never added or removed |
| EstimatorClasses.UninstrumentEstimatorClasses | sklearn_instrumentation/instrumentor.py:359-372 | on the corrected steps, an excluded estimator changes nothing; classes are never added or removed |
| EstimatorClasses.ClassSets | sklearn_instrumentation/instrumentor.py:337-339 | one collected class set per estimator |
| EstimatorClasses.UnionOf | sklearn_instrumentation/instrumentor.py:337-339 | a class is in the union exactly when some estimator's set holds it |
| EstimatorClasses.InstrumentClassSetsAsWritten | sklearn_instrumentation/instrumentor.py:337-340 | the as-written loop over the corrected class steps: no estimators, no change; classes are never added or removed |
| EstimatorClasses.InstrumentEstimatorsClassesAsWritten | sklearn_instrumentation/instrumentor.py:323-340 | the as-written loop over the corrected class steps: no estimators, no change |
| EstimatorClasses.AsWrittenRepeatsBatch | sklearn_instrumentation/instrumentor.py:337-340 | in the as-written loop over the corrected class steps, when a later estimator adds no new class, the whole accumulated batch is instrumented a second time |
| EstimatorClasses.InstrumentClassSets | sklearn_instrumentation/instrumentor.py:337-340 | on the corrected steps, the union is instrumented once; no sets, no change |
| EstimatorClasses.InstrumentEstimatorsClasses | sklearn_instrumentation/instrumentor.py:323-340 | on the corrected steps, for one estimator this is that estimator's class instrumentation; for none, no change |
| EstimatorClasses.EstimatorsClassesRepeat | sklearn_instrumentation/instrumentor.py:337-340 | two estimators of one class: as written the method records the instrument twice, corrected once |
| ClassLists.ChangesOnlyAtView | sklearn_instrumentation/instrumentor.py:451-492 | on the corrected steps, after a change confined to one class's attribute, every class resolves the method to the same class and classifies it along the same branch; where the lookup does not reach the changed class nothing differs |
| ClassLists.InstrumentChangesOnlyAt | sklearn_instrumentation/instrumentor.py:451-525 | on the corrected steps, instrumenting a method that is not skipped changes only the class the lookup resolved it to, keeping the attribute's kind and qualified name, and keeps the registry coherent |
| ClassLists.InstrumentKeepsCoherent | sklearn_instrumentation/instrumentor.py:451-525 | on the corrected steps, instrumenting any method keeps the registry coherent |
| ClassLists.InstrumentSettles | sklearn_instrumentation/instrumentor.py:451-492 | on the corrected steps, instrumenting a method on a class leaves it instrumented there, with an own-path record on the class itself |
| ClassLists.InstrumentOtherKeeps | sklearn_instrumentation/instrumentor.py:509-525 | on the corrected steps, instrumenting a method on another class, including through a shared delegating descriptor, keeps it instrumented on this class |
| ClassLists.InstrumentKeepsHere | sklearn_instrumentation/instrumentor.py:451-525 | on the corrected steps, instrumenting any method of any class keeps an instrumented method instrumented |
| ClassLists.InstrumentKeepsShape | sklearn_instrumentation/instrumentor.py:451-525 | on the corrected steps, instrumenting never changes any class's name, types or ancestors, so exclusion is unchanged |
| ClassLists.InstrumentMethodsKeep | sklearn_instrumentation/instrumentor.py:448-449 | on the corrected steps, the loop over the methods of any class keeps an instrumented method instrumented |
| ClassLists.InstrumentMethodsSettle | sklearn_instrumentation/instrumentor.py:448-449 | on the corrected steps, after the loop over the methods of a class, each of them is instrumented there |
| ClassLists.InstrumentClassKeeps | sklearn_instrumentation/instrumentor.py:437-449 | on the corrected steps, instrumenting any class keeps the registry coherent and an instrumented class instrumented |
| ClassLists.InstrumentClassSettles | sklearn_instrumentation/instrumentor.py:437-449 | on the corrected steps, instrumenting a class leaves it passing the class asserter, excluded or not |
| ClassLists.InstrumentClassesSettle | sklearn_instrumentation/instrumentor.py:425-435 | on the corrected steps, after instrumenting a list of classes every one of them passes the class asserter |
| ClassLists.InstrumentClassesEstablish | sklearn_instrumentation/testing.py:151-153 | on the corrected steps, when `instrument_classes` returns normally, `assert_instrumented_classes` holds for the same list |
| ClassLists.UninstrumentChangesOnlyAt | sklearn_instrumentation/instrumentor.py:581-660 | on the corrected steps, uninstrumenting a method that is not skipped changes at most the class the lookup resolved it to, keeping the attribute's kind and qualified name, and keeps the registry coherent |
| ClassLists.UninstrumentKeepsCoherent | sklearn_instrumentation/instrumentor.py:581-660 | on the corrected steps, uninstrumenting any method keeps the registry coherent |
| ClassLists.UninstrumentSettles | sklearn_instrumentation/instrumentor.py:581-617 | on the corrected steps, uninstrumenting a method on a class leaves it uninstrumented there, with no inherited record |
| ClassLists.UninstrumentOtherKeeps | sklearn_instrumentation/instrumentor.py:640-660 | on the corrected steps, uninstrumenting a method on another class, including through a shared delegating descriptor, keeps it uninstrumented on this class |
| ClassLists.UninstrumentKeepsHere | sklearn_instrumentation/instrumentor.py:581-660 | on the corrected steps, uninstrumenting any method of any class keeps an uninstrumented method uninstrumented |
| ClassLists.UninstrumentMethodsKeep | sklearn_instrumentation/instrumentor.py:576-579 | on the corrected steps, the loop over the methods of any class keeps an uninstrumented method uninstrumented |
| ClassLists.UninstrumentMethodsSettle | sklearn_instrumentation/instrumentor.py:576-579 | on the corrected steps, after the loop over the methods of a class, each of them is uninstrumented there |
| ClassLists.UninstrumentClassKeeps | sklearn_instrumentation/instrumentor.py:567-579 | on the corrected steps, uninstrumenting any class keeps an uninstrumented class uninstrumented |
| ClassLists.UninstrumentClassSettles | sklearn_instrumentation/instrumentor.py:567-579 | on the corrected steps, uninstrumenting a class leaves every configured method uninstrumented there |
| ClassLists.UninstrumentClassesSettle | sklearn_instrumentation/instrumentor.py:552-565 | on the corrected steps, after uninstrumenting a list of classes every one of them passes the corrected class asserter |
| ClassLists.UninstrumentClassesEstablish | sklearn_instrumentation/testing.py:228-232 | on the corrected steps, when `uninstrument_classes` returns normally, `assert_uninstrumented_classes` holds for the same list and the same `full`, with its property and delegator checks corrected (`ClassAsserter.ClassMethodUninstrumented`) |
| ClassLists.InstrumentEstimatorClassesEstablish | sklearn_instrumentation/instrumentor.py:342-357 | on the corrected steps, after `instrument_estimator_classes` every class collected from the estimator passes the class asserter |
| ClassLists.InstrumentEstimatorsClassesEstablish | sklearn_instrumentation/instrumentor.py:323-340 | on the corrected steps, after the corrected `instrument_estimators_classes` every class collected from any of the estimators passes the class asserter |
| ClassLists.UninstrumentEstimatorClassesEstablish | sklearn_instrumentation/instrumentor.py:359-372 | on the corrected steps, after `uninstrument_estimator_classes` every class collected from the estimator passes the corrected uninstrumented class asserter |
| InstanceAsserter.InstrumentEstimatorChecked | sklearn_instrumentation/testing.py:32-81 | after instrumenting an estimator, the instance asserter holds for every configured method |
| InstanceAsserter.UninstrumentEstimatorChecked | sklearn_instrumentation/testing.py:114-141 | after uninstrumenting an estimator, fully or not, the corrected uninstrumented asserter holds |
| InstanceAsserter.WalkChecked | sklearn_instrumentation/testing.py:39-60 | after the recursive walk, the recursive asserter holds on the whole tree: excluded parts are skipped, every other estimator is checked, `_skli_` attributes are not descended |
| InstanceAsserter.AsWrittenFullCheckMissesRecord | sklearn_instrumentation/testing.py:117-118 | after the as-written full removal a record carrying the instrument remains; the as-written asserter accepts this state and the corrected one rejects it |
| Enumerations.Enumerate | sklearn_instrumentation/instruments/statsd.py:28-34 | the index names the function's first position in the key's list; a listed function leaves the registry alone; a new one is appended and gets the previous length |
| Enumerations.EnumerateAppends | sklearn_instrumentation/instruments/statsd.py:30-34 | only the enumerated key's list changes, and it grows by at most one at the end |
| Enumerations.EnumerateNoDuplicates | sklearn_instrumentation/instruments/statsd.py:30-34 | no function is ever listed twice under one key |
| Enumerations.EnumerateKeepsIndex | sklearn_instrumentation/instruments/statsd.py:31 | a listed function gets back its position and changes nothing |
| Enumerations.EnumerateIdempotent | sklearn_instrumentation/instruments/statsd.py:29-34 | enumerating the same function again gives the same index and registry |
| Enumerations.EnumerateKeepsEarlier | sklearn_instrumentation/instruments/statsd.py:29-34 | an enumeration under any key never moves a function listed before |
| Enumerations.EnumerateSeparates | sklearn_instrumentation/instruments/statsd.py:30-34 | two different functions under one key get different indices |
| Enumerations.DecimalString | sklearn_instrumentation/instruments/statsd.py:35 | `f"{idx}"` is a non-empty string of digits without a leading zero |
| Enumerations.DecimalRoundTrip | sklearn_instrumentation/instruments/statsd.py:35 | reading the written digits back gives the number |
| Enumerations.DecimalInjective | sklearn_instrumentation/instruments/statsd.py:35 | different indices are written differently |
| Enumerations.IndexSuffix | sklearn_instrumentation/instruments/statsd.py:35 | the suffix is a dash followed by the index's digits |
| Enumerations.SuffixSeparates | sklearn_instrumentation/instruments/statsd.py:35 | labels that differ only in their index differ |
| Statsd.NewTimer | sklearn_instrumentation/instruments/statsd.py:22-25 | a new timer has nothing enumerated under any key |
| Statsd.PrefixPart | sklearn_instrumentation/instruments/statsd.py:40-42 | no prefix or an empty one contributes nothing; a non-empty one is followed by a dot; a prefix that is not a string raises TypeError |
| Statsd.Call | sklearn_instrumentation/instruments/statsd.py:27-43 | the label starts with the prefix part and the qualified name; enumeration off leaves the registry alone, on lists the function; it fails exactly when the prefix does |
| Statsd.CallUnenumerated | sklearn_instrumentation/instruments/statsd.py:36-43 | with enumeration off the label is the prefix part and the qualified name, with no suffix |
| Statsd.CallListed | sklearn_instrumentation/instruments/statsd.py:29-32 | a function already listed is labelled with its position and the registry stays as it is |
| Statsd.CallNew | sklearn_instrumentation/instruments/statsd.py:33-35 | a new function is labelled with the previous list length and appended |
| Statsd.CallIdempotent | sklearn_instrumentation/instruments/statsd.py:29-43 | repeating a call with the same function and arguments gives the same label and state |
| Statsd.CallNoDuplicates | sklearn_instrumentation/instruments/statsd.py:30-34 | calls never list a function twice under one key |
| Statsd.CallSeparates | sklearn_instrumentation/instruments/statsd.py:27-43 | two different functions with one key and qualified name get different labels |
| Statsd.CallKeepsEarlier | sklearn_instrumentation/instruments/statsd.py:27-43 | a later call under any key leaves an earlier function's label unchanged |
| Prometheus.WithQualname | sklearn_instrumentation/instruments/prometheus.py:16-19 | `qualname` becomes a label name, the given names are kept in front, at most one name is added |
| Prometheus.WithQualnameOnce | sklearn_instrumentation/instruments/prometheus.py:53-56 | adding the label name twice is adding it once, and it then occurs exactly once |
| Prometheus.NewBase | sklearn_instrumentation/instruments/prometheus.py:15-22 | the metric's label names include `qualname` and the given ones; nothing is enumerated |
| Prometheus.NewSummary | sklearn_instrumentation/instruments/prometheus.py:48-60 | the summary's label name step and the base's together add `qualname` exactly as one step would |
| Prometheus.NewHistogram | sklearn_instrumentation/instruments/prometheus.py:64-70 | the histogram's label names include `qualname` and the given ones |
| Prometheus.BaseLabels | sklearn_instrumentation/instruments/prometheus.py:25-26 | the qualname label overlaid with the given labels; an empty string adds nothing; a non-empty string raises ValueError, other values TypeError |
| Prometheus.EnumerateAsWritten | sklearn_instrumentation/instruments/prometheus.py:28-34 | as written, a listed function gets its position but a new one gets index 0 while being appended |
| Prometheus.CallAsWritten | sklearn_instrumentation/instruments/prometheus.py:24-35 | fails exactly when the labels do; enumeration off leaves the state alone, on lists the function and keeps the label names |
| Prometheus.Call | sklearn_instrumentation/instruments/prometheus.py:24-35 | the same call with a new function indexed by the previous list length |
| Prometheus.CallLabels | sklearn_instrumentation/instruments/prometheus.py:28-35 | with enumeration on, the qualname label is the qualified name and the index, overriding a given qualname; every other label is the given one |
| Prometheus.CallIdempotent | sklearn_instrumentation/instruments/prometheus.py:24-35 | repeating a call with the same function and arguments gives the same labels and state |
| Prometheus.CallSeparates | sklearn_instrumentation/instruments/prometheus.py:28-35 | two different functions with one key and qualified name get different qualname labels |
| Prometheus.AsWrittenLabelsCollideAndMove | sklearn_instrumentation/instruments/prometheus.py:31-34 | as written, a second function under a key gets the first one's labels, and its own label changes on its next call |

## Left out

- Package discovery (`sklearn_instrumentation/utils.py:134-174`) and `instrument_package(s)` / `uninstrument_package(s)`, with their asserters: they import modules and iterate the filesystem.
- Logging calls in the instrumentor: they have no effect on the state.
- The timing, client and metric calls of the instruments (`sklearn_instrumentation/instruments/statsd.py:45-48`, `sklearn_instrumentation/instruments/prometheus.py:37-42`). Only labels and registries are modelled.
- `_validate_labelnames`, the metric's `labels(...)` check, and the lock and metric reset at `sklearn_instrumentation/instruments/prometheus.py:57-59` belong to the prometheus client library.
- The default metric a summary or histogram creates when none is given. It is modelled as a metric without label names.
- The enumeration key is the `repr` of the sorted keyword arguments with the function. It is an opaque string parameter.
- A prefix or labels value that is an object with its own `__add__` or iteration: a non-string prefix is modelled as TypeError, and a labels value as a string map, an empty or non-empty string, or an opaque value.
- `deepcopy` of the instrument kwargs is the identity on the value-level kwargs.
- Python introspection:
  - `inspect.signature`, closures, `__qualname__` and descriptors are data fields.
  - `get_method_class`, which is not part of this model, is an oracle: a map from bound method name to class.
- Strings are leaves of the object tree. The source recurses into every sequence, so a one-character string would recurse without end.
- The walks have no visited set. The model is a finite tree: shared sub-objects are separate subtrees and cycles cannot be expressed.
- Iteration over a Python `set` of classes is modelled as ascending class identifier. The source's order is unspecified.
- An instance's `_skli_` lookup sees only the instance's own dictionary. A class-level record would also be visible to `getattr` in Python.
- `hasattr` on an estimator is answered from its method attributes (`Instance.Lookup`). A data attribute named like a configured method is not a method.
- An attribute whose value is `None` is treated as absent, as the source's `getattr(..., None)` tests do.
- Whether a class property exposes `__qualname__` is a registry flag (`Registry.propertyQualname`). It is read as the getter's qualified name when set. A builtin `property` has no `__qualname__`, and every class step and class asserter calls `method_is_inherited` before testing for a property (`sklearn_instrumentation/utils.py:96-97`). So with builtin properties the class property path is never reached: `Classes.Classify` returns `Err(AttributeError)`, and so do both the instrument and the uninstrument steps, while both asserters fail (`ClassFindings.BuiltinPropertyRaises`). The property findings hold only with the flag set.
- Reserved `_skli_` names hold only records. A user attribute with that prefix is outside the model.
- `Classes.UninstrumentOwnAsWritten`: where the source raises AttributeError, the state the exception leaves behind (the ancestor's record already shrunk, the class attribute already set to the original) is not modelled; the result is only the error.
- `ClassFindings.ExtendFoundRecord`: states the changed attributes and records of the two classes involved, not the other fields of the registry.
- `ClassAsserter.UninstrumentClassEstablishes`: proved under the hypothesis that no ancestor's record is visible for the configured methods. The as-written asserter reads records through the MRO.
- `ClassAsserter.UninstrumentOwnEstablishes`: proved only when no ancestor holds a record of the method (`ClassAsserter.NoInheritedRecord`), because the asserter reads records through the MRO and would see the ancestor's.
- `ClassAsserter.UninstrumentClassMethodEstablishes`: proved only under `ClassAsserter.NoInheritedRecord` for the method, for the same reason.
- `ClassAsserter.UninstrumentClassMethodKeeps`: proved only under `ClassAsserter.NoInheritedRecord` for the method kept uninstrumented.
- `ClassAsserter.UninstrumentClassMethodsKeep`: proved only under `ClassAsserter.NoInheritedRecord` for the method kept uninstrumented.
- `ClassAsserter.UninstrumentClassMethodsEstablish`: proved only under `ClassAsserter.NoInheritedRecord` for every listed method.
- `ClassLists.InstrumentClassesEstablish`: proved only for the corrected steps and a coherent registry (`ClassLists.CoherentAll`). A record whose wrapper is not the function its class shows is a state the corrected instrumentor never produces. As written, `ClassFindings.ExtendFoundRecord` produces it (`ClassFindings.InheritedRecordBreaksCoherence`), and the list asserter then fails (`ClassFindings.PropertyOverrideClassesAsWritten`).
- `ClassLists.InstrumentEstimatorClassesEstablish`: proved only for the corrected steps and a coherent registry, as above.
- `ClassLists.InstrumentEstimatorsClassesEstablish`: proved only for the corrected steps and a coherent registry, and for the corrected loop that instruments the union once.
- `ClassLists.UninstrumentClassesEstablish`: proved only for the corrected steps, against the corrected asserter, and for a coherent registry with no ancestor record of a configured method visible to a listed class (`ClassLists.NoInheritedRecords`).
- `ClassLists.UninstrumentEstimatorClassesEstablish`: proved only for the corrected steps, against the corrected asserter, and for a coherent registry with no ancestor record of a configured method visible to a collected class.
- `ClassLists.InstrumentClassKeeps`: proved only for a coherent registry; the other `ClassLists` keep and settle lemmas carry the same hypothesis, and the uninstrument ones also `ClassAsserter.NoInheritedRecord`.
- `ClassRoundTrip.HasInstrumentationAfterFullUninstrument`: proved only under `ClassAsserter.NoInheritedRecord` for the method and, for a delegator, when the class holds no record of that name itself; otherwise `has_instrumentation` would still see a class record.
- `Walk.Classes`: `_get_estimator_classes` (`sklearn_instrumentation/instrumentor.py:390-392`) also descends into the `__dict__` of the method records, functions and wrappers it meets. These are leaves here, so a class reachable only through a function's or record's attributes is not collected.
- `Instance.FullUninstrumentClearsRecords`: proved for estimators whose every record sits beside a method attribute (`Instance.Coherent`), which instrumentation preserves.
- `Instance.InstrumentMethods`: the per-method guarantees assume the configured names are not `_skli_` names (`Instance.NonReserved`).
- `has_instrumentation` on instances and `assert_instrumented_package(s)`: only the class form of `has_instrumentation` is modelled.

## Findings

| source | as written | input that shows it | evidently intended | confidence | as-written member | corrected member |
|---|---|---|---|---|---|---|
| sklearn_instrumentation/instrumentor.py:281 | full removal lists `f.__name__` for the keys of `__dict__` that are callable; keys are strings, so the list is always empty | an estimator with `fit` instrumented, then `uninstrument_estimator(e, full=True)`: the `_skli_fit` record and the wrapper stay | visit every callable attribute | high, not executed | Instance.AsWrittenFullKeepsRecords | Instance.FullUninstrumentClearsRecords |
| sklearn_instrumentation/testing.py:118 | the full uninstrumented asserter builds the same empty list, so it checks nothing | the state left by the row above passes `assert_uninstrumented_estimator(e, full=True)` | check every callable attribute | high, not executed | InstanceAsserter.AsWrittenFullCheckMissesRecord | InstanceAsserter.UninstrumentEstimatorChecked |
| sklearn_instrumentation/instrumentor.py:474-478 | the class record is fetched with `getattr`, which also finds an ancestor's `_skli_` record | child C overrides P's instrumented `p`: `instrument_class(C)` extends P's record and wraps P's `p` on C; for a property (only one that exposes `__qualname__`), `instrument_classes([P, C])` then fails `assert_instrumented_classes` on P (testing.py:203) | use the class's own record, created over C's own method | high for methods, low for properties, not executed | ClassFindings.InheritedRecordHijacksOverride, ClassFindings.InheritedRecordBreaksCoherence, ClassFindings.PropertyOverrideClassesAsWritten | Classes.InstrumentOwn, ClassLists.InstrumentClassesEstablish, ClassFindings.PropertyOverrideClassesCorrected |
| sklearn_instrumentation/instrumentor.py:606-617 | on removal the record is fetched with `getattr`, so an ancestor's record is shrunk in place and then deleted from the class, which does not own it | parent P with `fit` instrumented by 7 and child C overriding `fit`; `uninstrument_class(C)` by 7 raises AttributeError at the `delattr`; with a second instrument on P, C's own `fit` is replaced by P's remaining wrapper | use the class's own record only, so C is left alone | high, not executed | ClassFindings.InheritedRecordBreaksUninstrument | Classes.UninstrumentOwn |
| sklearn_instrumentation/instrumentor.py:595 | the property path is called without `full` | only where the property object exposes `__qualname__`: a property with instruments 7 then 8; `uninstrument_class(full=True)` by instrumentor 7 keeps a record with 8 | pass `full`, so the record is dropped and the getter restored | low, not executed | ClassFindings.PropertyFullUninstrumentKeepsRecord | ClassAsserter.UninstrumentClassEstablishes |
| sklearn_instrumentation/testing.py:286-290 | a partially uninstrumented property is required to have `wrapped == fget` and no equal kwargs left | only where the property object exposes `__qualname__`: instruments 7 then 8 with empty kwargs, 7 removed; the getter is 8's wrapper and 8's kwargs equal 7's, so the asserter fails on a correct state | compare `wrapper` with the getter and check the instrument only | low, not executed | ClassFindings.PropertyAsserterRejectsCorrectState | ClassAsserter.UninstrumentClassMethodEstablishes |
| sklearn_instrumentation/instrumentor.py:337-340 | `instrument_classes` runs inside the loop on the accumulated set | two estimators of class E: `E.fit` is instrumented twice | instrument the union once, after the loop | high, not executed | EstimatorClasses.EstimatorsClassesRepeat | EstimatorClasses.InstrumentClassSets |
| sklearn_instrumentation/testing.py:298-299 | the delegator asserter looks for the record on the delegating function, where it never is | an instrumented delegator passes `assert_uninstrumented_classes` | read the record from the descriptor, as the instrumentor does | high, not executed | ClassFindings.DelegatorAsserterIsVacuous | ClassAsserter.UninstrumentDelegatorEstablishes |
| sklearn_instrumentation/instruments/prometheus.py:33 | a function not yet listed gets index 0 | two estimators with equal reprs: the second one's method first reports as `X.transform-0`, the first one's label, and as `-1` afterwards | index by the previous list length, as the statsd timer does | medium, not executed | Prometheus.AsWrittenLabelsCollideAndMove | Prometheus.CallSeparates |

=== FILE: class_asserter.dfy ===
/**
 * The class half of `SklearnInstrumentionAsserter`, and proofs that class
 * instrumentation and uninstrumentation establish what it asserts.
 *
 * An asserter predicate holds exactly when the corresponding `assert_*`
 * method returns normally: a failed `assert` and any other exception both
 * make it false.
 */
module ClassAsserter {
  import opened Wrappers
  import opened Fns
  import opened Config
  import opened MethodRecord
  import opened Objects
  import opened Classes
  import Utils

  // ---------------------------------------------------------------------
  // The asserter predicates
  // ---------------------------------------------------------------------

  /**
   * `_assert_instrumented_class_method`: a plain method's record (looked up
   * along the MRO, without a default) holds this instrument; a property's
   * record also holds its kwargs and its wrapper is the installed getter;
   * a delegator's descriptor record likewise, with the wrapper as `fn`.
   */
  predicate ClassMethodInstrumented(cfg: Instrumentor, reg: Registry, c: ClassId, m: string)
    requires c in reg.classes
  {
    match Classify(reg, c, m)
    case Err(_) => false
    case Ok(p) =>
      match p
      case Skip => true
      case PlainPath(_) =>
        GetRecord(reg, c, m).Some? && cfg.instrument in GetRecord(reg, c, m).value.1.instruments
      case PropertyPath(fget) =>
        && GetRecord(reg, c, m).Some?
        && var rec := GetRecord(reg, c, m).value.1;
           cfg.instrument in rec.instruments && cfg.kwargs in rec.kwargs && rec.wrapper == fget
      case DelegatorPath(_, fn, recs) =>
        && m in recs
        && cfg.instrument in recs[m].instruments && cfg.kwargs in recs[m].kwargs && recs[m].wrapper == fn
  }

  /** `assert_instrumented_class`: excluded classes pass; otherwise every configured method. */
  predicate ClassInstrumented(cfg: Instrumentor, reg: Registry, c: ClassId)
    requires c in reg.classes
  {
    ClassExcluded(cfg, reg, c) || forall m :: m in cfg.methods ==> ClassMethodInstrumented(cfg, reg, c, m)
  }

  /**
   * `_assert_uninstrumented_class_method` as written. The property branch
   * requires the kwargs to be gone and the getter to equal `wrapped`; the
   * delegator branch reads the record from the function `getattr` returns,
   * which never carries one, so it asserts nothing.
   */
  predicate ClassMethodUninstrumentedAsWritten(cfg: Instrumentor, reg: Registry, c: ClassId, m: string, full: bool)
    requires c in reg.classes
  {
    match Classify(reg, c, m)
    case Err(_) => false
    case Ok(p) =>
      match p
      case Skip => true
      case PlainPath(_) =>
        var r := GetRecord(reg, c, m);
        (full ==> r.None?) && (r.Some? ==> cfg.instrument !in r.value.1.instruments)
      case PropertyPath(fget) =>
        var r := GetRecord(reg, c, m);
        && (full ==> r.None?)
        && (r.Some? ==>
              && cfg.instrument !in r.value.1.instruments
              && cfg.kwargs !in r.value.1.kwargs
              && r.value.1.wrapped == fget)
      case DelegatorPath(_, _, _) => true
  }

  /**
   * `_assert_uninstrumented_class_method` as evidently intended: a remaining
   * property record has the installed getter as its `wrapper` (and may keep
   * equal kwargs of other instruments), and the delegator branch inspects
   * the descriptor's record.
   */
  predicate ClassMethodUninstrumented(cfg: Instrumentor, reg: Registry, c: ClassId, m: string, full: bool)
    requires c in reg.classes
  {
    match Classify(reg, c, m)
    case Err(_) => false
    case Ok(p) =>
      match p
      case Skip => true
      case PlainPath(_) =>
        var r := GetRecord(reg, c, m);
        (full ==> r.None?) && (r.Some? ==> cfg.instrument !in r.value.1.instruments)
      case PropertyPath(fget) =>
        var r := GetRecord(reg, c, m);
        && (full ==> r.None?)
        && (r.Some? ==> cfg.instrument !in r.value.1.instruments && r.value.1.wrapper == fget)
      case DelegatorPath(_, fn, recs) =>
        && (full ==> m !in recs)
        && (m in recs ==> cfg.instrument !in recs[m].instruments && recs[m].wrapper == fn)
  }

  // ---------------------------------------------------------------------
  // Frames: what an operation on one method name leaves alone
  // ---------------------------------------------------------------------

  /** Every class keeps its name, its MRO and whether its dictionary and records hold `m`. */
  predicate SameLayout(a: Registry, b: Registry, m: string)
  {
    && a.classes.Keys == b.classes.Keys
    && a.propertyQualname == b.propertyQualname
    && forall x :: x in a.classes ==>
         && b.classes[x].name == a.classes[x].name
         && b.classes[x].ancestors == a.classes[x].ancestors
         && (m in a.classes[x].attrs <==> m in b.classes[x].attrs)
  }

  /** In addition, every value stored under `m` and every record of `m` is unchanged. */
  predicate AgreeAt(a: Registry, b: Registry, m: string)
  {
    && SameLayout(a, b, m)
    && forall x :: x in a.classes ==>
         && (m in a.classes[x].attrs ==> b.classes[x].attrs[m] == a.classes[x].attrs[m])
         && (m in a.classes[x].records <==> m in b.classes[x].records)
         && (m in a.classes[x].records ==> b.classes[x].records[m] == a.classes[x].records[m])
  }

  /** With the layout kept, lookup along any class list stops at the same class. */
  lemma {:induction false} FindAttrLayout(a: Registry, b: Registry, cs: seq<ClassId>, m: string)
    requires SameLayout(a, b, m)
    ensures FindAttr(a, cs, m).None? <==> FindAttr(b, cs, m).None?
    ensures FindAttr(a, cs, m).Some? ==> FindAttr(b, cs, m).value.0 == FindAttr(a, cs, m).value.0
    decreases |cs|
  {
    if |cs| > 0 {
      FindAttrLayout(a, b, cs[1..], m);
    }
  }

  /** With the values and records of `m` kept, both lookups are unchanged. */
  lemma {:induction false} FindAgreeAt(a: Registry, b: Registry, cs: seq<ClassId>, m: string)
    requires AgreeAt(a, b, m)
    ensures FindAttr(b, cs, m) == FindAttr(a, cs, m)
    ensures FindRecord(b, cs, m) == FindRecord(a, cs, m)
    decreases |cs|
  {
    if |cs| > 0 {
      FindAgreeAt(a, b, cs[1..], m);
    }
  }

  /** Two registries showing `c` the same name and the same attribute for `m` classify `m` alike. */
  lemma SameLookupSameClassify(a: Registry, b: Registry, c: ClassId, m: string)
    requires c in a.classes && c in b.classes
    requires a.propertyQualname == b.propertyQualname && b.classes[c].name == a.classes[c].name
    requires Getattr(b, c, m) == Getattr(a, c, m)
    ensures Inherited(b, c, m) == Inherited(a, c, m)
    ensures Classify(b, c, m) == Classify(a, c, m)
  {
    var g := Getattr(a, c, m);
    if g.Some? {
      assert QualnameOf(b, g.value.1) == QualnameOf(a, g.value.1);
      assert Inherited(b, c, m) == Inherited(a, c, m);
    }
  }

  /** A registry that agrees at `m` classifies `m` the same way and resolves the same record. */
  lemma AgreeAtSameView(a: Registry, b: Registry, c: ClassId, m: string)
    requires AgreeAt(a, b, m) && c in a.classes
    ensures Getattr(b, c, m) == Getattr(a, c, m)
    ensures GetRecord(b, c, m) == GetRecord(a, c, m)
    ensures Inherited(b, c, m) == Inherited(a, c, m)
    ensures Classify(b, c, m) == Classify(a, c, m)
  {
    assert Mro(b, c) == Mro(a, c);
    FindAgreeAt(a, b, Mro(a, c), m);
    SameLookupSameClassify(a, b, c, m);
  }

  /** Replacing one class by a class that agrees with it about `m` keeps the registry agreeing at `m`. */
  lemma UpdateAgreesAt(reg: Registry, x: ClassId, cls: Class, m: string)
    requires x in reg.classes
    requires cls.name == reg.classes[x].name && cls.ancestors == reg.classes[x].ancestors
    requires m in cls.attrs <==> m in reg.classes[x].attrs
    requires m in cls.attrs ==> cls.attrs[m] == reg.classes[x].attrs[m]
    requires m in cls.records <==> m in reg.classes[x].records
    requires m in cls.records ==> cls.records[m] == reg.classes[x].records[m]
    ensures AgreeAt(reg, reg.(classes := reg.classes[x := cls]), m)
  {
  }

  /** Instrumenting method `n` of any class leaves everything about another name `m` unchanged. */
  lemma InstrumentClassMethodFrame(cfg: Instrumentor, reg: Registry, c: ClassId, n: string, m: string)
    requires c in reg.classes && n != m
    requires InstrumentClassMethod(cfg, reg, c, n).Ok?
    ensures AgreeAt(reg, InstrumentClassMethod(cfg, reg, c, n).value, m)
  {
    var r := InstrumentClassMethod(cfg, reg, c, n).value;
    match Classify(reg, c, n).value
    case Skip =>
    case PlainPath(f) =>
      UpdateAgreesAt(reg, c, r.classes[c], m);
      assert r == reg.(classes := reg.classes[c := r.classes[c]]);
    case PropertyPath(f) =>
      UpdateAgreesAt(reg, c, r.classes[c], m);
      assert r == reg.(classes := reg.classes[c := r.classes[c]]);
    case DelegatorPath(o, fn, recs) =>
      UpdateAgreesAt(reg, o, r.classes[o], m);
      assert r == reg.(classes := reg.classes[o := r.classes[o]]);
  }

  /** The plain and property uninstrument paths on `n` leave another name `m` alone. */
  lemma UninstrumentOwnFrame(cfg: Instrumentor, reg: Registry, c: ClassId, n: string, isProperty: bool, full: bool, m: string)
    requires c in reg.classes && n != m
    ensures AgreeAt(reg, UninstrumentOwn(cfg, reg, c, n, isProperty, full), m)
  {
    var r := UninstrumentOwn(cfg, reg, c, n, isProperty, full);
    if n in reg.classes[c].records {
      UpdateAgreesAt(reg, c, r.classes[c], m);
      assert r == reg.(classes := reg.classes[c := r.classes[c]]);
    }
  }

  /** The delegator uninstrument path on `n` leaves another name `m` alone. */
  lemma UninstrumentDelegatorFrame(cfg: Instrumentor, reg: Registry, o: ClassId, n: string,
                                   fn: Fn, recs: map<string, ValidRecord>, full: bool, m: string)
    requires o in reg.classes && n != m
    ensures AgreeAt(reg, UninstrumentDelegator(cfg, reg, o, n, fn, recs, full), m)
  {
    var r := UninstrumentDelegator(cfg, reg, o, n, fn, recs, full);
    if n in recs {
      UpdateAgreesAt(reg, o, r.classes[o], m);
      assert r == reg.(classes := reg.classes[o := r.classes[o]]);
    }
  }

  /** Uninstrumenting method `n` of any class leaves everything about another name `m` unchanged. */
  lemma UninstrumentClassMethodFrame(cfg: Instrumentor, reg: Registry, c: ClassId, n: string, full: bool, m: string)
    requires c in reg.classes && n != m
    requires UninstrumentClassMethod(cfg, reg, c, n, full).Ok?
    ensures AgreeAt(reg, UninstrumentClassMethod(cfg, reg, c, n, full).value, m)
  {
    match Classify(reg, c, n).value
    case Skip =>
    case PlainPath(f) => UninstrumentOwnFrame(cfg, reg, c, n, false, full, m);
    case PropertyPath(f) => UninstrumentOwnFrame(cfg, reg, c, n, true, full, m);
    case DelegatorPath(o, fn, recs) => UninstrumentDelegatorFrame(cfg, reg, o, n, fn, recs, full, m);
  }

  // ---------------------------------------------------------------------
  // Instrumentation establishes the instrumented asserter
  // ---------------------------------------------------------------------

  /** After the plain or property path the method passes the asserter. */
  lemma InstrumentOwnEstablishes(cfg: Instrumentor, reg: Registry, c: ClassId, m: string, isProperty: bool, f: Fn)
    requires c in reg.classes
    requires Classify(reg, c, m) == Ok(if isProperty then PropertyPath(f) else PlainPath(f))
    ensures ClassMethodInstrumented(cfg, InstrumentOwn(cfg, reg, c, m, isProperty, f), c, m)
  {
    var r := InstrumentOwn(cfg, reg, c, m, isProperty, f);
    var rec := r.classes[c].records[m];
    assert isProperty ==> reg.propertyQualname;
    ClassifyOwn(r, c, m, isProperty, rec.wrapper);
    assert GetRecord(r, c, m) == Some((c, rec));
  }

  /** When only class `o` changes and keeps `m`, a lookup that stopped at `o` still stops there, at the new value. */
  lemma {:induction false} FindAttrRetarget(a: Registry, b: Registry, cs: seq<ClassId>, m: string, o: ClassId)
    requires a.classes.Keys == b.classes.Keys && o in b.classes && m in b.classes[o].attrs
    requires forall x :: x in a.classes && x != o ==> b.classes[x] == a.classes[x]
    requires FindAttr(a, cs, m).Some? && FindAttr(a, cs, m).value.0 == o
    ensures FindAttr(b, cs, m) == Some((o, b.classes[o].attrs[m]))
    decreases |cs|
  {
    if cs[0] != o {
      FindAttrRetarget(a, b, cs[1..], m, o);
    }
  }

  /** `getattr(cls, m)` after a change to the class it resolved to finds the new value. */
  lemma GetattrRetarget(a: Registry, b: Registry, c: ClassId, m: string, o: ClassId)
    requires c in a.classes && a.classes.Keys == b.classes.Keys && o in b.classes && m in b.classes[o].attrs
    requires forall x :: x in a.classes && x != o ==> b.classes[x] == a.classes[x]
    requires b.classes[o].ancestors == a.classes[o].ancestors
    requires Getattr(a, c, m).Some? && Getattr(a, c, m).value.0 == o
    ensures Getattr(b, c, m) == Some((o, b.classes[o].attrs[m]))
  {
    assert Mro(b, c) == Mro(a, c);
    FindAttrRetarget(a, b, Mro(a, c), m, o);
  }

  /** After the delegator path `getattr(cls, m)` finds the descriptor with the new function and records. */
  lemma InstrumentDelegatorGetattr(cfg: Instrumentor, reg: Registry, c: ClassId, m: string,
                                   o: ClassId, fn: Fn, recs: map<string, ValidRecord>)
    requires c in reg.classes
    requires Getattr(reg, c, m) == Some((o, Delegating(fn, recs)))
    ensures var r := InstrumentDelegator(cfg, reg, o, m, fn, recs);
      var rec := Add(RecordOr(recs, m, fn), cfg.instrument, cfg.kwargs);
      && c in r.classes && r.classes[c].name == reg.classes[c].name
      && Getattr(r, c, m) == Some((o, Delegating(rec.wrapper, recs[m := rec])))
  {
    var r := InstrumentDelegator(cfg, reg, o, m, fn, recs);
    GetattrRetarget(reg, r, c, m, o);
  }

  /** A delegating attribute is skipped when its qualified name names another class, else takes the delegator path. */
  lemma ClassifyDelegating(reg: Registry, c: ClassId, m: string, o: ClassId, w: Fn, rs: map<string, ValidRecord>)
    requires c in reg.classes
    requires Getattr(reg, c, m) == Some((o, Delegating(w, rs)))
    ensures Classify(reg, c, m)
            == if Utils.FirstSegment(Qualname(w)) != reg.classes[c].name then Ok(Skip) else Ok(DelegatorPath(o, w, rs))
  {
  }

  /** After the delegator path the method passes the asserter. */
  lemma InstrumentDelegatorEstablishes(cfg: Instrumentor, reg: Registry, c: ClassId, m: string,
                                       o: ClassId, fn: Fn, recs: map<string, ValidRecord>)
    requires c in reg.classes
    requires Classify(reg, c, m) == Ok(DelegatorPath(o, fn, recs))
    ensures ClassMethodInstrumented(cfg, InstrumentDelegator(cfg, reg, o, m, fn, recs), c, m)
  {
    var r := InstrumentDelegator(cfg, reg, o, m, fn, recs);
    var rec := Add(RecordOr(recs, m, fn), cfg.instrument, cfg.kwargs);
    assert Getattr(reg, c, m) == Some((o, Delegating(fn, recs)));
    InstrumentDelegatorGetattr(cfg, reg, c, m, o, fn, recs);
    ClassifyDelegating(r, c, m, o, rec.wrapper, recs[m := rec]);
  }

  /** `_instrument_class_method` leaves the method passing `_assert_instrumented_class_method`. */
  lemma InstrumentClassMethodEstablishes(cfg: Instrumentor, reg: Registry, c: ClassId, m: string)
    requires c in reg.classes
    requires InstrumentClassMethod(cfg, reg, c, m).Ok?
    ensures ClassMethodInstrumented(cfg, InstrumentClassMethod(cfg, reg, c, m).value, c, m)
  {
    match Classify(reg, c, m).value
    case Skip =>
    case PlainPath(f) => InstrumentOwnEstablishes(cfg, reg, c, m, false, f);
    case PropertyPath(f) => InstrumentOwnEstablishes(cfg, reg, c, m, true, f);
    case DelegatorPath(o, fn, recs) => InstrumentDelegatorEstablishes(cfg, reg, c, m, o, fn, recs);
  }

  /** Instrumenting any method of the same class keeps a passing method passing. */
  lemma InstrumentClassMethodKeeps(cfg: Instrumentor, reg: Registry, c: ClassId, n: string, m: string)
    requires c in reg.classes
    requires ClassMethodInstrumented(cfg, reg, c, m)
    requires InstrumentClassMethod(cfg, reg, c, n).Ok?
    ensures ClassMethodInstrumented(cfg, InstrumentClassMethod(cfg, reg, c, n).value, c, m)
  {
    if n == m {
      InstrumentClassMethodEstablishes(cfg, reg, c, m);
    } else {
      InstrumentClassMethodFrame(cfg, reg, c, n, m);
      AgreeAtSameView(reg, InstrumentClassMethod(cfg, reg, c, n).value, c, m);
    }
  }

  /** Later names of the loop keep an earlier name passing. */
  lemma {:induction false} InstrumentClassMethodsKeep(cfg: Instrumentor, reg: Registry, c: ClassId,
                                                     names: seq<string>, m: string)
    requires c in reg.classes
    requires ClassMethodInstrumented(cfg, reg, c, m)
    requires InstrumentClassMethods(cfg, reg, c, names).Ok?
    ensures ClassMethodInstrumented(cfg, InstrumentClassMethods(cfg, reg, c, names).value, c, m)
    decreases |names|
  {
    if |names| > 0 {
      InstrumentClassMethodKeeps(cfg, reg, c, names[0], m);
      InstrumentClassMethodsKeep(cfg, InstrumentClassMethod(cfg, reg, c, names[0]).value, c, names[1..], m);
    }
  }

  /** After the loop over `names` every one of them passes the asserter. */
  lemma {:induction false} InstrumentClassMethodsEstablish(cfg: Instrumentor, reg: Registry, c: ClassId,
                                                          names: seq<string>)
    requires c in reg.classes
    requires InstrumentClassMethods(cfg, reg, c, names).Ok?
    ensures forall m :: m in names ==> ClassMethodInstrumented(cfg, InstrumentClassMethods(cfg, reg, c, names).value, c, m)
    decreases |names|
  {
    if |names| > 0 {
      var r1 := InstrumentClassMethod(cfg, reg, c, names[0]).value;
      InstrumentClassMethodEstablishes(cfg, reg, c, names[0]);
      InstrumentClassMethodsKeep(cfg, r1, c, names[1..], names[0]);
      InstrumentClassMethodsEstablish(cfg, r1, c, names[1..]);
    }
  }

  /** `instrument_class` establishes `assert_instrumented_class` whenever it returns normally. */
  lemma InstrumentClassEstablishes(cfg: Instrumentor, reg: Registry, c: ClassId)
    requires c in reg.classes
    requires InstrumentClass(cfg, reg, c).Ok?
    ensures c in InstrumentClass(cfg, reg, c).value.classes
    ensures ClassInstrumented(cfg, InstrumentClass(cfg, reg, c).value, c)
  {
    if !ClassExcluded(cfg, reg, c) {
      InstrumentClassMethodsEstablish(cfg, reg, c, cfg.methods);
    }
  }

  // ---------------------------------------------------------------------
  // Uninstrumentation establishes the uninstrumented asserter
  // ---------------------------------------------------------------------

  /** `assert_uninstrumented_class` as evidently intended. */
  predicate ClassUninstrumented(cfg: Instrumentor, reg: Registry, c: ClassId, full: bool)
    requires c in reg.classes
  {
    ClassExcluded(cfg, reg, c) || forall m :: m in cfg.methods ==> ClassMethodUninstrumented(cfg, reg, c, m, full)
  }

  /** No proper ancestor of `c` keeps a record of `m` that the MRO lookup could find instead. */
  predicate NoInheritedRecord(reg: Registry, c: ClassId, m: string)
    requires c in reg.classes
  {
    forall x :: x in reg.classes[c].ancestors && x in reg.classes && x != c ==> m !in reg.classes[x].records
  }

  /** Without inherited records, the MRO lookup of a record finds the class's own or nothing. */
  lemma OwnRecordOnly(reg: Registry, c: ClassId, m: string)
    requires c in reg.classes && NoInheritedRecord(reg, c, m)
    ensures m in reg.classes[c].records ==> GetRecord(reg, c, m) == Some((c, reg.classes[c].records[m]))
    ensures m !in reg.classes[c].records ==> GetRecord(reg, c, m).None?
  {
  }

  /** After the plain or property uninstrument path the method passes the asserter. */
  lemma UninstrumentOwnEstablishes(cfg: Instrumentor, reg: Registry, c: ClassId, m: string,
                                   isProperty: bool, f: Fn, full: bool)
    requires c in reg.classes && NoInheritedRecord(reg, c, m)
    requires Classify(reg, c, m) == Ok(if isProperty then PropertyPath(f) else PlainPath(f))
    ensures ClassMethodUninstrumented(cfg, UninstrumentOwn(cfg, reg, c, m, isProperty, full), c, m, full)
  {
    var r := UninstrumentOwn(cfg, reg, c, m, isProperty, full);
    assert isProperty ==> reg.propertyQualname;
    OwnRecordOnly(reg, c, m);
    if m in reg.classes[c].records {
      var rec := Remove(reg.classes[c].records[m], cfg.instrument);
      assert NoInheritedRecord(r, c, m);
      OwnRecordOnly(r, c, m);
      if full || Empty(rec) {
        ClassifyOwn(r, c, m, isProperty, rec.wrapped);
      } else {
        ClassifyOwn(r, c, m, isProperty, rec.wrapper);
      }
    }
  }

  /** After the delegator uninstrument path the method passes the asserter. */
  lemma UninstrumentDelegatorEstablishes(cfg: Instrumentor, reg: Registry, c: ClassId, m: string,
                                         o: ClassId, fn: Fn, recs: map<string, ValidRecord>, full: bool)
    requires c in reg.classes
    requires Classify(reg, c, m) == Ok(DelegatorPath(o, fn, recs))
    ensures ClassMethodUninstrumented(cfg, UninstrumentDelegator(cfg, reg, o, m, fn, recs, full), c, m, full)
  {
    var r := UninstrumentDelegator(cfg, reg, o, m, fn, recs, full);
    if m in recs {
      var rec := Remove(recs[m], cfg.instrument);
      GetattrRetarget(reg, r, c, m, o);
      if full || Empty(rec) {
        ClassifyDelegating(r, c, m, o, rec.wrapped, recs - {m});
      } else {
        ClassifyDelegating(r, c, m, o, rec.wrapper, recs[m := rec]);
      }
    }
  }

  /** `_uninstrument_class_method` leaves the method passing the asserter, given no inherited record. */
  lemma UninstrumentClassMethodEstablishes(cfg: Instrumentor, reg: Registry, c: ClassId, m: string, full: bool)
    requires c in reg.classes && NoInheritedRecord(reg, c, m)
    requires UninstrumentClassMethod(cfg, reg, c, m, full).Ok?
    ensures ClassMethodUninstrumented(cfg, UninstrumentClassMethod(cfg, reg, c, m, full).value, c, m, full)
  {
    match Classify(reg, c, m).value
    case Skip =>
      OwnRecordOnly(reg, c, m);
    case PlainPath(f) => UninstrumentOwnEstablishes(cfg, reg, c, m, false, f, full);
    case PropertyPath(f) => UninstrumentOwnEstablishes(cfg, reg, c, m, true, f, full);
    case DelegatorPath(o, fn, recs) => UninstrumentDelegatorEstablishes(cfg, reg, c, m, o, fn, recs, full);
  }

  /** `b` has the classes and ancestries of `a`, and no record `a` did not have. */
  predicate RecordsShrink(a: Registry, b: Registry)
  {
    && b.classes.Keys == a.classes.Keys
    && (forall x :: x in a.classes ==> b.classes[x].ancestors == a.classes[x].ancestors)
    && (forall x, m :: x in a.classes && m in b.classes[x].records ==> m in a.classes[x].records)
  }

  lemma UninstrumentOwnShrinks(cfg: Instrumentor, a: Registry, d: ClassId, n: string, isProperty: bool, full: bool)
    requires d in a.classes
    ensures RecordsShrink(a, UninstrumentOwn(cfg, a, d, n, isProperty, full))
  {
  }

  lemma UninstrumentDelegatorShrinks(cfg: Instrumentor, a: Registry, o: ClassId, n: string,
                                     fn: Fn, recs: map<string, ValidRecord>, full: bool)
    requires o in a.classes
    ensures RecordsShrink(a, UninstrumentDelegator(cfg, a, o, n, fn, recs, full))
  {
  }

  /** Uninstrumenting removes records or shrinks them in place; it never adds one. */
  lemma UninstrumentShrinks(cfg: Instrumentor, a: Registry, d: ClassId, n: string, full: bool)
    requires d in a.classes && UninstrumentClassMethod(cfg, a, d, n, full).Ok?
    ensures RecordsShrink(a, UninstrumentClassMethod(cfg, a, d, n, full).value)
  {
    var b := UninstrumentClassMethod(cfg, a, d, n, full).value;
    match Classify(a, d, n).value
    case Skip =>
    case PlainPath(_) =>
      assert b == UninstrumentOwn(cfg, a, d, n, false, full);
      UninstrumentOwnShrinks(cfg, a, d, n, false, full);
    case PropertyPath(_) =>
      assert b == UninstrumentOwn(cfg, a, d, n, true, full);
      UninstrumentOwnShrinks(cfg, a, d, n, true, full);
    case DelegatorPath(o, fn, recs) =>
      assert b == UninstrumentDelegator(cfg, a, o, n, fn, recs, full);
      UninstrumentDelegatorShrinks(cfg, a, o, n, fn, recs, full);
  }

  /** Uninstrumenting any method of any class `d` never makes a record of `m` visible to `c` where none was. */
  lemma UninstrumentClassMethodNoInherited(cfg: Instrumentor, reg: Registry, d: ClassId, n: string, full: bool,
                                           c: ClassId, m: string)
    requires d in reg.classes && c in reg.classes && NoInheritedRecord(reg, c, m)
    requires UninstrumentClassMethod(cfg, reg, d, n, full).Ok?
    ensures NoInheritedRecord(UninstrumentClassMethod(cfg, reg, d, n, full).value, c, m)
  {
    UninstrumentShrinks(cfg, reg, d, n, full);
  }


  /** Uninstrumenting any method of the same class keeps a passing method passing. */
  lemma UninstrumentClassMethodKeeps(cfg: Instrumentor, reg: Registry, c: ClassId, n: string, full: bool, m: string)
    requires c in reg.classes && NoInheritedRecord(reg, c, m)
    requires ClassMethodUninstrumented(cfg, reg, c, m, full)
    requires UninstrumentClassMethod(cfg, reg, c, n, full).Ok?
    ensures ClassMethodUninstrumented(cfg, UninstrumentClassMethod(cfg, reg, c, n, full).value, c, m, full)
  {
    if n == m {
      UninstrumentClassMethodEstablishes(cfg, reg, c, m, full);
    } else {
      UninstrumentClassMethodFrame(cfg, reg, c, n, full, m);
      AgreeAtSameView(reg, UninstrumentClassMethod(cfg, reg, c, n, full).value, c, m);
    }
  }

  /** Later names of the loop keep an earlier name passing. */
  lemma {:induction false} UninstrumentClassMethodsKeep(cfg: Instrumentor, reg: Registry, c: ClassId,
                                                       names: seq<string>, full: bool, m: string)
    requires c in reg.classes && NoInheritedRecord(reg, c, m)
    requires ClassMethodUninstrumented(cfg, reg, c, m, full)
    requires UninstrumentClassMethods(cfg, reg, c, names, full).Ok?
    ensures ClassMethodUninstrumented(cfg, UninstrumentClassMethods(cfg, reg, c, names, full).value, c, m, full)
    decreases |names|
  {
    if |names| > 0 {
      var r1 := UninstrumentClassMethod(cfg, reg, c, names[0], full).value;
      UninstrumentClassMethodKeeps(cfg, reg, c, names[0], full, m);
      UninstrumentClassMethodNoInherited(cfg, reg, c, names[0], full, c, m);
      UninstrumentClassMethodsKeep(cfg, r1, c, names[1..], full, m);
    }
  }

  /** After the loop over `names` every one of them passes the asserter. */
  lemma {:induction false} UninstrumentClassMethodsEstablish(cfg: Instrumentor, reg: Registry, c: ClassId,
                                                            names: seq<string>, full: bool)
    requires c in reg.classes
    requires forall m :: m in names ==> NoInheritedRecord(reg, c, m)
    requires UninstrumentClassMethods(cfg, reg, c, names, full).Ok?
    ensures forall m :: m in names ==>
      ClassMethodUninstrumented(cfg, UninstrumentClassMethods(cfg, reg, c, names, full).value, c, m, full)
    decreases |names|
  {
    if |names| > 0 {
      var r1 := UninstrumentClassMethod(cfg, reg, c, names[0], full).value;
      UninstrumentClassMethodEstablishes(cfg, reg, c, names[0], full);
      forall m | m in names
        ensures NoInheritedRecord(r1, c, m)
      {
        UninstrumentClassMethodNoInherited(cfg, reg, c, names[0], full, c, m);
      }
      UninstrumentClassMethodsKeep(cfg, r1, c, names[1..], full, names[0]);
      UninstrumentClassMethodsEstablish(cfg, r1, c, names[1..], full);
    }
  }

  /**
   * `uninstrument_class` establishes `assert_uninstrumented_class` whenever
   * it returns normally, provided no ancestor keeps records of the configured
   * methods (the asserter looks records up along the MRO).
   */
  lemma UninstrumentClassEstablishes(cfg: Instrumentor, reg: Registry, c: ClassId, full: bool)
    requires c in reg.classes
    requires forall m :: m in cfg.methods ==> NoInheritedRecord(reg, c, m)
    requires UninstrumentClass(cfg, reg, c, full).Ok?
    ensures c in UninstrumentClass(cfg, reg, c, full).value.classes
    ensures ClassUninstrumented(cfg, UninstrumentClass(cfg, reg, c, full).value, c, full)
  {
    UninstrumentClassMethodsEstablish(cfg, reg, c, cfg.methods, full);
  }
}

=== FILE: class_findings.dfy ===
/**
 * Discrepancies in class-level instrumentation and its asserter, each
 * stated twice: the code as written, with a concrete registry on which it
 * goes wrong, and the evidently intended behaviour the rest of the model
 * uses, with the property it was meant to have.
 */
module ClassFindings {
  import opened Wrappers
  import opened Fns
  import opened Config
  import opened MethodRecord
  import opened Objects
  import opened Classes
  import opened ClassAsserter
  import ClassLists
  import Utils

  // ---------------------------------------------------------------------
  // Records found along the MRO (instrumentor.py, `_instrument_class_method`
  // and `_instrument_property`)
  // ---------------------------------------------------------------------

  /**
   * The plain and property paths as written: the record is fetched with
   * `getattr`, so it may belong to an ancestor. That record object is
   * extended in place, so the ancestor sees the new layer too, and its
   * wrapper is installed on `c`; a record is stored on `c` only when none
   * was found anywhere along the MRO.
   */
  function InstrumentOwnAsWritten(cfg: Instrumentor, reg: Registry, c: ClassId, m: string, isProperty: bool, f: Fn)
    : (r: Registry)
    requires c in reg.classes
    ensures r.classes.Keys == reg.classes.Keys
    ensures GetRecord(reg, c, m).None? || GetRecord(reg, c, m).value.0 == c ==> r == InstrumentOwn(cfg, reg, c, m, isProperty, f)
    ensures GetRecord(reg, c, m).Some? && GetRecord(reg, c, m).value.0 != c ==>
      r == ExtendFoundRecord(cfg, reg, c, m, isProperty, GetRecord(reg, c, m).value.0, GetRecord(reg, c, m).value.1)
  {
    match GetRecord(reg, c, m)
    case None => InstrumentOwn(cfg, reg, c, m, isProperty, f)
    case Some(found) =>
      if found.0 == c then InstrumentOwn(cfg, reg, c, m, isProperty, f)
      else ExtendFoundRecord(cfg, reg, c, m, isProperty, found.0, found.1)
  }

  /**
   * Extending the record found on class `x` in place and installing its
   * wrapper on `c`: `x` gains the layer in its record only, `c` in its
   * attribute only.
   */
  function ExtendFoundRecord(cfg: Instrumentor, reg: Registry, c: ClassId, m: string, isProperty: bool,
                             x: ClassId, found: ValidRecord) : (r: Registry)
    requires c in reg.classes && x in reg.classes && x != c
    ensures r.classes.Keys == reg.classes.Keys
    ensures var rec := Add(found, cfg.instrument, cfg.kwargs);
      && r.classes[c].attrs == reg.classes[c].attrs[m := AsAttr(isProperty, rec.wrapper)]
      && r.classes[c].records == reg.classes[c].records
      && r.classes[x].attrs == reg.classes[x].attrs
      && r.classes[x].records == reg.classes[x].records[m := rec]
  {
    var rec := Add(found, cfg.instrument, cfg.kwargs);
    var px := reg.classes[x];
    var pc := reg.classes[c];
    reg.(classes := reg.classes[x := px.(records := px.records[m := rec])][c := pc.(attrs := pc.attrs[m := AsAttr(isProperty, rec.wrapper)])])
  }

  /** `_instrument_class_method` as written. */
  function InstrumentClassMethodAsWritten(cfg: Instrumentor, reg: Registry, c: ClassId, m: string)
    : (r: Result<Registry>)
    requires c in reg.classes
    ensures r.Err? <==> Classify(reg, c, m).Err?
    ensures r.Ok? ==> r.value.classes.Keys == reg.classes.Keys
  {
    match Classify(reg, c, m)
    case Err(e) => Err(e)
    case Ok(p) =>
      match p
      case Skip => Ok(reg)
      case PlainPath(f) => Ok(InstrumentOwnAsWritten(cfg, reg, c, m, false, f))
      case PropertyPath(fget) => Ok(InstrumentOwnAsWritten(cfg, reg, c, m, true, fget))
      case DelegatorPath(o, fn, recs) => Ok(InstrumentDelegator(cfg, reg, o, m, fn, recs))
  }

  /** When no ancestor holds a record for `m`, the code as written agrees with the corrected one. */
  lemma AsWrittenAgreesWithoutInheritedRecord(cfg: Instrumentor, reg: Registry, c: ClassId, m: string)
    requires c in reg.classes && NoInheritedRecord(reg, c, m)
    ensures InstrumentClassMethodAsWritten(cfg, reg, c, m) == InstrumentClassMethod(cfg, reg, c, m)
  {
    OwnRecordOnly(reg, c, m);
  }

  /** An instrumentor with instrument `i`, no kwargs, one method name and nothing excluded. */
  function OneMethod(i: InstrumentId, m: string): Instrumentor
  {
    Instrumentor(i, map[], [m], {})
  }

  /**
   * Class `P` (id 0) whose `fit` already carries instrument 7, and its
   * subclass `C` (id 1) that overrides `fit` and has not been instrumented.
   */
  function OverrideRegistry(): Registry
  {
    var pfit := Orig(0, "P.fit");
    var prec := Record(pfit, Wrap(7, map[], pfit), [7], [map[]]);
    assert Valid(prec);
    Registry(map[
      0 := Class("P", {"P"}, [], map["fit" := Function(prec.wrapper)], map["fit" := prec]),
      1 := Class("C", {"C", "P"}, [0], map["fit" := Function(Orig(1, "C.fit"))], map[])],
      false)
  }

  /**
   * Whenever the record `getattr` finds belongs to an ancestor, the code as
   * written installs on `c` that ancestor's wrapper with one more layer,
   * whatever `c`'s own method is, and adds the layer to the ancestor's record
   * although the ancestor's attribute does not change. As intended, `c`'s own
   * method is wrapped once and the ancestor is untouched.
   */
  lemma InheritedRecordHijacksOverride(cfg: Instrumentor, reg: Registry, c: ClassId, m: string, f: Fn)
    requires c in reg.classes
    requires Classify(reg, c, m) == Ok(PlainPath(f))
    requires GetRecord(reg, c, m).Some? && GetRecord(reg, c, m).value.0 != c
    ensures var (x, found) := GetRecord(reg, c, m).value;
      var w := InstrumentClassMethodAsWritten(cfg, reg, c, m);
      && w.Ok?
      && w.value.classes[c].attrs[m] == Function(Wrap(cfg.instrument, cfg.kwargs, found.wrapper))
      && w.value.classes[x].records[m].instruments == found.instruments + [cfg.instrument]
      && w.value.classes[x].attrs == reg.classes[x].attrs
    ensures var (x, found) := GetRecord(reg, c, m).value;
      var r := InstrumentClassMethod(cfg, reg, c, m);
      && r.Ok?
      && r.value.classes[c].attrs[m] == Function(Wrap(cfg.instrument, cfg.kwargs, f))
      && r.value.classes[x] == reg.classes[x]
  {
  }

  /**
   * The situation arises: `P` (id 0) has had `fit` instrumented and its
   * subclass `C` (id 1) overrides `fit` with its own function, which as
   * written ends up replaced by `P.fit` wrapped twice.
   */
  lemma OverrideRegistryHijacked()
    ensures var reg := OverrideRegistry();
      && 1 in reg.classes
      && Classify(reg, 1, "fit") == Ok(PlainPath(Orig(1, "C.fit")))
      && GetRecord(reg, 1, "fit").Some? && GetRecord(reg, 1, "fit").value.0 == 0
      && GetRecord(reg, 1, "fit").value.1.wrapper == Wrap(7, map[], Orig(0, "P.fit"))
  {
    var reg := OverrideRegistry();
    Utils.MethodIsInheritedByDefiner("C", "fit", Some("C"), "C");
    assert Mro(reg, 1) == [1, 0];
    assert Getattr(reg, 1, "fit") == Some((1, Function(Orig(1, "C.fit"))));
  }

  /**
   * Uninstrumenting a plain method whose only record belongs to an ancestor
   * `x`: as written, the ancestor's record loses the layer in place and then
   * either `delattr` on `c` raises AttributeError (a full removal, or the
   * record is left empty) or `c`'s own method is replaced by the ancestor's
   * remaining wrapper. As intended, `c` has nothing to undo and nothing
   * changes.
   */
  lemma InheritedRecordBreaksUninstrument(cfg: Instrumentor, reg: Registry, c: ClassId, m: string, f: Fn, full: bool)
    requires c in reg.classes
    requires Classify(reg, c, m) == Ok(PlainPath(f))
    requires GetRecord(reg, c, m).Some? && GetRecord(reg, c, m).value.0 != c
    ensures var (x, found) := GetRecord(reg, c, m).value;
      var rec := Remove(found, cfg.instrument);
      var w := UninstrumentClassMethodAsWritten(cfg, reg, c, m, full);
      && (full || Empty(rec) ==> w == Err(AttributeError))
      && (!full && !Empty(rec) ==>
            && w.Ok?
            && w.value.classes[c].attrs[m] == Function(rec.wrapper)
            && w.value.classes[x].records[m] == rec)
    ensures UninstrumentClassMethod(cfg, reg, c, m, full) == Ok(reg)
  {
    var (x, found) := GetRecord(reg, c, m).value;
    assert m !in reg.classes[c].records;
  }

  /**
   * Uninstrumenting `C` by instrument 7, which only ever instrumented `P`:
   * as written both a full and a partial removal raise AttributeError (the
   * record left is empty), while the intended uninstrument leaves the
   * registry as it was.
   */
  lemma OverrideRegistryUninstrumentRaises(full: bool)
    ensures var cfg := OneMethod(7, "fit"); var reg := OverrideRegistry();
      && 1 in reg.classes
      && UninstrumentClassMethodAsWritten(cfg, reg, 1, "fit", full) == Err(AttributeError)
      && UninstrumentClassMethod(cfg, reg, 1, "fit", full) == Ok(reg)
  {
    var cfg := OneMethod(7, "fit");
    var reg := OverrideRegistry();
    OverrideRegistryHijacked();
    var found := GetRecord(reg, 1, "fit").value.1;
    assert found.instruments == [7] && found.kwargs == [map[]];
    assert FilterOut([7], [map[]], 7) == ([], []);
    assert Empty(Remove(found, 7));
    InheritedRecordBreaksUninstrument(cfg, reg, 1, "fit", Orig(1, "C.fit"), full);
  }

  // ---------------------------------------------------------------------
  // The class lists as written (`instrument_class`, `instrument_classes`)
  // ---------------------------------------------------------------------

  /** The loop of `instrument_class` over method names, with the step as written. */
  function InstrumentClassMethodsAsWritten(cfg: Instrumentor, reg: Registry, c: ClassId, names: seq<string>)
    : (r: Result<Registry>)
    requires c in reg.classes
    ensures names == [] ==> r == Ok(reg)
    ensures r.Ok? ==> r.value.classes.Keys == reg.classes.Keys
    decreases |names|
  {
    if |names| == 0 then Ok(reg)
    else
      match InstrumentClassMethodAsWritten(cfg, reg, c, names[0])
      case Err(e) => Err(e)
      case Ok(r1) => InstrumentClassMethodsAsWritten(cfg, r1, c, names[1..])
  }

  /** `instrument_class` as written. */
  function InstrumentClassAsWritten(cfg: Instrumentor, reg: Registry, c: ClassId): (r: Result<Registry>)
    requires c in reg.classes
    ensures ClassExcluded(cfg, reg, c) ==> r == Ok(reg)
    ensures r.Ok? ==> r.value.classes.Keys == reg.classes.Keys
  {
    if ClassExcluded(cfg, reg, c) then Ok(reg)
    else InstrumentClassMethodsAsWritten(cfg, reg, c, cfg.methods)
  }

  /** `instrument_classes` as written: each class in turn; an exception ends the loop. */
  function InstrumentClassesAsWritten(cfg: Instrumentor, reg: Registry, cs: seq<ClassId>): (r: Result<Registry>)
    requires forall x :: x in cs ==> x in reg.classes
    ensures cs == [] ==> r == Ok(reg)
    ensures r.Ok? ==> r.value.classes.Keys == reg.classes.Keys
    decreases |cs|
  {
    if |cs| == 0 then Ok(reg)
    else
      match InstrumentClassAsWritten(cfg, reg, cs[0])
      case Err(e) => Err(e)
      case Ok(r1) => InstrumentClassesAsWritten(cfg, r1, cs[1..])
  }

  /** Instrumenting `c`'s own function adds a record to `c` only, so no ancestor of `c` gains one. */
  lemma InstrumentOwnNoInherited(cfg: Instrumentor, reg: Registry, c: ClassId, n: string, isProperty: bool,
                                 f: Fn, m: string)
    requires c in reg.classes && NoInheritedRecord(reg, c, m)
    ensures NoInheritedRecord(InstrumentOwn(cfg, reg, c, n, isProperty, f), c, m)
  {
    var r := InstrumentOwn(cfg, reg, c, n, isProperty, f);
    assert r.classes[c].ancestors == reg.classes[c].ancestors;
    forall x | x in r.classes[c].ancestors && x in r.classes && x != c
      ensures m !in r.classes[x].records
    {
      assert r.classes[x] == reg.classes[x];
    }
  }

  /** Instrumenting a descriptor changes no record dictionary, so no ancestor of `c` gains one. */
  lemma InstrumentDelegatorNoInherited(cfg: Instrumentor, reg: Registry, c: ClassId, o: ClassId, n: string,
                                       fn: Fn, recs: map<string, ValidRecord>, m: string)
    requires c in reg.classes && o in reg.classes && NoInheritedRecord(reg, c, m)
    ensures NoInheritedRecord(InstrumentDelegator(cfg, reg, o, n, fn, recs), c, m)
  {
    var r := InstrumentDelegator(cfg, reg, o, n, fn, recs);
    assert r.classes[c].ancestors == reg.classes[c].ancestors;
    forall x | x in r.classes[c].ancestors && x in r.classes && x != c
      ensures m !in r.classes[x].records
    {
      assert r.classes[x].records == reg.classes[x].records;
    }
  }

  /** The corrected step on `c` adds records to `c` or to no class, so no ancestor of `c` gains one. */
  lemma InstrumentClassMethodNoInherited(cfg: Instrumentor, reg: Registry, c: ClassId, n: string, m: string)
    requires c in reg.classes && NoInheritedRecord(reg, c, m)
    requires InstrumentClassMethod(cfg, reg, c, n).Ok?
    ensures NoInheritedRecord(InstrumentClassMethod(cfg, reg, c, n).value, c, m)
  {
    var r := InstrumentClassMethod(cfg, reg, c, n).value;
    match Classify(reg, c, n).value
    case Skip =>
    case PlainPath(f) =>
      assert r == InstrumentOwn(cfg, reg, c, n, false, f);
      InstrumentOwnNoInherited(cfg, reg, c, n, false, f, m);
    case PropertyPath(f) =>
      assert r == InstrumentOwn(cfg, reg, c, n, true, f);
      InstrumentOwnNoInherited(cfg, reg, c, n, true, f, m);
    case DelegatorPath(o, fn, recs) =>
      assert r == InstrumentDelegator(cfg, reg, o, n, fn, recs);
      InstrumentDelegatorNoInherited(cfg, reg, c, o, n, fn, recs, m);
  }

  /**
   * When no ancestor of `c` holds a record of a listed method, the loop as
   * written agrees with the corrected one.
   */
  lemma {:induction false} AsWrittenMethodsAgree(cfg: Instrumentor, reg: Registry, c: ClassId, names: seq<string>)
    requires c in reg.classes
    requires forall m :: m in names ==> NoInheritedRecord(reg, c, m)
    ensures InstrumentClassMethodsAsWritten(cfg, reg, c, names) == InstrumentClassMethods(cfg, reg, c, names)
    decreases |names|
  {
    if |names| > 0 {
      AsWrittenAgreesWithoutInheritedRecord(cfg, reg, c, names[0]);
      match InstrumentClassMethod(cfg, reg, c, names[0])
      case Err(_) =>
      case Ok(r1) =>
        forall m | m in names[1..]
          ensures NoInheritedRecord(r1, c, m)
        {
          InstrumentClassMethodNoInherited(cfg, reg, c, names[0], m);
        }
        AsWrittenMethodsAgree(cfg, r1, c, names[1..]);
    }
  }

  /**
   * The list-level effect of the record found along the MRO: when `c`'s own
   * plain method or property is instrumented while an ancestor `x` holds a
   * record of it beside the function `x` shows, the step as written extends
   * `x`'s record, which then no longer wraps what `x` shows; the registry is
   * no longer coherent. The corrected step keeps it coherent.
   */
  lemma InheritedRecordBreaksCoherence(cfg: Instrumentor, reg: Registry, c: ClassId, m: string, isProperty: bool, f: Fn)
    requires c in reg.classes && ClassLists.Coherent(reg, m)
    requires Classify(reg, c, m) == Ok(if isProperty then PropertyPath(f) else PlainPath(f))
    requires GetRecord(reg, c, m).Some? && GetRecord(reg, c, m).value.0 != c
    requires var x := GetRecord(reg, c, m).value.0;
      m in reg.classes[x].attrs && (reg.classes[x].attrs[m].Function? || reg.classes[x].attrs[m].Property?)
    ensures var (x, found) := GetRecord(reg, c, m).value;
      var w := InstrumentClassMethodAsWritten(cfg, reg, c, m);
      && w.Ok? && x in w.value.classes
      && w.value.classes[x].attrs[m] == reg.classes[x].attrs[m]
      && w.value.classes[x].records[m].wrapper == Wrap(cfg.instrument, cfg.kwargs, found.wrapper)
      && !ClassLists.Coherent(w.value, m)
    ensures InstrumentClassMethod(cfg, reg, c, m).Ok?
    ensures ClassLists.Coherent(InstrumentClassMethod(cfg, reg, c, m).value, m)
  {
    var (x, found) := GetRecord(reg, c, m).value;
    var w := InstrumentClassMethodAsWritten(cfg, reg, c, m).value;
    assert w == ExtendFoundRecord(cfg, reg, c, m, isProperty, x, found);
    assert ClassLists.Beside(reg, x, m);
    ExtendBreaksBeside(cfg, reg, c, m, isProperty, x, found);
    ClassLists.InstrumentKeepsCoherent(cfg, reg, c, m, m);
  }

  /** Extending `x`'s record while `x` keeps its attribute leaves the record beside a different function. */
  lemma ExtendBreaksBeside(cfg: Instrumentor, reg: Registry, c: ClassId, m: string, isProperty: bool,
                           x: ClassId, found: ValidRecord)
    requires c in reg.classes && x in reg.classes && x != c
    requires m in reg.classes[x].records && reg.classes[x].records[m] == found
    requires m in reg.classes[x].attrs && (reg.classes[x].attrs[m].Function? || reg.classes[x].attrs[m].Property?)
    requires ClassLists.Beside(reg, x, m)
    ensures var w := ExtendFoundRecord(cfg, reg, c, m, isProperty, x, found);
      && w.classes[x].attrs[m] == reg.classes[x].attrs[m]
      && w.classes[x].records[m].wrapper == Wrap(cfg.instrument, cfg.kwargs, found.wrapper)
      && !ClassLists.Beside(w, x, m)
  {
    var w := ExtendFoundRecord(cfg, reg, c, m, isProperty, x, found);
    var a := reg.classes[x].attrs[m];
    var shown := if a.Function? then a.f else a.fget;
    assert found.wrapper == shown;
    assert Wrap(cfg.instrument, cfg.kwargs, shown) != shown;
  }

  /**
   * Class `P` (id 0) with a property `p`, and its subclass `C` (id 1) that
   * overrides it; neither is instrumented, and properties expose their
   * getter's qualified name. A builtin `property` does not, and there the
   * first class step already raises (`BuiltinPropertyRaises`).
   */
  function PropertyOverrideRegistry(): Registry
  {
    Registry(map[
      0 := Class("P", {"P"}, [], map["p" := Property(Orig(0, "P.p"))], map[]),
      1 := Class("C", {"C", "P"}, [0], map["p" := Property(Orig(1, "C.p"))], map[])],
      true)
  }

  /** `P`'s record after one addition of instrument 7 to its getter. */
  function PropertyRecordOnce(): (r: ValidRecord)
    ensures r.wrapped == Orig(0, "P.p") && r.instruments == [7]
  {
    var g := Orig(0, "P.p");
    var rec := Record(g, Wrap(7, map[], g), [7], [map[]]);
    assert Valid(rec);
    rec
  }

  /** `P`'s record after two additions of instrument 7. */
  function PropertyRecordTwice(): (r: ValidRecord)
    ensures r.wrapped == Orig(0, "P.p") && r.instruments == [7, 7]
    ensures r.wrapper == Wrap(7, map[], PropertyRecordOnce().wrapper)
  {
    var g := Orig(0, "P.p");
    var rec := Record(g, Wrap(7, map[], Wrap(7, map[], g)), [7, 7], [map[], map[]]);
    assert Valid(rec);
    rec
  }

  /** The registry after `P`'s step: `P` shows its getter wrapped once and holds the matching record. */
  function PropertyOverrideAfterP(): Registry
  {
    var rec := PropertyRecordOnce();
    Registry(map[
      0 := Class("P", {"P"}, [], map["p" := Property(rec.wrapper)], map["p" := rec]),
      1 := Class("C", {"C", "P"}, [0], map["p" := Property(Orig(1, "C.p"))], map[])],
      true)
  }

  /** The registry after `C`'s step as written: `P`'s record has two layers, and `C` shows their wrapper. */
  function PropertyOverrideAfterC(): Registry
  {
    var rec := PropertyRecordOnce();
    var rec2 := PropertyRecordTwice();
    Registry(map[
      0 := Class("P", {"P"}, [], map["p" := Property(rec.wrapper)], map["p" := rec2]),
      1 := Class("C", {"C", "P"}, [0], map["p" := Property(rec2.wrapper)], map[])],
      true)
  }

  /** `P` takes the property path on its own getter and finds no record. */
  lemma PropertyOverrideClassifyP()
    ensures Classify(PropertyOverrideRegistry(), 0, "p") == Ok(PropertyPath(Orig(0, "P.p")))
    ensures GetRecord(PropertyOverrideRegistry(), 0, "p").None?
  {
    var reg := PropertyOverrideRegistry();
    Utils.MethodIsInheritedByDefiner("P", "p", Some("P"), "P");
    assert Mro(reg, 0) == [0];
  }

  /** Instrumenting `P`'s own property gives the registry after `P`'s step. */
  lemma PropertyOverrideOwnP()
    ensures InstrumentOwn(OneMethod(7, "p"), PropertyOverrideRegistry(), 0, "p", true, Orig(0, "P.p"))
      == PropertyOverrideAfterP()
  {
    var reg := PropertyOverrideRegistry();
    var want := PropertyOverrideAfterP();
    var r1 := InstrumentOwn(OneMethod(7, "p"), reg, 0, "p", true, Orig(0, "P.p"));
    assert RecordOr(reg.classes[0].records, "p", Orig(0, "P.p")) == New(Orig(0, "P.p"));
    assert Add(New(Orig(0, "P.p")), 7, map[]) == PropertyRecordOnce();
    assert r1.classes[0] == want.classes[0];
    assert r1.classes[1] == want.classes[1];
    assert r1.classes == want.classes;
  }

  /** `P`'s step, as written and corrected alike. */
  lemma PropertyOverrideStepP()
    ensures InstrumentClassAsWritten(OneMethod(7, "p"), PropertyOverrideRegistry(), 0) == Ok(PropertyOverrideAfterP())
    ensures InstrumentClass(OneMethod(7, "p"), PropertyOverrideRegistry(), 0) == Ok(PropertyOverrideAfterP())
  {
    var cfg := OneMethod(7, "p");
    var reg := PropertyOverrideRegistry();
    PropertyOverrideClassifyP();
    PropertyOverrideOwnP();
    var r1 := PropertyOverrideAfterP();
    assert InstrumentClassMethodAsWritten(cfg, reg, 0, "p") == Ok(r1);
    assert InstrumentClassMethod(cfg, reg, 0, "p") == Ok(r1);
    assert !ClassExcluded(cfg, reg, 0);
    assert InstrumentClassMethodsAsWritten(cfg, reg, 0, ["p"]) == InstrumentClassMethodsAsWritten(cfg, r1, 0, []);
    assert InstrumentClassMethods(cfg, reg, 0, ["p"]) == InstrumentClassMethods(cfg, r1, 0, []);
  }

  /** After `P`'s step, `C` takes the property path on its own getter, and its record lookup finds `P`'s. */
  lemma PropertyOverrideClassifyC()
    ensures Classify(PropertyOverrideAfterP(), 1, "p") == Ok(PropertyPath(Orig(1, "C.p")))
    ensures GetRecord(PropertyOverrideAfterP(), 1, "p") == Some((0, PropertyRecordOnce()))
  {
    var r1 := PropertyOverrideAfterP();
    Utils.MethodIsInheritedByDefiner("C", "p", Some("C"), "C");
    assert Mro(r1, 1) == [1, 0];
    assert Getattr(r1, 1, "p") == Some((1, Property(Orig(1, "C.p"))));
  }

  /** Extending `P`'s record from `C` gives the registry after `C`'s step as written. */
  lemma PropertyOverrideExtendC()
    ensures ExtendFoundRecord(OneMethod(7, "p"), PropertyOverrideAfterP(), 1, "p", true, 0, PropertyRecordOnce())
      == PropertyOverrideAfterC()
  {
    var r2 := ExtendFoundRecord(OneMethod(7, "p"), PropertyOverrideAfterP(), 1, "p", true, 0, PropertyRecordOnce());
    assert Add(PropertyRecordOnce(), 7, map[]) == PropertyRecordTwice();
    assert r2.classes[0].records == map["p" := PropertyRecordTwice()];
    assert r2.classes[1].attrs == map["p" := Property(PropertyRecordTwice().wrapper)];
    assert r2.classes[0] == PropertyOverrideAfterC().classes[0];
    assert r2.classes[1] == PropertyOverrideAfterC().classes[1];
  }

  /** `C`'s step as written. */
  lemma PropertyOverrideStepC()
    ensures InstrumentClassAsWritten(OneMethod(7, "p"), PropertyOverrideAfterP(), 1) == Ok(PropertyOverrideAfterC())
  {
    var cfg := OneMethod(7, "p");
    var r1 := PropertyOverrideAfterP();
    PropertyOverrideClassifyC();
    PropertyOverrideExtendC();
    var r2 := PropertyOverrideAfterC();
    assert InstrumentOwnAsWritten(cfg, r1, 1, "p", true, Orig(1, "C.p")) == r2;
    assert InstrumentClassMethodAsWritten(cfg, r1, 1, "p") == Ok(r2);
    assert !ClassExcluded(cfg, r1, 1);
    assert InstrumentClassMethodsAsWritten(cfg, r1, 1, ["p"]) == InstrumentClassMethodsAsWritten(cfg, r2, 1, []);
  }

  lemma PropertyOverrideFailsOnP()
    ensures !ClassMethodInstrumented(OneMethod(7, "p"), PropertyOverrideAfterC(), 0, "p")
  {
    var r2 := PropertyOverrideAfterC();
    Utils.MethodIsInheritedByDefiner("P", "p", Some("P"), "P");
    assert Mro(r2, 0) == [0];
    assert Classify(r2, 0, "p") == Ok(PropertyPath(PropertyRecordOnce().wrapper));
    assert GetRecord(r2, 0, "p") == Some((0, PropertyRecordTwice()));
    assert PropertyRecordTwice().wrapper == Wrap(7, map[], PropertyRecordOnce().wrapper);
  }

  /**
   * `instrument_classes([P, C])` as written: `C`'s step extends `P`'s
   * record, so `P`'s record wrapper is no longer `P`'s getter and
   * `assert_instrumented_classes` fails on `P`.
   */
  lemma PropertyOverrideClassesAsWritten()
    ensures var cfg := OneMethod(7, "p"); var reg := PropertyOverrideRegistry();
      var w := InstrumentClassesAsWritten(cfg, reg, [0, 1]);
      && w.Ok? && 0 in w.value.classes
      && !ClassInstrumented(cfg, w.value, 0)
  {
    var cfg := OneMethod(7, "p");
    var reg := PropertyOverrideRegistry();
    PropertyOverrideStepP();
    PropertyOverrideStepC();
    PropertyOverrideFailsOnP();
    assert InstrumentClassesAsWritten(cfg, reg, [0, 1]) == InstrumentClassesAsWritten(cfg, PropertyOverrideAfterP(), [1]);
    assert !ClassExcluded(cfg, PropertyOverrideAfterC(), 0);
  }

  /** Neither class of the property registry holds a record, so it is coherent. */
  lemma PropertyOverrideCoherent()
    ensures ClassLists.CoherentAll(OneMethod(7, "p"), PropertyOverrideRegistry())
  {
    var reg := PropertyOverrideRegistry();
    assert ClassLists.Beside(reg, 0, "p");
    assert ClassLists.Beside(reg, 1, "p");
  }

  /** The corrected `C` step: `C` gets a record of its own over its own getter. */
  lemma PropertyOverrideCorrectedStepC()
    ensures InstrumentClass(OneMethod(7, "p"), PropertyOverrideAfterP(), 1).Ok?
  {
    var cfg := OneMethod(7, "p");
    var r1 := PropertyOverrideAfterP();
    PropertyOverrideClassifyC();
    var r2 := InstrumentOwn(cfg, r1, 1, "p", true, Orig(1, "C.p"));
    assert InstrumentClassMethod(cfg, r1, 1, "p") == Ok(r2);
    assert !ClassExcluded(cfg, r1, 1);
    assert InstrumentClassMethods(cfg, r1, 1, ["p"]) == InstrumentClassMethods(cfg, r2, 1, []);
  }

  /** The corrected `instrument_classes([P, C])` leaves both classes passing `assert_instrumented_classes`. */
  lemma PropertyOverrideClassesCorrected()
    ensures var cfg := OneMethod(7, "p"); var reg := PropertyOverrideRegistry();
      var r := InstrumentClasses(cfg, reg, [0, 1]);
      && r.Ok? && 0 in r.value.classes && 1 in r.value.classes
      && ClassInstrumented(cfg, r.value, 0) && ClassInstrumented(cfg, r.value, 1)
  {
    var cfg := OneMethod(7, "p");
    var reg := PropertyOverrideRegistry();
    PropertyOverrideStepP();
    PropertyOverrideCorrectedStepC();
    var r1 := PropertyOverrideAfterP();
    assert InstrumentClasses(cfg, reg, [0, 1]) == InstrumentClasses(cfg, r1, [1]);
    assert InstrumentClasses(cfg, r1, [1]) == InstrumentClass(cfg, r1, 1);
    PropertyOverrideCoherent();
    ClassLists.InstrumentClassesEstablish(cfg, reg, [0, 1]);
  }

  // ---------------------------------------------------------------------
  // Properties without a qualified name (utils.py, `method_is_inherited`)
  // ---------------------------------------------------------------------

  /**
   * Every class operation and asserter calls `method_is_inherited` before it
   * tests for a property, and that reads `__qualname__` from what `getattr`
   * returns. A builtin `property` has none, so when the registry's
   * properties expose no qualified name, the property branches are never
   * reached: each step raises AttributeError and each asserter fails. The
   * property findings below therefore need `propertyQualname`.
   */
  lemma BuiltinPropertyRaises(cfg: Instrumentor, reg: Registry, c: ClassId, m: string, full: bool)
    requires c in reg.classes && !reg.propertyQualname
    requires Getattr(reg, c, m).Some? && Getattr(reg, c, m).value.1.Property?
    ensures Classify(reg, c, m) == Err(AttributeError)
    ensures InstrumentClassMethod(cfg, reg, c, m) == Err(AttributeError)
    ensures InstrumentClassMethodAsWritten(cfg, reg, c, m) == Err(AttributeError)
    ensures UninstrumentClassMethod(cfg, reg, c, m, full) == Err(AttributeError)
    ensures UninstrumentClassMethodAsWritten(cfg, reg, c, m, full) == Err(AttributeError)
    ensures !ClassMethodInstrumented(cfg, reg, c, m)
    ensures !ClassMethodUninstrumented(cfg, reg, c, m, full)
    ensures !ClassMethodUninstrumentedAsWritten(cfg, reg, c, m, full)
  {
    assert QualnameOf(reg, Getattr(reg, c, m).value.1).None?;
  }

  /** The property path is taken only where properties expose a qualified name. */
  lemma PropertyPathNeedsQualname(reg: Registry, c: ClassId, m: string)
    requires c in reg.classes
    ensures Classify(reg, c, m).Ok? && Classify(reg, c, m).value.PropertyPath? ==> reg.propertyQualname
  {
    if Classify(reg, c, m).Ok? && Classify(reg, c, m).value.PropertyPath? && !reg.propertyQualname {
      BuiltinPropertyRaises(OneMethod(0, m), reg, c, m, false);
    }
  }

  // ---------------------------------------------------------------------
  // A property whose record keeps another instrument
  // ---------------------------------------------------------------------

  /**
   * Class `E` (id 0) whose property `score` carries instrument 7 and then
   * instrument 8, both with empty kwargs; property objects have a qualname.
   * Without one, every step on `score` raises (`BuiltinPropertyRaises`).
   */
  function TwoLayerRegistry(): Registry
  {
    var score := Orig(2, "E.score");
    var rec := Record(score, Wrap(8, map[], Wrap(7, map[], score)), [7, 8], [map[], map[]]);
    assert Valid(rec);
    Registry(map[0 := Class("E", {"E"}, [], map["score" := Property(rec.wrapper)], map["score" := rec])], true)
  }

  /** The property `score` of `E` is its own, so it takes the property path. */
  lemma TwoLayerClassify()
    ensures var reg := TwoLayerRegistry();
      Classify(reg, 0, "score") == Ok(PropertyPath(Wrap(8, map[], Wrap(7, map[], Orig(2, "E.score")))))
  {
    var reg := TwoLayerRegistry();
    Utils.FirstSegmentOfJoin("E", "score");
    assert "E" + "." + "score" == "E.score";
    ClassifyOwn(reg, 0, "score", true, reg.classes[0].records["score"].wrapper);
  }

  /** Removing instrument 7 from `score`'s record leaves instrument 8 around the original getter. */
  lemma TwoLayerRemove() returns (rem: ValidRecord)
    ensures rem == Remove(TwoLayerRegistry().classes[0].records["score"], 7)
    ensures rem == Record(Orig(2, "E.score"), Wrap(8, map[], Orig(2, "E.score")), [8], [map[]])
    ensures !Empty(rem)
  {
    var rec := TwoLayerRegistry().classes[0].records["score"];
    assert rec.instruments == [7, 8] && rec.kwargs == [map[], map[]];
    assert FilterOut([7, 8], [map[], map[]], 7) == ([8], [map[]]);
    rem := Remove(rec, 7);
  }

  /**
   * On the property path a full uninstrument as written behaves like a
   * partial one: when another instrument remains, the record stays and the
   * getter keeps that instrument's wrapper. Passing `full` on, the record is
   * deleted and the original getter restored.
   */
  lemma PropertyFullUninstrumentAsWritten(cfg: Instrumentor, reg: Registry, c: ClassId, m: string, fget: Fn)
    requires c in reg.classes && m in reg.classes[c].records
    requires Classify(reg, c, m) == Ok(PropertyPath(fget))
    requires !Empty(Remove(reg.classes[c].records[m], cfg.instrument))
    ensures var rec := Remove(reg.classes[c].records[m], cfg.instrument);
      var w := UninstrumentClassMethodAsWritten(cfg, reg, c, m, true);
      && w.Ok?
      && m in w.value.classes[c].records && w.value.classes[c].records[m] == rec
      && w.value.classes[c].attrs[m] == Property(rec.wrapper)
    ensures var rec := Remove(reg.classes[c].records[m], cfg.instrument);
      var r := UninstrumentClassMethod(cfg, reg, c, m, true);
      && r.Ok?
      && m !in r.value.classes[c].records
      && r.value.classes[c].attrs[m] == Property(reg.classes[c].records[m].wrapped)
  {
    assert GetRecord(reg, c, m) == Some((c, reg.classes[c].records[m]));
    assert UninstrumentOwnAsWritten(cfg, reg, c, m, true, false) == Ok(UninstrumentOwn(cfg, reg, c, m, true, false));
    assert UninstrumentClassMethod(cfg, reg, c, m, true) == Ok(UninstrumentOwn(cfg, reg, c, m, true, true));
  }

  /** The as-written half of `PropertyFullUninstrumentKeepsRecord`. */
  lemma TwoLayerFullAsWritten()
    ensures var cfg := OneMethod(7, "score"); var reg := TwoLayerRegistry();
      var w := UninstrumentClassMethodAsWritten(cfg, reg, 0, "score", true);
      && w.Ok? && 0 in w.value.classes
      && "score" in w.value.classes[0].records
      && w.value.classes[0].records["score"].instruments == [8]
      && !ClassMethodUninstrumentedAsWritten(cfg, w.value, 0, "score", true)
  {
    var cfg := OneMethod(7, "score");
    var reg := TwoLayerRegistry();
    var rec := reg.classes[0].records["score"];
    TwoLayerClassify();
    var rem := TwoLayerRemove();
    var w := UninstrumentOwn(cfg, reg, 0, "score", true, false);
    assert GetRecord(reg, 0, "score") == Some((0, rec));
    assert UninstrumentOwnAsWritten(cfg, reg, 0, "score", true, false) == Ok(w);
    assert UninstrumentClassMethodAsWritten(cfg, reg, 0, "score", true) == Ok(w);
    ClassifyOwn(w, 0, "score", true, rem.wrapper);
    assert GetRecord(w, 0, "score") == Some((0, rem));
  }

  /** The intended half of `PropertyFullUninstrumentKeepsRecord`. */
  lemma TwoLayerFullCorrected()
    ensures var cfg := OneMethod(7, "score"); var reg := TwoLayerRegistry();
      var r := UninstrumentClassMethod(cfg, reg, 0, "score", true);
      && r.Ok? && 0 in r.value.classes
      && "score" !in r.value.classes[0].records
      && "score" in r.value.classes[0].attrs
      && r.value.classes[0].attrs["score"] == Property(Orig(2, "E.score"))
      && ClassMethodUninstrumented(cfg, r.value, 0, "score", true)
  {
    var cfg := OneMethod(7, "score");
    var reg := TwoLayerRegistry();
    TwoLayerClassify();
    var r := UninstrumentOwn(cfg, reg, 0, "score", true, true);
    assert UninstrumentClassMethod(cfg, reg, 0, "score", true) == Ok(r);
    ClassifyOwn(r, 0, "score", true, Orig(2, "E.score"));
  }

  /**
   * A full uninstrument as written calls the property path without `full`,
   * so the record survives with instrument 8 in it and even the as-written
   * asserter rejects the result; passing `full` on deletes the record and
   * restores the original getter.
   */
  lemma PropertyFullUninstrumentKeepsRecord()
    ensures var cfg := OneMethod(7, "score"); var reg := TwoLayerRegistry();
      && Classify(reg, 0, "score") == Ok(PropertyPath(Wrap(8, map[], Wrap(7, map[], Orig(2, "E.score")))))
      && (var w := UninstrumentClassMethodAsWritten(cfg, reg, 0, "score", true);
          && w.Ok? && 0 in w.value.classes
          && "score" in w.value.classes[0].records
          && w.value.classes[0].records["score"].instruments == [8]
          && !ClassMethodUninstrumentedAsWritten(cfg, w.value, 0, "score", true))
      && (var r := UninstrumentClassMethod(cfg, reg, 0, "score", true);
          && r.Ok? && 0 in r.value.classes
          && "score" !in r.value.classes[0].records
          && "score" in r.value.classes[0].attrs
          && r.value.classes[0].attrs["score"] == Property(Orig(2, "E.score"))
          && ClassMethodUninstrumented(cfg, r.value, 0, "score", true))
  {
    TwoLayerClassify();
    TwoLayerFullAsWritten();
    TwoLayerFullCorrected();
  }

  /**
   * Removing instrument 7 while 8 stays: the property is left correctly
   * wrapped by instrument 8 alone, and the intended asserter accepts it, but
   * the asserter as written rejects it twice over: the remaining instrument's
   * kwargs equal this instrumentor's, and the getter is compared with the
   * unwrapped original rather than the current wrapper.
   */
  lemma PropertyAsserterRejectsCorrectState()
    ensures var cfg := OneMethod(7, "score"); var reg := TwoLayerRegistry();
      && var r := UninstrumentClassMethod(cfg, reg, 0, "score", false);
      && r.Ok? && 0 in r.value.classes
      && "score" in r.value.classes[0].attrs
      && r.value.classes[0].attrs["score"] == Property(Wrap(8, map[], Orig(2, "E.score")))
      && "score" in r.value.classes[0].records
      && r.value.classes[0].records["score"].kwargs == [map[]]
      && r.value.classes[0].records["score"].wrapped == Orig(2, "E.score")
      && ClassMethodUninstrumented(cfg, r.value, 0, "score", false)
      && !ClassMethodUninstrumentedAsWritten(cfg, r.value, 0, "score", false)
  {
    var cfg := OneMethod(7, "score");
    var reg := TwoLayerRegistry();
    TwoLayerClassify();
    var rem := TwoLayerRemove();
    var r := UninstrumentOwn(cfg, reg, 0, "score", true, false);
    assert UninstrumentClassMethod(cfg, reg, 0, "score", false) == Ok(r);
    ClassifyOwn(r, 0, "score", true, rem.wrapper);
    assert GetRecord(r, 0, "score") == Some((0, rem));
  }

  // ---------------------------------------------------------------------
  // The delegator branch of the uninstrumented asserter
  // ---------------------------------------------------------------------

  /** Class `E` (id 0) whose delegating `predict` still carries instrument 7 on its descriptor. */
  function DelegatorRegistry(): Registry
  {
    var pred := Orig(3, "E.predict");
    var rec := Record(pred, Wrap(7, map[], pred), [7], [map[]]);
    assert Valid(rec);
    Registry(map[0 := Class("E", {"E"}, [], map["predict" := Delegating(rec.wrapper, map["predict" := rec])], map[])], false)
  }

  /**
   * The asserter as written accepts a delegating method that is still
   * instrumented, even for a full uninstrument; the intended asserter, which
   * reads the descriptor's record, rejects it.
   */
  lemma DelegatorAsserterIsVacuous()
    ensures var cfg := OneMethod(7, "predict"); var reg := DelegatorRegistry();
      && ClassMethodInstrumented(cfg, reg, 0, "predict")
      && ClassMethodUninstrumentedAsWritten(cfg, reg, 0, "predict", true)
      && !ClassMethodUninstrumented(cfg, reg, 0, "predict", true)
      && !ClassMethodUninstrumented(cfg, reg, 0, "predict", false)
  {
    Utils.MethodIsInheritedByDefiner("E", "predict", Some("E"), "E");
  }
}

=== FILE: class_lists.dfy ===
/**
 * `instrument_classes` and `uninstrument_classes` over a list of classes,
 * and the estimator-level entry points built on them: afterwards every
 * class of the list passes the class asserter, not only the last one
 * processed.
 *
 * Processing one class can change what another class sees through its MRO
 * (a shared delegating descriptor, an ancestor's attribute), so the proofs
 * carry an invariant over the whole registry, `Coherent`: a method the
 * lookup classifies as a class's own plain method or property sits in that
 * class's dictionary, and every record sits beside the wrapper it installed.
 * Instrumentation and uninstrumentation both keep it.
 */
module ClassLists {
  import opened Wrappers
  import opened Fns
  import opened Config
  import opened MethodRecord
  import opened Objects
  import opened Classes
  import opened ClassAsserter
  import Walk
  import EstimatorClasses

  // ---------------------------------------------------------------------
  // A change confined to one class
  // ---------------------------------------------------------------------

  /** `m` takes the plain or the property path. */
  predicate IsOwnPath(p: Result<Path>)
  {
    p.Ok? && (p.value.PlainPath? || p.value.PropertyPath?)
  }

  /** Two attribute values of the same kind whose functions report the same qualified name. */
  predicate SameKind(a: Attr, b: Attr)
  {
    match a
    case Function(f) => b.Function? && Qualname(b.f) == Qualname(f)
    case Property(g) => b.Property? && Qualname(b.fget) == Qualname(g)
    case Delegating(fn, _) => b.Delegating? && Qualname(b.fn) == Qualname(fn)
    case Data(_) => b == a
  }

  /** Two classifications taking the same branch, a delegator one on the same owner. */
  predicate SameBranch(p: Result<Path>, q: Result<Path>)
  {
    match p
    case Err(_) => q.Err?
    case Ok(x) =>
      && q.Ok?
      && match x
         case Skip => q.value.Skip?
         case PlainPath(_) => q.value.PlainPath?
         case PropertyPath(_) => q.value.PropertyPath?
         case DelegatorPath(o, _, _) => q.value.DelegatorPath? && q.value.owner == o
  }

  /**
   * Only class `x` changes; it keeps its name, types and ancestors, and its
   * attribute `m` stays present, of the same kind and qualified name.
   */
  predicate ChangesOnlyAt(a: Registry, b: Registry, x: ClassId, m: string)
  {
    && a.classes.Keys == b.classes.Keys && a.propertyQualname == b.propertyQualname
    && x in a.classes
    && (forall y :: y in a.classes && y != x ==> b.classes[y] == a.classes[y])
    && b.classes[x].name == a.classes[x].name && b.classes[x].types == a.classes[x].types
    && b.classes[x].ancestors == a.classes[x].ancestors
    && m in a.classes[x].attrs && m in b.classes[x].attrs
    && SameKind(a.classes[x].attrs[m], b.classes[x].attrs[m])
  }

  /**
   * After a change confined to `x`, every class resolves `m` at the same
   * place and classifies it along the same branch; where the lookup does not
   * reach `x`, nothing about `m` differs at all.
   */
  lemma ChangesOnlyAtView(a: Registry, b: Registry, x: ClassId, m: string, y: ClassId)
    requires ChangesOnlyAt(a, b, x, m) && y in a.classes
    ensures SameLayout(a, b, m)
    ensures b.classes[y].name == a.classes[y].name && b.classes[y].types == a.classes[y].types
    ensures Getattr(b, y, m).None? <==> Getattr(a, y, m).None?
    ensures Getattr(a, y, m).Some? ==> Getattr(b, y, m).value.0 == Getattr(a, y, m).value.0
    ensures SameBranch(Classify(a, y, m), Classify(b, y, m))
    ensures Getattr(a, y, m).None? || Getattr(a, y, m).value.0 != x ==>
      Getattr(b, y, m) == Getattr(a, y, m) && Classify(b, y, m) == Classify(a, y, m)
  {
    assert SameLayout(a, b, m);
    assert Mro(b, y) == Mro(a, y);
    FindAttrLayout(a, b, Mro(a, y), m);
    var g := Getattr(a, y, m);
    if g.None? || g.value.0 != x {
      SameLookupSameClassify(a, b, y, m);
    } else {
      RetargetSameBranch(a, b, x, m, y);
    }
  }

  /** A class whose lookup of `m` reaches the changed class `x` classifies `m` along the same branch. */
  lemma RetargetSameBranch(a: Registry, b: Registry, x: ClassId, m: string, y: ClassId)
    requires ChangesOnlyAt(a, b, x, m) && y in a.classes
    requires Getattr(a, y, m).Some? && Getattr(a, y, m).value.0 == x
    ensures SameBranch(Classify(a, y, m), Classify(b, y, m))
  {
    GetattrRetarget(a, b, y, m, x);
    var old_, new_ := a.classes[x].attrs[m], b.classes[x].attrs[m];
    assert QualnameOf(b, new_) == QualnameOf(a, old_);
    assert Inherited(b, y, m) == Inherited(a, y, m);
    match Inherited(a, y, m)
    case Err(_) =>
    case Ok(inh) =>
      if !inh {
        match old_
        case Function(_) =>
        case Property(_) =>
        case Delegating(_, _) =>
        case Data(_) =>
      }
  }

  // ---------------------------------------------------------------------
  // The invariant
  // ---------------------------------------------------------------------

  /**
   * Class `y` holds an own-path method `m` in its own dictionary, a record
   * of `m` it holds is the one whose wrapper it shows, and a delegating
   * descriptor's record of `m` has the descriptor's function as wrapper.
   */
  predicate Beside(reg: Registry, y: ClassId, m: string)
    requires y in reg.classes
  {
    var cls := reg.classes[y];
    && (IsOwnPath(Classify(reg, y, m)) ==> m in cls.attrs)
    && (m in cls.attrs && cls.attrs[m].Function? && m in cls.records ==> cls.records[m].wrapper == cls.attrs[m].f)
    && (m in cls.attrs && cls.attrs[m].Property? && m in cls.records ==> cls.records[m].wrapper == cls.attrs[m].fget)
    && (m in cls.attrs && cls.attrs[m].Delegating? && m in cls.attrs[m].records ==>
          cls.attrs[m].records[m].wrapper == cls.attrs[m].fn)
  }

  /** `Beside` for every class of the registry. */
  predicate Coherent(reg: Registry, m: string)
  {
    forall y :: y in reg.classes ==> Beside(reg, y, m)
  }

  /** `Coherent` for every configured method. */
  predicate CoherentAll(cfg: Instrumentor, reg: Registry)
  {
    forall m :: m in cfg.methods ==> Coherent(reg, m)
  }

  /** A record reports the qualified name of the function it wraps. */
  lemma WrapperQualname(r: ValidRecord)
    ensures Qualname(r.wrapper) == Qualname(r.wrapped)
  {
    FoldQualname(r.wrapped, r.instruments, r.kwargs);
  }

  /** A registry agreeing with a coherent one at `m` is coherent at `m`. */
  lemma AgreeAtCoherent(a: Registry, b: Registry, m: string)
    requires AgreeAt(a, b, m) && Coherent(a, m)
    ensures Coherent(b, m)
  {
    forall y | y in b.classes
      ensures Beside(b, y, m)
    {
      assert Beside(a, y, m);
      AgreeAtSameView(a, b, y, m);
    }
  }

  /** After a change confined to `x` that keeps `x` beside its records, the registry is still coherent. */
  lemma ChangesOnlyAtCoherent(a: Registry, b: Registry, x: ClassId, m: string)
    requires ChangesOnlyAt(a, b, x, m) && Coherent(a, m)
    requires Beside(a, x, m) ==> Beside(b, x, m)
    ensures Coherent(b, m)
  {
    forall y | y in b.classes
      ensures Beside(b, y, m)
    {
      assert Beside(a, y, m);
      ChangesOnlyAtView(a, b, x, m, y);
    }
  }

  // ---------------------------------------------------------------------
  // Instrumenting one method of one class
  // ---------------------------------------------------------------------

  /** An own method `m` of a coherent registry is found in the class's own dictionary. */
  lemma OwnPathHere(reg: Registry, c: ClassId, m: string)
    requires c in reg.classes && Beside(reg, c, m) && IsOwnPath(Classify(reg, c, m))
    ensures m in reg.classes[c].attrs && Getattr(reg, c, m) == Some((c, reg.classes[c].attrs[m]))
  {
  }

  /** The plain and property paths change only the class itself, and keep it beside its record. */
  lemma InstrumentOwnChangesOnlyAt(cfg: Instrumentor, a: Registry, d: ClassId, m: string, isProperty: bool, f: Fn)
    requires d in a.classes && Beside(a, d, m)
    requires Classify(a, d, m) == Ok(if isProperty then PropertyPath(f) else PlainPath(f))
    ensures ChangesOnlyAt(a, InstrumentOwn(cfg, a, d, m, isProperty, f), d, m)
    ensures Beside(InstrumentOwn(cfg, a, d, m, isProperty, f), d, m)
  {
    var b := InstrumentOwn(cfg, a, d, m, isProperty, f);
    OwnPathHere(a, d, m);
    assert a.classes[d].attrs[m] == AsAttr(isProperty, f);
    var rec := Add(RecordOr(a.classes[d].records, m, f), cfg.instrument, cfg.kwargs);
    assert RecordOr(a.classes[d].records, m, f).wrapper == f;
    assert b.classes[d].attrs[m] == AsAttr(isProperty, Wrap(cfg.instrument, cfg.kwargs, f));
    assert b.classes[d].records[m] == rec;
  }

  /** The delegator path changes only the descriptor's owner, and keeps the descriptor beside its record. */
  lemma InstrumentDelegatorChangesOnlyAt(cfg: Instrumentor, a: Registry, d: ClassId, m: string,
                                         o: ClassId, fn: Fn, recs: map<string, ValidRecord>)
    requires d in a.classes && o in a.classes && Beside(a, o, m)
    requires Getattr(a, d, m) == Some((o, Delegating(fn, recs)))
    ensures ChangesOnlyAt(a, InstrumentDelegator(cfg, a, o, m, fn, recs), o, m)
    ensures Beside(InstrumentDelegator(cfg, a, o, m, fn, recs), o, m)
  {
    var b := InstrumentDelegator(cfg, a, o, m, fn, recs);
    var rec := Add(RecordOr(recs, m, fn), cfg.instrument, cfg.kwargs);
    assert RecordOr(recs, m, fn).wrapper == fn;
    assert b.classes[o].attrs[m] == Delegating(Wrap(cfg.instrument, cfg.kwargs, fn), recs[m := rec]);
  }

  /** When `m` is not skipped, instrumenting it changes only the class the lookup resolved it to, keeping coherence. */
  lemma InstrumentChangesOnlyAt(cfg: Instrumentor, a: Registry, d: ClassId, m: string)
    requires d in a.classes && Coherent(a, m)
    requires InstrumentClassMethod(cfg, a, d, m).Ok? && !Classify(a, d, m).value.Skip?
    ensures ChangesOnlyAt(a, InstrumentClassMethod(cfg, a, d, m).value, Getattr(a, d, m).value.0, m)
    ensures Coherent(InstrumentClassMethod(cfg, a, d, m).value, m)
  {
    var b := InstrumentClassMethod(cfg, a, d, m).value;
    assert Beside(a, d, m);
    match Classify(a, d, m).value
    case PlainPath(f) =>
      assert b == InstrumentOwn(cfg, a, d, m, false, f);
      OwnPathHere(a, d, m);
      InstrumentOwnChangesOnlyAt(cfg, a, d, m, false, f);
      ChangesOnlyAtCoherent(a, b, d, m);
    case PropertyPath(f) =>
      assert b == InstrumentOwn(cfg, a, d, m, true, f);
      OwnPathHere(a, d, m);
      InstrumentOwnChangesOnlyAt(cfg, a, d, m, true, f);
      ChangesOnlyAtCoherent(a, b, d, m);
    case DelegatorPath(o, fn, recs) =>
      assert b == InstrumentDelegator(cfg, a, o, m, fn, recs);
      assert Beside(a, o, m);
      InstrumentDelegatorChangesOnlyAt(cfg, a, d, m, o, fn, recs);
      ChangesOnlyAtCoherent(a, b, o, m);
  }

  /** Instrumenting any method keeps the registry coherent at `m`. */
  lemma InstrumentKeepsCoherent(cfg: Instrumentor, a: Registry, d: ClassId, n: string, m: string)
    requires d in a.classes && Coherent(a, m)
    requires InstrumentClassMethod(cfg, a, d, n).Ok?
    ensures Coherent(InstrumentClassMethod(cfg, a, d, n).value, m)
  {
    if n != m {
      InstrumentClassMethodFrame(cfg, a, d, n, m);
      AgreeAtCoherent(a, InstrumentClassMethod(cfg, a, d, n).value, m);
    } else if !Classify(a, d, m).value.Skip? {
      InstrumentChangesOnlyAt(cfg, a, d, m);
    }
  }

  /**
   * `m` passes the instrumented asserter on `c`, and an own-path `m` has its
   * record on `c` itself, where no other class's change can reach it.
   */
  predicate InstrumentedHere(cfg: Instrumentor, reg: Registry, c: ClassId, m: string)
    requires c in reg.classes
  {
    && ClassMethodInstrumented(cfg, reg, c, m)
    && (IsOwnPath(Classify(reg, c, m)) ==> m in reg.classes[c].records)
  }

  /** Instrumenting `m` on `c` leaves it instrumented there. */
  lemma InstrumentSettles(cfg: Instrumentor, a: Registry, c: ClassId, m: string)
    requires c in a.classes
    requires InstrumentClassMethod(cfg, a, c, m).Ok?
    ensures InstrumentedHere(cfg, InstrumentClassMethod(cfg, a, c, m).value, c, m)
  {
    var b := InstrumentClassMethod(cfg, a, c, m).value;
    InstrumentClassMethodEstablishes(cfg, a, c, m);
    match Classify(a, c, m).value
    case Skip =>
    case PlainPath(f) =>
    case PropertyPath(f) =>
    case DelegatorPath(o, fn, recs) =>
      var rec := Add(RecordOr(recs, m, fn), cfg.instrument, cfg.kwargs);
      InstrumentDelegatorGetattr(cfg, a, c, m, o, fn, recs);
      ClassifyDelegating(b, c, m, o, rec.wrapper, recs[m := rec]);
  }

  /** Instrumenting `m` on another class `d` keeps `m` instrumented on `c`. */
  lemma InstrumentOtherKeeps(cfg: Instrumentor, a: Registry, d: ClassId, c: ClassId, m: string)
    requires d in a.classes && c in a.classes && d != c
    requires Coherent(a, m) && InstrumentedHere(cfg, a, c, m)
    requires InstrumentClassMethod(cfg, a, d, m).Ok?
    ensures InstrumentedHere(cfg, InstrumentClassMethod(cfg, a, d, m).value, c, m)
  {
    var b := InstrumentClassMethod(cfg, a, d, m).value;
    if !Classify(a, d, m).value.Skip? {
      var x := Getattr(a, d, m).value.0;
      InstrumentChangesOnlyAt(cfg, a, d, m);
      ChangesOnlyAtView(a, b, x, m, c);
      match Classify(a, c, m).value
      case Skip =>
      case PlainPath(f) =>
        OwnPathHere(a, c, m);
        assert x != c;
      case PropertyPath(f) =>
        OwnPathHere(a, c, m);
        assert x != c;
      case DelegatorPath(o, fn, recs) =>
        if o == x {
          assert Classify(a, d, m) == Ok(DelegatorPath(o, fn, recs));
          InstrumentDelegatorEstablishes(cfg, a, c, m, o, fn, recs);
        }
    }
  }

  /** Instrumenting any method of any class keeps `m` instrumented on `c`. */
  lemma InstrumentKeepsHere(cfg: Instrumentor, a: Registry, d: ClassId, n: string, c: ClassId, m: string)
    requires d in a.classes && c in a.classes
    requires Coherent(a, m) && InstrumentedHere(cfg, a, c, m)
    requires InstrumentClassMethod(cfg, a, d, n).Ok?
    ensures InstrumentedHere(cfg, InstrumentClassMethod(cfg, a, d, n).value, c, m)
  {
    var b := InstrumentClassMethod(cfg, a, d, n).value;
    if n != m {
      InstrumentClassMethodFrame(cfg, a, d, n, m);
      AgreeAtSameView(a, b, c, m);
    } else if d == c {
      InstrumentSettles(cfg, a, c, m);
    } else {
      InstrumentOtherKeeps(cfg, a, d, c, m);
    }
  }

  /** The plain and property paths never change a class's name, types or ancestors. */
  lemma InstrumentOwnKeepsShape(cfg: Instrumentor, a: Registry, d: ClassId, n: string, isProperty: bool, f: Fn, c: ClassId)
    requires d in a.classes && c in a.classes
    ensures var b := InstrumentOwn(cfg, a, d, n, isProperty, f);
      b.classes[c].name == a.classes[c].name && b.classes[c].types == a.classes[c].types
      && b.classes[c].ancestors == a.classes[c].ancestors
  {
  }

  /** The delegator path never changes a class's name, types or ancestors. */
  lemma InstrumentDelegatorKeepsShape(cfg: Instrumentor, a: Registry, o: ClassId, n: string,
                                      fn: Fn, recs: map<string, ValidRecord>, c: ClassId)
    requires o in a.classes && c in a.classes
    ensures var b := InstrumentDelegator(cfg, a, o, n, fn, recs);
      b.classes[c].name == a.classes[c].name && b.classes[c].types == a.classes[c].types
      && b.classes[c].ancestors == a.classes[c].ancestors
  {
  }

  /** Instrumenting a method never changes a class's name, types or ancestors. */
  lemma InstrumentKeepsShape(cfg: Instrumentor, a: Registry, d: ClassId, n: string, c: ClassId)
    requires d in a.classes && c in a.classes
    requires InstrumentClassMethod(cfg, a, d, n).Ok?
    ensures var b := InstrumentClassMethod(cfg, a, d, n).value;
      b.classes[c].name == a.classes[c].name && b.classes[c].types == a.classes[c].types
      && b.classes[c].ancestors == a.classes[c].ancestors
  {
    match Classify(a, d, n).value
    case Skip =>
    case PlainPath(f) => InstrumentOwnKeepsShape(cfg, a, d, n, false, f, c);
    case PropertyPath(f) => InstrumentOwnKeepsShape(cfg, a, d, n, true, f, c);
    case DelegatorPath(o, fn, recs) => InstrumentDelegatorKeepsShape(cfg, a, o, n, fn, recs, c);
  }

  // ---------------------------------------------------------------------
  // The instrumenting loops
  // ---------------------------------------------------------------------

  /** Instrumenting a list of methods of `d` keeps the registry coherent at `m` and keeps `c`'s shape. */
  lemma {:induction false} InstrumentMethodsKeepCoherent(cfg: Instrumentor, a: Registry, d: ClassId,
                                                        names: seq<string>, c: ClassId, m: string)
    requires d in a.classes && c in a.classes && Coherent(a, m)
    requires InstrumentClassMethods(cfg, a, d, names).Ok?
    ensures var b := InstrumentClassMethods(cfg, a, d, names).value;
      && Coherent(b, m)
      && b.classes[c].name == a.classes[c].name && b.classes[c].types == a.classes[c].types
    decreases |names|
  {
    if |names| > 0 {
      var r1 := InstrumentClassMethod(cfg, a, d, names[0]).value;
      InstrumentKeepsCoherent(cfg, a, d, names[0], m);
      InstrumentKeepsShape(cfg, a, d, names[0], c);
      InstrumentMethodsKeepCoherent(cfg, r1, d, names[1..], c, m);
    }
  }

  /** Instrumenting a list of methods of `d` keeps `m` instrumented on `c`. */
  lemma {:induction false} InstrumentMethodsKeep(cfg: Instrumentor, a: Registry, d: ClassId,
                                                names: seq<string>, c: ClassId, m: string)
    requires d in a.classes && c in a.classes
    requires Coherent(a, m) && InstrumentedHere(cfg, a, c, m)
    requires InstrumentClassMethods(cfg, a, d, names).Ok?
    ensures InstrumentedHere(cfg, InstrumentClassMethods(cfg, a, d, names).value, c, m)
    decreases |names|
  {
    if |names| > 0 {
      var r1 := InstrumentClassMethod(cfg, a, d, names[0]).value;
      InstrumentKeepsHere(cfg, a, d, names[0], c, m);
      InstrumentKeepsCoherent(cfg, a, d, names[0], m);
      InstrumentMethodsKeep(cfg, r1, d, names[1..], c, m);
    }
  }

  /** After instrumenting a list of methods of `c`, each of them is instrumented there. */
  lemma {:induction false} InstrumentMethodsSettle(cfg: Instrumentor, a: Registry, c: ClassId, names: seq<string>)
    requires c in a.classes
    requires forall m :: m in names ==> Coherent(a, m)
    requires InstrumentClassMethods(cfg, a, c, names).Ok?
    ensures forall m :: m in names ==> InstrumentedHere(cfg, InstrumentClassMethods(cfg, a, c, names).value, c, m)
    decreases |names|
  {
    if |names| > 0 {
      var r1 := InstrumentClassMethod(cfg, a, c, names[0]).value;
      InstrumentSettles(cfg, a, c, names[0]);
      forall m | m in names
        ensures Coherent(r1, m)
      {
        InstrumentKeepsCoherent(cfg, a, c, names[0], m);
      }
      InstrumentMethodsKeep(cfg, r1, c, names[1..], c, names[0]);
      InstrumentMethodsSettle(cfg, r1, c, names[1..]);
    }
  }

  /** `assert_instrumented_class` holds of `c`, with each own-path method's record on `c` itself. */
  predicate ClassInstrumentedHere(cfg: Instrumentor, reg: Registry, c: ClassId)
    requires c in reg.classes
  {
    ClassExcluded(cfg, reg, c) || forall m :: m in cfg.methods ==> InstrumentedHere(cfg, reg, c, m)
  }

  /** `instrument_class` on any class keeps the registry coherent and `c` instrumented. */
  lemma InstrumentClassKeeps(cfg: Instrumentor, a: Registry, d: ClassId, c: ClassId)
    requires d in a.classes && c in a.classes
    requires CoherentAll(cfg, a) && ClassInstrumentedHere(cfg, a, c)
    requires InstrumentClass(cfg, a, d).Ok?
    ensures CoherentAll(cfg, InstrumentClass(cfg, a, d).value)
    ensures ClassInstrumentedHere(cfg, InstrumentClass(cfg, a, d).value, c)
  {
    var b := InstrumentClass(cfg, a, d).value;
    if !ClassExcluded(cfg, a, d) {
      forall m | m in cfg.methods
        ensures Coherent(b, m) && b.classes[c].types == a.classes[c].types
      {
        InstrumentMethodsKeepCoherent(cfg, a, d, cfg.methods, c, m);
      }
      if !ClassExcluded(cfg, a, c) {
        forall m | m in cfg.methods
          ensures InstrumentedHere(cfg, b, c, m)
        {
          InstrumentMethodsKeep(cfg, a, d, cfg.methods, c, m);
        }
      }
    }
  }

  /** `instrument_class` leaves the registry coherent and the class instrumented. */
  lemma InstrumentClassSettles(cfg: Instrumentor, a: Registry, c: ClassId)
    requires c in a.classes && CoherentAll(cfg, a)
    requires InstrumentClass(cfg, a, c).Ok?
    ensures CoherentAll(cfg, InstrumentClass(cfg, a, c).value)
    ensures ClassInstrumentedHere(cfg, InstrumentClass(cfg, a, c).value, c)
  {
    var b := InstrumentClass(cfg, a, c).value;
    if !ClassExcluded(cfg, a, c) {
      forall m | m in cfg.methods
        ensures Coherent(b, m)
      {
        InstrumentMethodsKeepCoherent(cfg, a, c, cfg.methods, c, m);
      }
      InstrumentMethodsSettle(cfg, a, c, cfg.methods);
    }
  }

  /** The later classes of `instrument_classes` keep an earlier one instrumented. */
  lemma {:induction false} InstrumentClassesKeep(cfg: Instrumentor, a: Registry, cs: seq<ClassId>, c: ClassId)
    requires c in a.classes && forall x :: x in cs ==> x in a.classes
    requires CoherentAll(cfg, a) && ClassInstrumentedHere(cfg, a, c)
    requires InstrumentClasses(cfg, a, cs).Ok?
    ensures CoherentAll(cfg, InstrumentClasses(cfg, a, cs).value)
    ensures ClassInstrumentedHere(cfg, InstrumentClasses(cfg, a, cs).value, c)
    decreases |cs|
  {
    if |cs| > 0 {
      var r1 := InstrumentClass(cfg, a, cs[0]).value;
      InstrumentClassKeeps(cfg, a, cs[0], c);
      InstrumentClassesKeep(cfg, r1, cs[1..], c);
    }
  }

  /** After `instrument_classes` every class of the list is instrumented, and the registry is coherent. */
  lemma {:induction false} InstrumentClassesSettle(cfg: Instrumentor, a: Registry, cs: seq<ClassId>)
    requires forall x :: x in cs ==> x in a.classes
    requires CoherentAll(cfg, a)
    requires InstrumentClasses(cfg, a, cs).Ok?
    ensures CoherentAll(cfg, InstrumentClasses(cfg, a, cs).value)
    ensures forall c :: c in cs ==> ClassInstrumentedHere(cfg, InstrumentClasses(cfg, a, cs).value, c)
    decreases |cs|
  {
    if |cs| > 0 {
      var r1 := InstrumentClass(cfg, a, cs[0]).value;
      InstrumentClassSettles(cfg, a, cs[0]);
      InstrumentClassesKeep(cfg, r1, cs[1..], cs[0]);
      InstrumentClassesSettle(cfg, r1, cs[1..]);
    }
  }

  /**
   * `instrument_classes` establishes `assert_instrumented_classes`: when it
   * returns normally, every class of the list passes the class asserter.
   */
  lemma InstrumentClassesEstablish(cfg: Instrumentor, reg: Registry, cs: seq<ClassId>)
    requires forall x :: x in cs ==> x in reg.classes
    requires CoherentAll(cfg, reg)
    requires InstrumentClasses(cfg, reg, cs).Ok?
    ensures forall c :: c in cs ==>
      c in InstrumentClasses(cfg, reg, cs).value.classes && ClassInstrumented(cfg, InstrumentClasses(cfg, reg, cs).value, c)
  {
    InstrumentClassesSettle(cfg, reg, cs);
  }
  // ---------------------------------------------------------------------
  // Uninstrumenting one method of one class
  // ---------------------------------------------------------------------

  /** Removing from a record keeps the qualified name its wrapper reports. */
  lemma RemoveKeepsQualname(r: ValidRecord, i: InstrumentId)
    ensures Qualname(Remove(r, i).wrapper) == Qualname(r.wrapper)
    ensures Qualname(Remove(r, i).wrapped) == Qualname(r.wrapper)
  {
    WrapperQualname(r);
    WrapperQualname(Remove(r, i));
  }

  /** The plain and property uninstrument paths change only the class itself, and keep it beside its record. */
  lemma UninstrumentOwnChangesOnlyAt(cfg: Instrumentor, a: Registry, d: ClassId, m: string,
                                     isProperty: bool, f: Fn, full: bool)
    requires d in a.classes && Beside(a, d, m) && m in a.classes[d].records
    requires Classify(a, d, m) == Ok(if isProperty then PropertyPath(f) else PlainPath(f))
    ensures ChangesOnlyAt(a, UninstrumentOwn(cfg, a, d, m, isProperty, full), d, m)
    ensures Beside(UninstrumentOwn(cfg, a, d, m, isProperty, full), d, m)
  {
    OwnPathHere(a, d, m);
    assert a.classes[d].attrs[m] == AsAttr(isProperty, f);
    assert a.classes[d].records[m].wrapper == f;
    RemoveKeepsQualname(a.classes[d].records[m], cfg.instrument);
  }

  /** The delegator uninstrument path changes only the descriptor's owner, and keeps the descriptor beside its record. */
  lemma UninstrumentDelegatorChangesOnlyAt(cfg: Instrumentor, a: Registry, d: ClassId, m: string,
                                           o: ClassId, fn: Fn, recs: map<string, ValidRecord>, full: bool)
    requires d in a.classes && o in a.classes && Beside(a, o, m) && m in recs
    requires Getattr(a, d, m) == Some((o, Delegating(fn, recs)))
    ensures ChangesOnlyAt(a, UninstrumentDelegator(cfg, a, o, m, fn, recs, full), o, m)
    ensures Beside(UninstrumentDelegator(cfg, a, o, m, fn, recs, full), o, m)
  {
    assert recs[m].wrapper == fn;
    RemoveKeepsQualname(recs[m], cfg.instrument);
  }

  /**
   * When `m` is not skipped, uninstrumenting it changes at most the class
   * the lookup resolved it to, keeping coherence.
   */
  lemma UninstrumentChangesOnlyAt(cfg: Instrumentor, a: Registry, d: ClassId, m: string, full: bool)
    requires d in a.classes && Coherent(a, m)
    requires UninstrumentClassMethod(cfg, a, d, m, full).Ok? && !Classify(a, d, m).value.Skip?
    ensures var b := UninstrumentClassMethod(cfg, a, d, m, full).value;
      b == a || ChangesOnlyAt(a, b, Getattr(a, d, m).value.0, m)
    ensures Coherent(UninstrumentClassMethod(cfg, a, d, m, full).value, m)
  {
    var b := UninstrumentClassMethod(cfg, a, d, m, full).value;
    assert Beside(a, d, m);
    match Classify(a, d, m).value
    case PlainPath(f) =>
      assert b == UninstrumentOwn(cfg, a, d, m, false, full);
      if m in a.classes[d].records {
        UninstrumentOwnChangesOnlyAt(cfg, a, d, m, false, f, full);
        OwnPathHere(a, d, m);
        ChangesOnlyAtCoherent(a, b, d, m);
      }
    case PropertyPath(f) =>
      assert b == UninstrumentOwn(cfg, a, d, m, true, full);
      if m in a.classes[d].records {
        UninstrumentOwnChangesOnlyAt(cfg, a, d, m, true, f, full);
        OwnPathHere(a, d, m);
        ChangesOnlyAtCoherent(a, b, d, m);
      }
    case DelegatorPath(o, fn, recs) =>
      assert b == UninstrumentDelegator(cfg, a, o, m, fn, recs, full);
      if m in recs {
        assert Beside(a, o, m);
        UninstrumentDelegatorChangesOnlyAt(cfg, a, d, m, o, fn, recs, full);
        ChangesOnlyAtCoherent(a, b, o, m);
      }
  }

  /** Uninstrumenting any method keeps the registry coherent at `m`. */
  lemma UninstrumentKeepsCoherent(cfg: Instrumentor, a: Registry, d: ClassId, n: string, full: bool, m: string)
    requires d in a.classes && Coherent(a, m)
    requires UninstrumentClassMethod(cfg, a, d, n, full).Ok?
    ensures Coherent(UninstrumentClassMethod(cfg, a, d, n, full).value, m)
  {
    if n != m {
      UninstrumentClassMethodFrame(cfg, a, d, n, full, m);
      AgreeAtCoherent(a, UninstrumentClassMethod(cfg, a, d, n, full).value, m);
    } else if !Classify(a, d, m).value.Skip? {
      UninstrumentChangesOnlyAt(cfg, a, d, m, full);
    }
  }


  /** `assert_uninstrumented_class_method` holds of `m` on `c`, and no ancestor of `c` keeps a record of `m`. */
  predicate UninstrumentedHere(cfg: Instrumentor, reg: Registry, c: ClassId, m: string, full: bool)
    requires c in reg.classes
  {
    ClassMethodUninstrumented(cfg, reg, c, m, full) && NoInheritedRecord(reg, c, m)
  }

  /** Uninstrumenting `m` on `c` itself leaves it uninstrumented there. */
  lemma UninstrumentSettles(cfg: Instrumentor, a: Registry, c: ClassId, m: string, full: bool)
    requires c in a.classes && NoInheritedRecord(a, c, m)
    requires UninstrumentClassMethod(cfg, a, c, m, full).Ok?
    ensures UninstrumentedHere(cfg, UninstrumentClassMethod(cfg, a, c, m, full).value, c, m, full)
  {
    UninstrumentClassMethodEstablishes(cfg, a, c, m, full);
    UninstrumentClassMethodNoInherited(cfg, a, c, m, full, c, m);
  }

  /** Uninstrumenting `m` on another class `d` keeps `m` uninstrumented on `c`. */
  lemma UninstrumentOtherKeeps(cfg: Instrumentor, a: Registry, d: ClassId, c: ClassId, m: string, full: bool)
    requires d in a.classes && c in a.classes && d != c
    requires Coherent(a, m) && UninstrumentedHere(cfg, a, c, m, full)
    requires UninstrumentClassMethod(cfg, a, d, m, full).Ok?
    ensures UninstrumentedHere(cfg, UninstrumentClassMethod(cfg, a, d, m, full).value, c, m, full)
  {
    var b := UninstrumentClassMethod(cfg, a, d, m, full).value;
    UninstrumentClassMethodNoInherited(cfg, a, d, m, full, c, m);
    if !Classify(a, d, m).value.Skip? {
      UninstrumentChangesOnlyAt(cfg, a, d, m, full);
      if b != a {
        var x := Getattr(a, d, m).value.0;
        ChangesOnlyAtView(a, b, x, m, c);
        match Classify(a, c, m).value
        case Skip =>
        case PlainPath(f) =>
          OwnPathHere(a, c, m);
          assert x != c;
          OwnRecordOnly(a, c, m);
          OwnRecordOnly(b, c, m);
        case PropertyPath(f) =>
          OwnPathHere(a, c, m);
          assert x != c;
          OwnRecordOnly(a, c, m);
          OwnRecordOnly(b, c, m);
        case DelegatorPath(o, fn, recs) =>
          if o == x {
            assert Classify(a, d, m) == Ok(DelegatorPath(o, fn, recs));
            UninstrumentDelegatorEstablishes(cfg, a, c, m, o, fn, recs, full);
          }
      }
    }
  }

  /** Uninstrumenting any method of any class keeps `m` uninstrumented on `c`. */
  lemma UninstrumentKeepsHere(cfg: Instrumentor, a: Registry, d: ClassId, n: string, full: bool, c: ClassId, m: string)
    requires d in a.classes && c in a.classes
    requires Coherent(a, m) && UninstrumentedHere(cfg, a, c, m, full)
    requires UninstrumentClassMethod(cfg, a, d, n, full).Ok?
    ensures UninstrumentedHere(cfg, UninstrumentClassMethod(cfg, a, d, n, full).value, c, m, full)
  {
    var b := UninstrumentClassMethod(cfg, a, d, n, full).value;
    if n != m {
      UninstrumentClassMethodFrame(cfg, a, d, n, full, m);
      AgreeAtSameView(a, b, c, m);
      UninstrumentClassMethodNoInherited(cfg, a, d, n, full, c, m);
    } else if d == c {
      UninstrumentSettles(cfg, a, c, m, full);
    } else {
      UninstrumentOtherKeeps(cfg, a, d, c, m, full);
    }
  }

  // ---------------------------------------------------------------------
  // The uninstrumenting loops
  // ---------------------------------------------------------------------

  /** Uninstrumenting a list of methods of `d` keeps the registry coherent at `m`, and no record reaches `c` anew. */
  lemma {:induction false} UninstrumentMethodsKeepCoherent(cfg: Instrumentor, a: Registry, d: ClassId,
                                                          names: seq<string>, full: bool, c: ClassId, m: string)
    requires d in a.classes && c in a.classes && Coherent(a, m)
    requires UninstrumentClassMethods(cfg, a, d, names, full).Ok?
    ensures Coherent(UninstrumentClassMethods(cfg, a, d, names, full).value, m)
    ensures NoInheritedRecord(a, c, m) ==> NoInheritedRecord(UninstrumentClassMethods(cfg, a, d, names, full).value, c, m)
    decreases |names|
  {
    if |names| > 0 {
      var r1 := UninstrumentClassMethod(cfg, a, d, names[0], full).value;
      UninstrumentKeepsCoherent(cfg, a, d, names[0], full, m);
      if NoInheritedRecord(a, c, m) {
        UninstrumentClassMethodNoInherited(cfg, a, d, names[0], full, c, m);
      }
      UninstrumentMethodsKeepCoherent(cfg, r1, d, names[1..], full, c, m);
    }
  }

  /** Uninstrumenting a list of methods of `d` keeps `m` uninstrumented on `c`. */
  lemma {:induction false} UninstrumentMethodsKeep(cfg: Instrumentor, a: Registry, d: ClassId,
                                                  names: seq<string>, full: bool, c: ClassId, m: string)
    requires d in a.classes && c in a.classes
    requires Coherent(a, m) && UninstrumentedHere(cfg, a, c, m, full)
    requires UninstrumentClassMethods(cfg, a, d, names, full).Ok?
    ensures UninstrumentedHere(cfg, UninstrumentClassMethods(cfg, a, d, names, full).value, c, m, full)
    decreases |names|
  {
    if |names| > 0 {
      var r1 := UninstrumentClassMethod(cfg, a, d, names[0], full).value;
      UninstrumentKeepsHere(cfg, a, d, names[0], full, c, m);
      UninstrumentKeepsCoherent(cfg, a, d, names[0], full, m);
      UninstrumentMethodsKeep(cfg, r1, d, names[1..], full, c, m);
    }
  }

  /** After uninstrumenting a list of methods of `c`, each of them is uninstrumented there. */
  lemma {:induction false} UninstrumentMethodsSettle(cfg: Instrumentor, a: Registry, c: ClassId,
                                                    names: seq<string>, full: bool)
    requires c in a.classes
    requires forall m :: m in names ==> Coherent(a, m) && NoInheritedRecord(a, c, m)
    requires UninstrumentClassMethods(cfg, a, c, names, full).Ok?
    ensures forall m :: m in names ==>
      UninstrumentedHere(cfg, UninstrumentClassMethods(cfg, a, c, names, full).value, c, m, full)
    decreases |names|
  {
    if |names| > 0 {
      var r1 := UninstrumentClassMethod(cfg, a, c, names[0], full).value;
      UninstrumentSettles(cfg, a, c, names[0], full);
      forall m | m in names
        ensures Coherent(r1, m) && NoInheritedRecord(r1, c, m)
      {
        UninstrumentKeepsCoherent(cfg, a, c, names[0], full, m);
        UninstrumentClassMethodNoInherited(cfg, a, c, names[0], full, c, m);
      }
      UninstrumentMethodsKeep(cfg, r1, c, names[1..], full, c, names[0]);
      UninstrumentMethodsSettle(cfg, r1, c, names[1..], full);
    }
  }

  /** No ancestor of `c` keeps a record of any configured method. */
  predicate NoInheritedRecords(cfg: Instrumentor, reg: Registry, c: ClassId)
    requires c in reg.classes
  {
    forall m :: m in cfg.methods ==> NoInheritedRecord(reg, c, m)
  }

  /** `assert_uninstrumented_class` holds of `c` method by method, with no inherited record left. */
  predicate ClassUninstrumentedHere(cfg: Instrumentor, reg: Registry, c: ClassId, full: bool)
    requires c in reg.classes
  {
    forall m :: m in cfg.methods ==> UninstrumentedHere(cfg, reg, c, m, full)
  }

  /** `uninstrument_class` on any class keeps the registry coherent, and keeps `c` clear of inherited records. */
  lemma UninstrumentClassKeepsCoherent(cfg: Instrumentor, a: Registry, d: ClassId, full: bool, c: ClassId)
    requires d in a.classes && c in a.classes && CoherentAll(cfg, a)
    requires UninstrumentClass(cfg, a, d, full).Ok?
    ensures CoherentAll(cfg, UninstrumentClass(cfg, a, d, full).value)
    ensures NoInheritedRecords(cfg, a, c) ==> NoInheritedRecords(cfg, UninstrumentClass(cfg, a, d, full).value, c)
  {
    forall m | m in cfg.methods
      ensures var b := UninstrumentClass(cfg, a, d, full).value;
        Coherent(b, m) && (NoInheritedRecord(a, c, m) ==> NoInheritedRecord(b, c, m))
    {
      UninstrumentMethodsKeepCoherent(cfg, a, d, cfg.methods, full, c, m);
    }
  }

  /** `uninstrument_class` on any class keeps `c` uninstrumented. */
  lemma UninstrumentClassKeeps(cfg: Instrumentor, a: Registry, d: ClassId, full: bool, c: ClassId)
    requires d in a.classes && c in a.classes
    requires CoherentAll(cfg, a) && ClassUninstrumentedHere(cfg, a, c, full)
    requires UninstrumentClass(cfg, a, d, full).Ok?
    ensures ClassUninstrumentedHere(cfg, UninstrumentClass(cfg, a, d, full).value, c, full)
  {
    forall m | m in cfg.methods
      ensures UninstrumentedHere(cfg, UninstrumentClass(cfg, a, d, full).value, c, m, full)
    {
      UninstrumentMethodsKeep(cfg, a, d, cfg.methods, full, c, m);
    }
  }

  /** `uninstrument_class` leaves the class uninstrumented. */
  lemma UninstrumentClassSettles(cfg: Instrumentor, a: Registry, c: ClassId, full: bool)
    requires c in a.classes && CoherentAll(cfg, a) && NoInheritedRecords(cfg, a, c)
    requires UninstrumentClass(cfg, a, c, full).Ok?
    ensures ClassUninstrumentedHere(cfg, UninstrumentClass(cfg, a, c, full).value, c, full)
  {
    UninstrumentMethodsSettle(cfg, a, c, cfg.methods, full);
  }

  /** The later classes of `uninstrument_classes` keep an earlier one uninstrumented, and the registry coherent. */
  lemma {:induction false} UninstrumentClassesKeep(cfg: Instrumentor, a: Registry, cs: seq<ClassId>, full: bool, c: ClassId)
    requires c in a.classes && forall x :: x in cs ==> x in a.classes
    requires CoherentAll(cfg, a)
    requires UninstrumentClasses(cfg, a, cs, full).Ok?
    ensures CoherentAll(cfg, UninstrumentClasses(cfg, a, cs, full).value)
    ensures NoInheritedRecords(cfg, a, c) ==> NoInheritedRecords(cfg, UninstrumentClasses(cfg, a, cs, full).value, c)
    ensures ClassUninstrumentedHere(cfg, a, c, full) ==>
      ClassUninstrumentedHere(cfg, UninstrumentClasses(cfg, a, cs, full).value, c, full)
    decreases |cs|
  {
    if |cs| > 0 {
      var r1 := UninstrumentClass(cfg, a, cs[0], full).value;
      UninstrumentClassKeepsCoherent(cfg, a, cs[0], full, c);
      if ClassUninstrumentedHere(cfg, a, c, full) {
        UninstrumentClassKeeps(cfg, a, cs[0], full, c);
      }
      UninstrumentClassesKeep(cfg, r1, cs[1..], full, c);
    }
  }

  /** After `uninstrument_classes` every class of the list is uninstrumented. */
  lemma {:induction false} UninstrumentClassesSettle(cfg: Instrumentor, a: Registry, cs: seq<ClassId>, full: bool)
    requires forall x :: x in cs ==> x in a.classes && NoInheritedRecords(cfg, a, x)
    requires CoherentAll(cfg, a)
    requires UninstrumentClasses(cfg, a, cs, full).Ok?
    ensures forall c :: c in cs ==> ClassUninstrumentedHere(cfg, UninstrumentClasses(cfg, a, cs, full).value, c, full)
    decreases |cs|
  {
    if |cs| > 0 {
      var r1 := UninstrumentClass(cfg, a, cs[0], full).value;
      UninstrumentClassSettles(cfg, a, cs[0], full);
      forall x | x in cs
        ensures CoherentAll(cfg, r1) && NoInheritedRecords(cfg, r1, x)
      {
        UninstrumentClassKeepsCoherent(cfg, a, cs[0], full, x);
      }
      UninstrumentClassesKeep(cfg, r1, cs[1..], full, cs[0]);
      UninstrumentClassesSettle(cfg, r1, cs[1..], full);
    }
  }

  /**
   * `uninstrument_classes` establishes `assert_uninstrumented_classes`:
   * when it returns normally, every class of the list passes the class
   * asserter, provided no ancestor of a listed class keeps a record of a
   * configured method.
   */
  lemma UninstrumentClassesEstablish(cfg: Instrumentor, reg: Registry, cs: seq<ClassId>, full: bool)
    requires forall x :: x in cs ==> x in reg.classes && NoInheritedRecords(cfg, reg, x)
    requires CoherentAll(cfg, reg)
    requires UninstrumentClasses(cfg, reg, cs, full).Ok?
    ensures forall c :: c in cs ==>
      c in UninstrumentClasses(cfg, reg, cs, full).value.classes
      && ClassUninstrumented(cfg, UninstrumentClasses(cfg, reg, cs, full).value, c, full)
  {
    UninstrumentClassesSettle(cfg, reg, cs, full);
  }
  // ---------------------------------------------------------------------
  // Estimators' classes
  // ---------------------------------------------------------------------

  /**
   * `instrument_estimator_classes` establishes the class asserter for every
   * class collected from the estimator.
   */
  lemma InstrumentEstimatorClassesEstablish(cfg: Instrumentor, reg: Registry, e: Node)
    requires EstimatorClasses.ClassesKnown(cfg, reg, e) && CoherentAll(cfg, reg)
    requires EstimatorClasses.InstrumentEstimatorClasses(cfg, reg, e).Ok?
    ensures var r := EstimatorClasses.InstrumentEstimatorClasses(cfg, reg, e).value;
      forall c :: c in Walk.Classes(cfg, e) ==> c in r.classes && ClassInstrumented(cfg, r, c)
  {
    InstrumentClassesEstablish(cfg, reg, EstimatorClasses.Ascending(Walk.Classes(cfg, e)));
  }

  /**
   * `instrument_estimators_classes`, as intended, establishes the class
   * asserter for every class collected from any of the estimators.
   */
  lemma InstrumentEstimatorsClassesEstablish(cfg: Instrumentor, reg: Registry, es: seq<Node>)
    requires forall e :: e in es ==> EstimatorClasses.ClassesKnown(cfg, reg, e)
    requires CoherentAll(cfg, reg)
    requires EstimatorClasses.InstrumentEstimatorsClasses(cfg, reg, es).Ok?
    ensures var r := EstimatorClasses.InstrumentEstimatorsClasses(cfg, reg, es).value;
      forall j, c :: 0 <= j < |es| && c in Walk.Classes(cfg, es[j]) ==> c in r.classes && ClassInstrumented(cfg, r, c)
  {
    EstimatorClasses.ClassSetsKnown(cfg, reg, es);
    var ss := EstimatorClasses.ClassSets(cfg, es);
    InstrumentClassesEstablish(cfg, reg, EstimatorClasses.Ascending(EstimatorClasses.UnionOf(ss)));
    forall j, c | 0 <= j < |es| && c in Walk.Classes(cfg, es[j])
      ensures c in EstimatorClasses.UnionOf(ss)
    {
      assert c in ss[j];
    }
  }

  /**
   * `uninstrument_estimator_classes` establishes the uninstrumented class
   * asserter for every class collected from the estimator, provided no
   * ancestor of such a class keeps a record of a configured method.
   */
  lemma UninstrumentEstimatorClassesEstablish(cfg: Instrumentor, reg: Registry, e: Node, full: bool)
    requires EstimatorClasses.ClassesKnown(cfg, reg, e) && CoherentAll(cfg, reg)
    requires forall c :: c in Walk.Classes(cfg, e) ==> NoInheritedRecords(cfg, reg, c)
    requires EstimatorClasses.UninstrumentEstimatorClasses(cfg, reg, e, full).Ok?
    ensures var r := EstimatorClasses.UninstrumentEstimatorClasses(cfg, reg, e, full).value;
      forall c :: c in Walk.Classes(cfg, e) ==> c in r.classes && ClassUninstrumented(cfg, r, c, full)
  {
    UninstrumentClassesEstablish(cfg, reg, EstimatorClasses.Ascending(Walk.Classes(cfg, e)), full);
  }
}

=== FILE: class_roundtrip.dfy ===
/**
 * Class instrumentation is undone by class uninstrumentation, and
 * `has_instrumentation` reports what the two leave behind.
 */
module ClassRoundTrip {
  import opened Wrappers
  import opened Fns
  import opened Config
  import opened MethodRecord
  import opened Objects
  import opened Classes
  import opened ClassAsserter

  /**
   * Method `m` of `c` is defined in the class itself and carries no
   * instrumentation yet: no record is reachable along the MRO and a
   * delegating method's descriptor holds none for it.
   */
  predicate Fresh(reg: Registry, c: ClassId, m: string)
    requires c in reg.classes
  {
    && GetRecord(reg, c, m).None?
    && match Getattr(reg, c, m)
       case None => true
       case Some(found) =>
         && (found.1.Function? || found.1.Property? ==> found.0 == c)
         && (found.1.Delegating? ==> m !in found.1.records)
  }

  /** Overwriting a key and then writing its old value back restores the map. */
  lemma UpdateRestores<K, V>(mp: map<K, V>, k: K, v: V)
    requires k in mp
    ensures mp[k := v][k := mp[k]] == mp
  {
  }

  /** Adding a new key and then deleting it restores the map. */
  lemma UpdateDrops<K, V>(mp: map<K, V>, k: K, v: V)
    requires k !in mp
    ensures mp[k := v] - {k} == mp
  {
  }

  /** A record holding a single instrument is empty once that instrument is removed. */
  lemma RemoveAfterNewAdd(f: Fn, i: InstrumentId, k: Kwargs)
    ensures Remove(Add(New(f), i, k), i) == New(f)
  {
    RemoveAfterAdd(New(f), i, k);
  }

  /** After the plain or property path the method is classified the same way, around the new wrapper. */
  lemma InstrumentOwnClassify(cfg: Instrumentor, reg: Registry, c: ClassId, m: string, isProperty: bool, f: Fn)
    requires c in reg.classes && Fresh(reg, c, m)
    requires Classify(reg, c, m) == Ok(if isProperty then PropertyPath(f) else PlainPath(f))
    ensures var r := InstrumentOwn(cfg, reg, c, m, isProperty, f);
      && m in r.classes[c].records
      && r.classes[c].records[m] == Add(New(f), cfg.instrument, cfg.kwargs)
      && Classify(r, c, m) == Ok(var w := Wrap(cfg.instrument, cfg.kwargs, f); if isProperty then PropertyPath(w) else PlainPath(w))
  {
    var r := InstrumentOwn(cfg, reg, c, m, isProperty, f);
    var w := Wrap(cfg.instrument, cfg.kwargs, f);
    assert Getattr(reg, c, m) == Some((c, AsAttr(isProperty, f)));
    assert Getattr(r, c, m) == Some((c, AsAttr(isProperty, w)));
    assert QualnameOf(r, AsAttr(isProperty, w)) == QualnameOf(reg, AsAttr(isProperty, f));
  }

  /** The plain and property paths: uninstrumenting removes the single layer and the record. */
  lemma InstrumentOwnRoundTrip(cfg: Instrumentor, reg: Registry, c: ClassId, m: string, isProperty: bool, f: Fn, full: bool)
    requires c in reg.classes && Fresh(reg, c, m)
    requires Classify(reg, c, m) == Ok(if isProperty then PropertyPath(f) else PlainPath(f))
    ensures UninstrumentClassMethod(cfg, InstrumentOwn(cfg, reg, c, m, isProperty, f), c, m, full) == Ok(reg)
  {
    var r := InstrumentOwn(cfg, reg, c, m, isProperty, f);
    InstrumentOwnClassify(cfg, reg, c, m, isProperty, f);
    RemoveAfterNewAdd(f, cfg.instrument, cfg.kwargs);
    var rem := Remove(r.classes[c].records[m], cfg.instrument);
    assert rem == New(f);
    assert Empty(rem);
    var u := UninstrumentOwn(cfg, r, c, m, isProperty, full);
    assert UninstrumentClassMethod(cfg, r, c, m, full) == Ok(u);
    var cls := reg.classes[c];
    assert cls.attrs[m] == AsAttr(isProperty, f);
    assert m !in cls.records;
    assert u.classes[c].attrs == r.classes[c].attrs[m := AsAttr(isProperty, f)];
    assert u.classes[c].records == r.classes[c].records - {m};
    UpdateRestores(cls.attrs, m, AsAttr(isProperty, Wrap(cfg.instrument, cfg.kwargs, f)));
    UpdateDrops(cls.records, m, r.classes[c].records[m]);
    assert u.classes[c] == cls;
    assert u.classes == reg.classes;
  }

  /** After the delegator path the method is classified as the same delegator, with the new function and record. */
  lemma InstrumentDelegatorClassify(cfg: Instrumentor, reg: Registry, c: ClassId, m: string,
                                    o: ClassId, fn: Fn, recs: map<string, ValidRecord>)
    requires c in reg.classes
    requires Classify(reg, c, m) == Ok(DelegatorPath(o, fn, recs))
    requires m in recs ==> recs[m].wrapper == fn
    ensures var rec := Add(RecordOr(recs, m, fn), cfg.instrument, cfg.kwargs);
      Classify(InstrumentDelegator(cfg, reg, o, m, fn, recs), c, m) == Ok(DelegatorPath(o, rec.wrapper, recs[m := rec]))
  {
    assert Getattr(reg, c, m) == Some((o, Delegating(fn, recs)));
    ClassifyDelegating(reg, c, m, o, fn, recs);
    InstrumentDelegatorClassifyAt(cfg, reg, c, m, o, fn, recs);
  }

  /** The same, from the descriptor `getattr` finds and the owner name its function's qualname carries. */
  lemma InstrumentDelegatorClassifyAt(cfg: Instrumentor, reg: Registry, c: ClassId, m: string,
                                      o: ClassId, fn: Fn, recs: map<string, ValidRecord>)
    requires c in reg.classes
    requires Getattr(reg, c, m) == Some((o, Delegating(fn, recs)))
    requires Utils.FirstSegment(Qualname(fn)) == reg.classes[c].name
    requires m in recs ==> recs[m].wrapper == fn
    ensures var rec := Add(RecordOr(recs, m, fn), cfg.instrument, cfg.kwargs);
      Classify(InstrumentDelegator(cfg, reg, o, m, fn, recs), c, m) == Ok(DelegatorPath(o, rec.wrapper, recs[m := rec]))
  {
    var r := InstrumentDelegator(cfg, reg, o, m, fn, recs);
    var rec := Add(RecordOr(recs, m, fn), cfg.instrument, cfg.kwargs);
    assert Qualname(rec.wrapper) == Qualname(fn) by {
      assert RecordOr(recs, m, fn).wrapper == fn;
    }
    InstrumentDelegatorGetattr(cfg, reg, c, m, o, fn, recs);
    ClassifyDelegating(r, c, m, o, rec.wrapper, recs[m := rec]);
  }

  /** Removing the single layer the delegator path added gives the descriptor back its function and records. */
  lemma DelegatorUndo(cfg: Instrumentor, reg: Registry, o: ClassId, m: string,
                      fn: Fn, recs: map<string, ValidRecord>, full: bool)
    requires o in reg.classes && m in reg.classes[o].attrs && reg.classes[o].attrs[m] == Delegating(fn, recs)
    requires m !in recs
    ensures var rec := Add(New(fn), cfg.instrument, cfg.kwargs);
      UninstrumentDelegator(cfg, InstrumentDelegator(cfg, reg, o, m, fn, recs), o, m, rec.wrapper, recs[m := rec], full) == reg
  {
    var r := InstrumentDelegator(cfg, reg, o, m, fn, recs);
    var rec := Add(New(fn), cfg.instrument, cfg.kwargs);
    RemoveAfterNewAdd(fn, cfg.instrument, cfg.kwargs);
    var u := UninstrumentDelegator(cfg, r, o, m, rec.wrapper, recs[m := rec], full);
    var cls := reg.classes[o];
    UpdateDrops(recs, m, rec);
    UpdateRestores(cls.attrs, m, Delegating(rec.wrapper, recs[m := rec]));
    assert u.classes[o].attrs == cls.attrs;
    assert u.classes[o] == cls;
    assert u.classes == reg.classes;
  }

  /** The delegator path: the descriptor gets back its function and its records. */
  lemma InstrumentDelegatorRoundTrip(cfg: Instrumentor, reg: Registry, c: ClassId, m: string,
                                     o: ClassId, fn: Fn, recs: map<string, ValidRecord>, full: bool)
    requires c in reg.classes && Fresh(reg, c, m)
    requires Classify(reg, c, m) == Ok(DelegatorPath(o, fn, recs))
    ensures UninstrumentClassMethod(cfg, InstrumentDelegator(cfg, reg, o, m, fn, recs), c, m, full) == Ok(reg)
  {
    assert Getattr(reg, c, m).value.1 == Delegating(fn, recs);
    InstrumentDelegatorClassify(cfg, reg, c, m, o, fn, recs);
    DelegatorUndo(cfg, reg, o, m, fn, recs, full);
  }

  /**
   * `_uninstrument_class_method` undoes `_instrument_class_method` on a
   * fresh method exactly, whether or not the uninstrument is full.
   */
  lemma InstrumentClassMethodRoundTrip(cfg: Instrumentor, reg: Registry, c: ClassId, m: string, full: bool)
    requires c in reg.classes && Fresh(reg, c, m)
    requires InstrumentClassMethod(cfg, reg, c, m).Ok?
    ensures UninstrumentClassMethod(cfg, InstrumentClassMethod(cfg, reg, c, m).value, c, m, full) == Ok(reg)
  {
    match Classify(reg, c, m).value
    case Skip =>
    case PlainPath(f) => InstrumentOwnRoundTrip(cfg, reg, c, m, false, f, full);
    case PropertyPath(f) => InstrumentOwnRoundTrip(cfg, reg, c, m, true, f, full);
    case DelegatorPath(o, fn, recs) => InstrumentDelegatorRoundTrip(cfg, reg, c, m, o, fn, recs, full);
  }

  // ---------------------------------------------------------------------
  // has_instrumentation
  // ---------------------------------------------------------------------

  /** The plain and property paths leave a record on the class itself. */
  lemma HasInstrumentationAfterInstrumentOwn(cfg: Instrumentor, reg: Registry, c: ClassId, m: string, isProperty: bool, f: Fn)
    requires c in reg.classes
    ensures HasInstrumentation(InstrumentOwn(cfg, reg, c, m, isProperty, f), c, m) == Ok(true)
  {
    var r := InstrumentOwn(cfg, reg, c, m, isProperty, f);
    assert Getattr(r, c, m).Some?;
    assert GetRecord(r, c, m).Some?;
  }

  /** The delegator path leaves a record of `m` on the descriptor. */
  lemma HasInstrumentationAfterInstrumentDelegator(cfg: Instrumentor, reg: Registry, c: ClassId, m: string,
                                                   o: ClassId, fn: Fn, recs: map<string, ValidRecord>)
    requires c in reg.classes
    requires Classify(reg, c, m) == Ok(DelegatorPath(o, fn, recs))
    ensures HasInstrumentation(InstrumentDelegator(cfg, reg, o, m, fn, recs), c, m) == Ok(true)
  {
    var r := InstrumentDelegator(cfg, reg, o, m, fn, recs);
    var rec := Add(RecordOr(recs, m, fn), cfg.instrument, cfg.kwargs);
    assert Getattr(reg, c, m) == Some((o, Delegating(fn, recs)));
    InstrumentDelegatorGetattr(cfg, reg, c, m, o, fn, recs);
    HasInstrumentationOfDelegating(r, c, m, o, rec.wrapper, recs[m := rec]);
  }

  /** A method found as a delegating descriptor holding a record for it has instrumentation. */
  lemma HasInstrumentationOfDelegating(reg: Registry, c: ClassId, m: string, o: ClassId,
                                       w: Fn, rs: map<string, ValidRecord>)
    requires c in reg.classes && m in rs
    requires Getattr(reg, c, m) == Some((o, Delegating(w, rs)))
    ensures HasInstrumentation(reg, c, m) == Ok(true)
  {
  }

  /** After `_instrument_class_method` takes any path, `has_instrumentation` reports the method instrumented. */
  lemma HasInstrumentationAfterInstrument(cfg: Instrumentor, reg: Registry, c: ClassId, m: string)
    requires c in reg.classes
    requires Classify(reg, c, m).Ok? && !Classify(reg, c, m).value.Skip?
    ensures InstrumentClassMethod(cfg, reg, c, m).Ok?
    ensures HasInstrumentation(InstrumentClassMethod(cfg, reg, c, m).value, c, m) == Ok(true)
  {
    match Classify(reg, c, m).value
    case PlainPath(f) => HasInstrumentationAfterInstrumentOwn(cfg, reg, c, m, false, f);
    case PropertyPath(f) => HasInstrumentationAfterInstrumentOwn(cfg, reg, c, m, true, f);
    case DelegatorPath(o, fn, recs) => HasInstrumentationAfterInstrumentDelegator(cfg, reg, c, m, o, fn, recs);
  }

  /**
   * After a full `_uninstrument_class_method`, with no record inherited
   * from an ancestor, `has_instrumentation` reports a plain or delegating
   * method uninstrumented; on a property it raises, since `is_delegator`
   * reads the `__closure__` a property does not have.
   */
  lemma HasInstrumentationAfterFullUninstrument(cfg: Instrumentor, reg: Registry, c: ClassId, m: string)
    requires c in reg.classes && NoInheritedRecord(reg, c, m)
    requires Classify(reg, c, m).Ok? && !Classify(reg, c, m).value.Skip?
    requires Classify(reg, c, m).value.DelegatorPath? ==> m !in reg.classes[c].records
    ensures UninstrumentClassMethod(cfg, reg, c, m, true).Ok?
    ensures HasInstrumentation(UninstrumentClassMethod(cfg, reg, c, m, true).value, c, m)
      == if Classify(reg, c, m).value.PropertyPath? then Err(AttributeError) else Ok(false)
  {
    match Classify(reg, c, m).value
    case PlainPath(f) => HasInstrumentationAfterFullOwn(cfg, reg, c, m, false, f);
    case PropertyPath(f) => HasInstrumentationAfterFullOwn(cfg, reg, c, m, true, f);
    case DelegatorPath(o, fn, recs) => HasInstrumentationAfterFullDelegator(cfg, reg, c, m, o, fn, recs);
  }

  /** After the full plain or property path the class's own function or property is left, with no record. */
  lemma HasInstrumentationAfterFullOwn(cfg: Instrumentor, reg: Registry, c: ClassId, m: string, isProperty: bool, f: Fn)
    requires c in reg.classes && NoInheritedRecord(reg, c, m)
    requires Classify(reg, c, m) == Ok(if isProperty then PropertyPath(f) else PlainPath(f))
    ensures var r := UninstrumentOwn(cfg, reg, c, m, isProperty, true);
      && UninstrumentClassMethod(cfg, reg, c, m, true) == Ok(r)
      && HasInstrumentation(r, c, m) == if isProperty then Err(AttributeError) else Ok(false)
  {
    var r := UninstrumentOwn(cfg, reg, c, m, isProperty, true);
    OwnRecordOnly(reg, c, m);
    assert NoInheritedRecord(r, c, m);
    OwnRecordOnly(r, c, m);
    if m in reg.classes[c].records {
      assert Getattr(r, c, m) == Some((c, AsAttr(isProperty, Remove(reg.classes[c].records[m], cfg.instrument).wrapped)));
    }
  }

  /** After the full delegator path the descriptor is left without a record for the method. */
  lemma HasInstrumentationAfterFullDelegator(cfg: Instrumentor, reg: Registry, c: ClassId, m: string,
                                             o: ClassId, fn: Fn, recs: map<string, ValidRecord>)
    requires c in reg.classes && NoInheritedRecord(reg, c, m) && m !in reg.classes[c].records
    requires Classify(reg, c, m) == Ok(DelegatorPath(o, fn, recs))
    ensures var r := UninstrumentDelegator(cfg, reg, o, m, fn, recs, true);
      && UninstrumentClassMethod(cfg, reg, c, m, true) == Ok(r)
      && HasInstrumentation(r, c, m) == Ok(false)
  {
    var r := UninstrumentDelegator(cfg, reg, o, m, fn, recs, true);
    assert NoInheritedRecord(r, c, m);
    OwnRecordOnly(r, c, m);
    if m in recs {
      GetattrRetarget(reg, r, c, m, o);
    }
  }
}

=== FILE: classes.dfy ===
/**
 * Class-level instrumentation: `instrument_class(es)`,
 * `uninstrument_class(es)`, their per-method plain, property and delegator
 * paths, and `has_instrumentation` on a class.
 *
 * A class is its own attribute dictionary plus its MRO. Attribute lookup on
 * a class (`getattr(cls, name)`) returns the first definition along the MRO.
 * Method records live in the class dictionary under `"_skli_" + name`, or on
 * the delegation descriptor for a delegating method.
 */
module Classes {
  import opened Wrappers
  import opened Fns
  import opened Config
  import opened MethodRecord
  import opened Objects
  import Utils

  /**
   * A value stored in a class dictionary under a method name: a plain
   * function, a `property`, an `_IffHasAttrDescriptor` (its `fn` and the
   * records set on it, keyed by method name), or any other non-`None` value
   * (with its `__qualname__`, if it has one).
   */
  datatype Attr =
    | Function(f: Fn)
    | Property(fget: Fn)
    | Delegating(fn: Fn, records: map<string, ValidRecord>)
    | Data(qualname: Option<string>)

  /**
   * A class: `__name__`, the type names `issubclass` consults, the rest of its
   * MRO (`__mro__[1:]`), its own method attributes, and its own records
   * (`"_skli_" + name` entries, keyed by the method name).
   */
  datatype Class = Class(
    name: string,
    types: set<TypeName>,
    ancestors: seq<ClassId>,
    attrs: map<string, Attr>,
    records: map<string, ValidRecord>)

  /**
   * The classes, and whether the interpreter gives `property` objects a
   * `__qualname__` (taken to be the getter's when it does).
   */
  datatype Registry = Registry(classes: map<ClassId, Class>, propertyQualname: bool)

  // ---------------------------------------------------------------------
  // Attribute lookup along the MRO
  // ---------------------------------------------------------------------

  function Mro(reg: Registry, c: ClassId): seq<ClassId>
    requires c in reg.classes
  {
    [c] + reg.classes[c].ancestors
  }

  /** The first class of `cs` whose dictionary holds `m`, with the value found there. */
  function FindAttr(reg: Registry, cs: seq<ClassId>, m: string): (r: Option<(ClassId, Attr)>)
    ensures r.Some? ==> r.value.0 in cs && r.value.0 in reg.classes
    ensures r.Some? ==> m in reg.classes[r.value.0].attrs && reg.classes[r.value.0].attrs[m] == r.value.1
    ensures r.None? <==> forall x :: x in cs && x in reg.classes ==> m !in reg.classes[x].attrs
  {
    if |cs| == 0 then None
    else if cs[0] in reg.classes && m in reg.classes[cs[0]].attrs then Some((cs[0], reg.classes[cs[0]].attrs[m]))
    else
      var r := FindAttr(reg, cs[1..], m);
      assert forall x :: x in cs ==> x == cs[0] || x in cs[1..];
      r
  }

  /** The first class of `cs` whose dictionary holds the record of `m`. */
  function FindRecord(reg: Registry, cs: seq<ClassId>, m: string): (r: Option<(ClassId, ValidRecord)>)
    ensures r.Some? ==> r.value.0 in cs && r.value.0 in reg.classes
    ensures r.Some? ==> m in reg.classes[r.value.0].records && reg.classes[r.value.0].records[m] == r.value.1
    ensures r.None? <==> forall x :: x in cs && x in reg.classes ==> m !in reg.classes[x].records
  {
    if |cs| == 0 then None
    else if cs[0] in reg.classes && m in reg.classes[cs[0]].records then Some((cs[0], reg.classes[cs[0]].records[m]))
    else
      var r := FindRecord(reg, cs[1..], m);
      assert forall x :: x in cs ==> x == cs[0] || x in cs[1..];
      r
  }

  /** `getattr(cls, m, None)`: the class's own definition wins over inherited ones. */
  function Getattr(reg: Registry, c: ClassId, m: string): (r: Option<(ClassId, Attr)>)
    requires c in reg.classes
    ensures m in reg.classes[c].attrs ==> r == Some((c, reg.classes[c].attrs[m]))
    ensures r.Some? ==> r.value.0 in Mro(reg, c) && r.value.0 in reg.classes
    ensures r.Some? ==> m in reg.classes[r.value.0].attrs && reg.classes[r.value.0].attrs[m] == r.value.1
  {
    FindAttr(reg, Mro(reg, c), m)
  }

  /** `getattr(cls, "_skli_" + m, None)`: a record of the class or, failing that, of an ancestor. */
  function GetRecord(reg: Registry, c: ClassId, m: string): (r: Option<(ClassId, ValidRecord)>)
    requires c in reg.classes
    ensures m in reg.classes[c].records ==> r == Some((c, reg.classes[c].records[m]))
    ensures r.Some? ==> r.value.0 in Mro(reg, c) && r.value.0 in reg.classes
    ensures r.Some? ==> m in reg.classes[r.value.0].records && reg.classes[r.value.0].records[m] == r.value.1
  {
    FindRecord(reg, Mro(reg, c), m)
  }

  /** The `__qualname__` of what `getattr(cls, m)` returns for an attribute value. */
  function QualnameOf(reg: Registry, a: Attr): Option<string>
  {
    match a
    case Function(f) => Some(Qualname(f))
    case Property(fget) => if reg.propertyQualname then Some(Qualname(fget)) else None
    case Delegating(fn, _) => Some(Qualname(fn))
    case Data(q) => q
  }

  /** `method_is_inherited(cls, m)`: a missing attribute or qualname raises `AttributeError`. */
  function Inherited(reg: Registry, c: ClassId, m: string): (r: Result<bool>)
    requires c in reg.classes
    ensures Getattr(reg, c, m).None? ==> r == Err(AttributeError)
    ensures Getattr(reg, c, m).Some? ==>
      r == Utils.MethodIsInherited(QualnameOf(reg, Getattr(reg, c, m).value.1),
                                   Some(reg.classes[c].name), reg.classes[c].name)
  {
    match Getattr(reg, c, m)
    case None => Err(AttributeError)
    case Some(found) =>
      Utils.MethodIsInherited(QualnameOf(reg, found.1), Some(reg.classes[c].name), reg.classes[c].name)
  }

  /**
   * `is_delegator` applied to what `getattr(cls, m)` returns: a plain function
   * closes over no descriptor, the function a descriptor hands out closes over
   * it, and a property or other object has no `__closure__` at all.
   */
  function AttrIsDelegator(a: Attr): (r: Result<bool>)
    ensures r.Ok? <==> a.Function? || a.Delegating?
    ensures r.Ok? ==> (r.value <==> a.Delegating?)
    ensures r.Err? ==> r.error == AttributeError
  {
    match a
    case Function(_) => Ok(false)
    case Delegating(_, _) => Ok(true)
    case _ => Err(AttributeError)
  }

  /** The branch `_instrument_class_method` and its siblings take for one method name. */
  datatype Path =
    | Skip
    | PlainPath(f: Fn)
    | PropertyPath(fget: Fn)
    | DelegatorPath(owner: ClassId, fn: Fn, records: map<string, ValidRecord>)

  /**
   * The shared prelude of the class-method paths: a missing attribute and an
   * inherited one are skipped; then a property, a delegator, or a plain
   * method. Errors are those `method_is_inherited` and `is_delegator` raise.
   */
  function Classify(reg: Registry, c: ClassId, m: string): (r: Result<Path>)
    requires c in reg.classes
    ensures Getattr(reg, c, m).None? ==> r == Ok(Skip)
    ensures Getattr(reg, c, m).Some? && Inherited(reg, c, m).Err? ==> r.Err?
    ensures Getattr(reg, c, m).Some? && Inherited(reg, c, m) == Ok(true) ==> r == Ok(Skip)
    ensures r.Ok? && !r.value.Skip? ==> Getattr(reg, c, m).Some? && Inherited(reg, c, m) == Ok(false)
    ensures r == Ok(Skip) ==> Getattr(reg, c, m).None? || Inherited(reg, c, m) == Ok(true)
    ensures r.Ok? && r.value.PlainPath? ==> Getattr(reg, c, m).value.1 == Function(r.value.f)
    ensures r.Ok? && r.value.PropertyPath? ==> Getattr(reg, c, m).value.1 == Property(r.value.fget)
    ensures r.Ok? && r.value.DelegatorPath? ==>
      Getattr(reg, c, m).value == (r.value.owner, Delegating(r.value.fn, r.value.records))
  {
    match Getattr(reg, c, m)
    case None => Ok(Skip)
    case Some(found) =>
      match Inherited(reg, c, m)
      case Err(e) => Err(e)
      case Ok(inh) =>
        if inh then Ok(Skip)
        else
          match found.1
          case Property(fget) => Ok(PropertyPath(fget))
          case Function(f) => Ok(PlainPath(f))
          case Delegating(fn, recs) => Ok(DelegatorPath(found.0, fn, recs))
          case Data(_) => Err(AttributeError)
  }

  /**
   * A function or property in the class's own dictionary is skipped when its
   * qualified name names another class, else takes the plain or property path.
   */
  lemma ClassifyOwn(reg: Registry, c: ClassId, m: string, isProperty: bool, g: Fn)
    requires c in reg.classes && m in reg.classes[c].attrs
    requires reg.classes[c].attrs[m] == AsAttr(isProperty, g)
    requires isProperty ==> reg.propertyQualname
    ensures Classify(reg, c, m)
            == if Utils.FirstSegment(Qualname(g)) != reg.classes[c].name then Ok(Skip)
               else Ok(if isProperty then PropertyPath(g) else PlainPath(g))
  {
  }

  // ---------------------------------------------------------------------
  // Instrumenting one class method
  // ---------------------------------------------------------------------

  /** The attribute installed for a callable: itself, or `property(f)` on the property path. */
  function AsAttr(isProperty: bool, f: Fn): Attr
  {
    if isProperty then Property(f) else Function(f)
  }

  /** The record to extend: the one already present, or a fresh record around `f`. */
  function RecordOr(recs: map<string, ValidRecord>, m: string, f: Fn): (r: ValidRecord)
    ensures m in recs ==> r == recs[m]
    ensures m !in recs ==> r == New(f)
  {
    if m in recs then recs[m] else New(f)
  }

  /**
   * The plain and property paths (with the record looked up in the class's
   * own dictionary): extend the record with this instrument and install its
   * wrapper, as such or as `property(wrapper)`.
   */
  function InstrumentOwn(cfg: Instrumentor, reg: Registry, c: ClassId, m: string, isProperty: bool, f: Fn)
    : (r: Registry)
    requires c in reg.classes
    ensures r.classes.Keys == reg.classes.Keys && r.propertyQualname == reg.propertyQualname
    ensures forall x :: x in reg.classes && x != c ==> r.classes[x] == reg.classes[x]
    ensures var old_ := reg.classes[c]; var new_ := r.classes[c];
      var rec := Add(RecordOr(old_.records, m, f), cfg.instrument, cfg.kwargs);
      && new_.name == old_.name && new_.types == old_.types && new_.ancestors == old_.ancestors
      && new_.attrs == old_.attrs[m := AsAttr(isProperty, rec.wrapper)]
      && new_.records == old_.records[m := rec]
  {
    var cls := reg.classes[c];
    var rec := Add(RecordOr(cls.records, m, f), cfg.instrument, cfg.kwargs);
    reg.(classes := reg.classes[c := cls.(attrs := cls.attrs[m := AsAttr(isProperty, rec.wrapper)],
                                         records := cls.records[m := rec])])
  }

  /**
   * `_instrument_delegator`: extend the record kept on the descriptor and
   * point the descriptor's `fn` at the wrapper. The descriptor lives in the
   * dictionary of `owner`, which may be an ancestor of the class processed.
   */
  function InstrumentDelegator(cfg: Instrumentor, reg: Registry, owner: ClassId, m: string,
                               fn: Fn, recs: map<string, ValidRecord>) : (r: Registry)
    requires owner in reg.classes
    ensures r.classes.Keys == reg.classes.Keys && r.propertyQualname == reg.propertyQualname
    ensures forall x :: x in reg.classes && x != owner ==> r.classes[x] == reg.classes[x]
    ensures var old_ := reg.classes[owner]; var new_ := r.classes[owner];
      var rec := Add(RecordOr(recs, m, fn), cfg.instrument, cfg.kwargs);
      && new_.name == old_.name && new_.types == old_.types && new_.ancestors == old_.ancestors
      && new_.records == old_.records
      && new_.attrs == old_.attrs[m := Delegating(rec.wrapper, recs[m := rec])]
  {
    var cls := reg.classes[owner];
    var rec := Add(RecordOr(recs, m, fn), cfg.instrument, cfg.kwargs);
    reg.(classes := reg.classes[owner := cls.(attrs := cls.attrs[m := Delegating(rec.wrapper, recs[m := rec])])])
  }

  /**
   * `_instrument_class_method` as evidently intended: the own path extends
   * the class's own record, not one found along the MRO. The source as
   * written is `ClassFindings.InstrumentClassMethodAsWritten`.
   */
  function InstrumentClassMethod(cfg: Instrumentor, reg: Registry, c: ClassId, m: string): (r: Result<Registry>)
    requires c in reg.classes
    ensures r.Err? <==> Classify(reg, c, m).Err?
    ensures r.Ok? ==> r.value.classes.Keys == reg.classes.Keys
    ensures Classify(reg, c, m) == Ok(Skip) ==> r == Ok(reg)
  {
    match Classify(reg, c, m)
    case Err(e) => Err(e)
    case Ok(p) =>
      match p
      case Skip => Ok(reg)
      case PlainPath(f) => Ok(InstrumentOwn(cfg, reg, c, m, false, f))
      case PropertyPath(fget) => Ok(InstrumentOwn(cfg, reg, c, m, true, fget))
      case DelegatorPath(o, fn, recs) => Ok(InstrumentDelegator(cfg, reg, o, m, fn, recs))
  }

  /** The loop of `instrument_class` over the configured method names, on the corrected step; an exception ends it. */
  function InstrumentClassMethods(cfg: Instrumentor, reg: Registry, c: ClassId, names: seq<string>)
    : (r: Result<Registry>)
    requires c in reg.classes
    ensures r.Ok? ==> r.value.classes.Keys == reg.classes.Keys
    decreases |names|
  {
    if |names| == 0 then Ok(reg)
    else
      match InstrumentClassMethod(cfg, reg, c, names[0])
      case Err(e) => Err(e)
      case Ok(r1) => InstrumentClassMethods(cfg, r1, c, names[1..])
  }

  /** `issubclass(cls, exclude)`. */
  predicate ClassExcluded(cfg: Instrumentor, reg: Registry, c: ClassId)
    requires c in reg.classes
  {
    Excluded(reg.classes[c].types, cfg.exclude)
  }

  /** `instrument_class` on the corrected step: an excluded class is left alone. */
  function InstrumentClass(cfg: Instrumentor, reg: Registry, c: ClassId): (r: Result<Registry>)
    requires c in reg.classes
    ensures ClassExcluded(cfg, reg, c) ==> r == Ok(reg)
    ensures r.Ok? ==> r.value.classes.Keys == reg.classes.Keys
  {
    if ClassExcluded(cfg, reg, c) then Ok(reg)
    else InstrumentClassMethods(cfg, reg, c, cfg.methods)
  }

  /** `instrument_classes` on the corrected step: each class in turn; an exception ends the loop. */
  function InstrumentClasses(cfg: Instrumentor, reg: Registry, cs: seq<ClassId>): (r: Result<Registry>)
    requires forall x :: x in cs ==> x in reg.classes
    ensures r.Ok? ==> r.value.classes.Keys == reg.classes.Keys
    decreases |cs|
  {
    if |cs| == 0 then Ok(reg)
    else
      match InstrumentClass(cfg, reg, cs[0])
      case Err(e) => Err(e)
      case Ok(r1) => InstrumentClasses(cfg, r1, cs[1..])
  }

  // ---------------------------------------------------------------------
  // Uninstrumenting one class method
  // ---------------------------------------------------------------------

  /** Class `c` with attribute `m` set to `a` and its records replaced by `recs`; nothing else changes. */
  function SetOwn(reg: Registry, c: ClassId, m: string, a: Attr, recs: map<string, ValidRecord>) : (r: Registry)
    requires c in reg.classes
    ensures r.classes.Keys == reg.classes.Keys && r.propertyQualname == reg.propertyQualname
    ensures forall x :: x in reg.classes && x != c ==> r.classes[x] == reg.classes[x]
    ensures r.classes[c] == reg.classes[c].(attrs := reg.classes[c].attrs[m := a], records := recs)
  {
    var cls := reg.classes[c];
    reg.(classes := reg.classes[c := cls.(attrs := cls.attrs[m := a], records := recs)])
  }

  /**
   * The plain and property uninstrument paths (record in the class's own
   * dictionary): no record, nothing to do; otherwise drop this instrument,
   * and either restore `wrapped` and delete the record (`full`, or nothing
   * left) or install the recomputed wrapper.
   */
  function UninstrumentOwn(cfg: Instrumentor, reg: Registry, c: ClassId, m: string, isProperty: bool, full: bool)
    : (r: Registry)
    requires c in reg.classes
    ensures r.classes.Keys == reg.classes.Keys && r.propertyQualname == reg.propertyQualname
    ensures forall x :: x in reg.classes && x != c ==> r.classes[x] == reg.classes[x]
    ensures m !in reg.classes[c].records ==> r == reg
    ensures var old_ := reg.classes[c]; var new_ := r.classes[c];
      && new_.name == old_.name && new_.types == old_.types && new_.ancestors == old_.ancestors
    ensures var old_ := reg.classes[c]; var new_ := r.classes[c];
      m in old_.records ==>
        var rec := Remove(old_.records[m], cfg.instrument);
        if full || Empty(rec) then
          new_.attrs == old_.attrs[m := AsAttr(isProperty, rec.wrapped)] && new_.records == old_.records - {m}
        else
          new_.attrs == old_.attrs[m := AsAttr(isProperty, rec.wrapper)] && new_.records == old_.records[m := rec]
  {
    var cls := reg.classes[c];
    if m !in cls.records then reg
    else
      var rec := Remove(cls.records[m], cfg.instrument);
      if full || Empty(rec) then SetOwn(reg, c, m, AsAttr(isProperty, rec.wrapped), cls.records - {m})
      else SetOwn(reg, c, m, AsAttr(isProperty, rec.wrapper), cls.records[m := rec])
  }

  /** `_uninstrument_delegator`: the same on the descriptor's record and its `fn`. */
  function UninstrumentDelegator(cfg: Instrumentor, reg: Registry, owner: ClassId, m: string,
                                 fn: Fn, recs: map<string, ValidRecord>, full: bool) : (r: Registry)
    requires owner in reg.classes
    ensures r.classes.Keys == reg.classes.Keys && r.propertyQualname == reg.propertyQualname
    ensures forall x :: x in reg.classes && x != owner ==> r.classes[x] == reg.classes[x]
    ensures m !in recs ==> r == reg
    ensures var old_ := reg.classes[owner]; var new_ := r.classes[owner];
      && new_.name == old_.name && new_.types == old_.types && new_.ancestors == old_.ancestors
      && new_.records == old_.records
    ensures var old_ := reg.classes[owner]; var new_ := r.classes[owner];
      m in recs ==>
        var rec := Remove(recs[m], cfg.instrument);
        if full || Empty(rec) then new_.attrs == old_.attrs[m := Delegating(rec.wrapped, recs - {m})]
        else new_.attrs == old_.attrs[m := Delegating(rec.wrapper, recs[m := rec])]
  {
    if m !in recs then reg
    else
      var cls := reg.classes[owner];
      var rec := Remove(recs[m], cfg.instrument);
      var a := if full || Empty(rec) then Delegating(rec.wrapped, recs - {m}) else Delegating(rec.wrapper, recs[m := rec]);
      reg.(classes := reg.classes[owner := cls.(attrs := cls.attrs[m := a])])
  }

  /**
   * Dropping this instrument from the record found on class `x`, in place,
   * and installing the recomputed wrapper on `c`: `x` changes in its record
   * only, `c` in its attribute only.
   */
  function ShrinkFoundRecord(cfg: Instrumentor, reg: Registry, c: ClassId, m: string, isProperty: bool,
                             x: ClassId, found: ValidRecord) : (r: Registry)
    requires c in reg.classes && x in reg.classes && x != c
    ensures r.classes.Keys == reg.classes.Keys && r.propertyQualname == reg.propertyQualname
    ensures forall y :: y in reg.classes && y != c && y != x ==> r.classes[y] == reg.classes[y]
    ensures var rec := Remove(found, cfg.instrument);
      && r.classes[c] == reg.classes[c].(attrs := reg.classes[c].attrs[m := AsAttr(isProperty, rec.wrapper)])
      && r.classes[x] == reg.classes[x].(records := reg.classes[x].records[m := rec])
  {
    var rec := Remove(found, cfg.instrument);
    var px := reg.classes[x];
    var pc := reg.classes[c];
    reg.(classes := reg.classes[x := px.(records := px.records[m := rec])][c := pc.(attrs := pc.attrs[m := AsAttr(isProperty, rec.wrapper)])])
  }

  /**
   * The plain and property uninstrument paths as written: the record is
   * fetched with `getattr`, so it may belong to an ancestor `x`. The record
   * object is shrunk in place, so `x` loses the layer too. When it is then
   * to be deleted, `delattr` on `c` raises AttributeError because `c` does
   * not own the record; otherwise the remaining wrapper of `x`'s record is
   * installed on `c`.
   */
  function UninstrumentOwnAsWritten(cfg: Instrumentor, reg: Registry, c: ClassId, m: string, isProperty: bool, full: bool)
    : (r: Result<Registry>)
    requires c in reg.classes
    ensures GetRecord(reg, c, m).None? || GetRecord(reg, c, m).value.0 == c ==>
      r == Ok(UninstrumentOwn(cfg, reg, c, m, isProperty, full))
    ensures GetRecord(reg, c, m).Some? && GetRecord(reg, c, m).value.0 != c ==>
      var (x, found) := GetRecord(reg, c, m).value;
      var rec := Remove(found, cfg.instrument);
      r == if full || Empty(rec) then Err(AttributeError) else Ok(ShrinkFoundRecord(cfg, reg, c, m, isProperty, x, found))
  {
    match GetRecord(reg, c, m)
    case None => Ok(UninstrumentOwn(cfg, reg, c, m, isProperty, full))
    case Some(found) =>
      if found.0 == c then Ok(UninstrumentOwn(cfg, reg, c, m, isProperty, full))
      else
        var rec := Remove(found.1, cfg.instrument);
        if full || Empty(rec) then Err(AttributeError)
        else Ok(ShrinkFoundRecord(cfg, reg, c, m, isProperty, found.0, found.1))
  }

  /**
   * `_uninstrument_class_method` as written: the record is looked up along
   * the MRO, and the property path is called without `full`.
   */
  function UninstrumentClassMethodAsWritten(cfg: Instrumentor, reg: Registry, c: ClassId, m: string, full: bool)
    : (r: Result<Registry>)
    requires c in reg.classes
    ensures Classify(reg, c, m).Err? ==> r.Err?
    ensures Classify(reg, c, m) == Ok(Skip) ==> r == Ok(reg)
    ensures Classify(reg, c, m).Ok? && Classify(reg, c, m).value.PlainPath? ==>
      r == UninstrumentOwnAsWritten(cfg, reg, c, m, false, full)
    ensures Classify(reg, c, m).Ok? && Classify(reg, c, m).value.PropertyPath? ==>
      r == UninstrumentOwnAsWritten(cfg, reg, c, m, true, false)
    ensures (GetRecord(reg, c, m).None? || GetRecord(reg, c, m).value.0 == c) &&
            Classify(reg, c, m).Ok? && !Classify(reg, c, m).value.PropertyPath? ==>
      r == UninstrumentClassMethod(cfg, reg, c, m, full)
    ensures (GetRecord(reg, c, m).None? || GetRecord(reg, c, m).value.0 == c) &&
            Classify(reg, c, m).Ok? && Classify(reg, c, m).value.PropertyPath? ==>
      r == UninstrumentClassMethod(cfg, reg, c, m, false)
  {
    match Classify(reg, c, m)
    case Err(e) => Err(e)
    case Ok(p) =>
      match p
      case Skip => Ok(reg)
      case PlainPath(_) => UninstrumentOwnAsWritten(cfg, reg, c, m, false, full)
      case PropertyPath(_) => UninstrumentOwnAsWritten(cfg, reg, c, m, true, false)
      case DelegatorPath(o, fn, recs) => Ok(UninstrumentDelegator(cfg, reg, o, m, fn, recs, full))
  }

  /**
   * `_uninstrument_class_method` as evidently intended: the record is the
   * class's own, and `full` is passed on to the property path as well.
   */
  function UninstrumentClassMethod(cfg: Instrumentor, reg: Registry, c: ClassId, m: string, full: bool)
    : (r: Result<Registry>)
    requires c in reg.classes
    ensures r.Err? <==> Classify(reg, c, m).Err?
    ensures r.Ok? ==> r.value.classes.Keys == reg.classes.Keys
    ensures Classify(reg, c, m) == Ok(Skip) ==> r == Ok(reg)
  {
    match Classify(reg, c, m)
    case Err(e) => Err(e)
    case Ok(p) =>
      match p
      case Skip => Ok(reg)
      case PlainPath(_) => Ok(UninstrumentOwn(cfg, reg, c, m, false, full))
      case PropertyPath(_) => Ok(UninstrumentOwn(cfg, reg, c, m, true, full))
      case DelegatorPath(o, fn, recs) => Ok(UninstrumentDelegator(cfg, reg, o, m, fn, recs, full))
  }

  /** The loop of `uninstrument_class` over the configured method names, on the corrected step. */
  function UninstrumentClassMethods(cfg: Instrumentor, reg: Registry, c: ClassId, names: seq<string>, full: bool)
    : (r: Result<Registry>)
    requires c in reg.classes
    ensures r.Ok? ==> r.value.classes.Keys == reg.classes.Keys
    decreases |names|
  {
    if |names| == 0 then Ok(reg)
    else
      match UninstrumentClassMethod(cfg, reg, c, names[0], full)
      case Err(e) => Err(e)
      case Ok(r1) => UninstrumentClassMethods(cfg, r1, c, names[1..], full)
  }

  /** `uninstrument_class` on the corrected step: unlike `instrument_class`, no exclusion test. */
  function UninstrumentClass(cfg: Instrumentor, reg: Registry, c: ClassId, full: bool): (r: Result<Registry>)
    requires c in reg.classes
    ensures r.Ok? ==> r.value.classes.Keys == reg.classes.Keys
  {
    UninstrumentClassMethods(cfg, reg, c, cfg.methods, full)
  }

  /** `uninstrument_classes` on the corrected step. */
  function UninstrumentClasses(cfg: Instrumentor, reg: Registry, cs: seq<ClassId>, full: bool): (r: Result<Registry>)
    requires forall x :: x in cs ==> x in reg.classes
    ensures r.Ok? ==> r.value.classes.Keys == reg.classes.Keys
    decreases |cs|
  {
    if |cs| == 0 then Ok(reg)
    else
      match UninstrumentClass(cfg, reg, cs[0], full)
      case Err(e) => Err(e)
      case Ok(r1) => UninstrumentClasses(cfg, r1, cs[1..], full)
  }

  // ---------------------------------------------------------------------
  // has_instrumentation
  // ---------------------------------------------------------------------

  /**
   * `has_instrumentation(cls, m)`: a record reachable from the class, or one
   * on the descriptor of a delegating method. A missing method raises, and so
   * does `is_delegator` on a property or other non-function.
   */
  function HasInstrumentation(reg: Registry, c: ClassId, m: string): (r: Result<bool>)
    requires c in reg.classes
    ensures Getattr(reg, c, m).None? ==> r == Err(AttributeError)
    ensures Getattr(reg, c, m).Some? && GetRecord(reg, c, m).Some? ==> r == Ok(true)
    ensures Getattr(reg, c, m).Some? && GetRecord(reg, c, m).None? ==>
      var a := Getattr(reg, c, m).value.1;
      && (a.Function? ==> r == Ok(false))
      && (a.Delegating? ==> r == Ok(m in a.records))
      && (a.Property? || a.Data? ==> r == Err(AttributeError))
  {
    match Getattr(reg, c, m)
    case None => Err(AttributeError)
    case Some(found) =>
      if GetRecord(reg, c, m).Some? then Ok(true)
      else
        match AttrIsDelegator(found.1)
        case Err(e) => Err(e)
        case Ok(isDel) => Ok(isDel && m in found.1.records)
  }
}

=== FILE: config.dfy ===
/**
 * Instrumentor configuration: the default method names and excluded types,
 * the reserved attribute prefix for records, and the exclusion test.
 */
module Config {
  import opened Wrappers
  import opened Fns

  /** A Python type, by name. An object's or class's type set is every type in its MRO. */
  type TypeName = string

  /** Identity of a class object. */
  type ClassId = nat

  /** `DEFAULT_METHODS` in config.py. */
  const DefaultMethods: seq<string> :=
    ["_fit", "_predict", "_predict_proba", "_transform", "fit", "predict", "predict_proba", "transform"]

  /** `DEFAULT_EXCLUDE` in config.py: `BaseDecisionTree` and `Enum`. */
  const DefaultExclude: set<TypeName> := {"BaseDecisionTree", "Enum"}

  /** `_get_instrumentation_attribute_prefix`. */
  const Prefix: string := "_skli_"

  /** `k.startswith("_skli_")`. */
  predicate IsReserved(k: string)
  {
    |k| >= |Prefix| && k[..|Prefix|] == Prefix
  }

  /** `_get_instrumentation_attribute_name`: where the record of method `name` is stored. */
  function AttributeName(name: string): (r: string)
    ensures IsReserved(r)
    ensures |r| == |Prefix| + |name| && r[|Prefix|..] == name
  {
    Prefix + name
  }

  /** Different methods get different record attributes. */
  lemma AttributeNameInjective(m1: string, m2: string)
    ensures AttributeName(m1) == AttributeName(m2) <==> m1 == m2
  {
    if AttributeName(m1) == AttributeName(m2) {
      assert m1 == AttributeName(m1)[|Prefix|..];
    }
  }

  /** A method name that is not itself reserved is never the record attribute of any method. */
  lemma AttributeNameIsNotMethod(m: string, m2: string)
    requires !IsReserved(m)
    ensures AttributeName(m2) != m
  {
  }

  /** `isinstance(obj, exclude)` / `issubclass(cls, exclude)`. */
  predicate Excluded(types: set<TypeName>, exclude: set<TypeName>)
  {
    exists t :: t in types && t in exclude
  }

  datatype Instrumentor = Instrumentor(
    instrument: InstrumentId,
    kwargs: Kwargs,
    methods: seq<string>,
    exclude: set<TypeName>)

  /**
   * `SklearnInstrumentor.__init__`: each optional argument falls back to its
   * default when it is missing or falsy (an empty dict, list or tuple).
   */
  function MakeInstrumentor(instrument: InstrumentId, kwargs: Option<Kwargs>,
                            methods: Option<seq<string>>, exclude: Option<set<TypeName>>)
    : (r: Instrumentor)
    ensures r.instrument == instrument
    ensures (kwargs.None? || kwargs.value == map[]) ==> r.kwargs == map[]
    ensures kwargs.Some? ==> r.kwargs == kwargs.value
    ensures (methods.None? || methods.value == []) ==> r.methods == DefaultMethods
    ensures methods.Some? && methods.value != [] ==> r.methods == methods.value
    ensures (exclude.None? || exclude.value == {}) ==> r.exclude == DefaultExclude
    ensures exclude.Some? && exclude.value != {} ==> r.exclude == exclude.value
    ensures r.methods != [] && r.exclude != {}
  {
    Instrumentor(
      instrument,
      if kwargs.Some? then kwargs.value else map[],
      if methods.Some? && methods.value != [] then methods.value else DefaultMethods,
      if exclude.Some? && exclude.value != {} then exclude.value else DefaultExclude)
  }

  /** `instrument_kwargs or self.instrument_kwargs` in `_instrument_instance_method`. */
  function EffectiveKwargs(cfg: Instrumentor, perCall: Option<Kwargs>): (k: Kwargs)
    ensures perCall.Some? && perCall.value != map[] ==> k == perCall.value
    ensures (perCall.None? || perCall.value == map[]) ==> k == cfg.kwargs
  {
    if perCall.Some? && perCall.value != map[] then perCall.value else cfg.kwargs
  }
}

=== FILE: enumerations.dfy ===
/**
 * The enumeration registries of the metric instruments.
 *
 * With enumeration switched on, an instrument keeps a `defaultdict(list)`
 * from a key to the functions seen under that key, and labels a function by
 * its position in that list. The key is the `repr` of the sorted keyword
 * arguments together with the function, so it is an opaque string here: two
 * functions share a key exactly when their reprs agree, as bound methods of
 * equal-looking estimators do.
 */
module Enumerations {
  import opened Wrappers
  import opened Fns
  import Utils

  /** `str(sorted({**dkwargs, "func": func}.items()))`, taken as given. */
  type Key = string

  type Registry = map<Key, seq<Fn>>

  /** Reading a `defaultdict(list)`: a missing key reads as the empty list. */
  function Listed(reg: Registry, key: Key): seq<Fn>
  {
    if key in reg then reg[key] else []
  }

  predicate Distinct<T(==)>(s: seq<T>)
  {
    forall i, j :: 0 <= i < j < |s| ==> s[i] != s[j]
  }

  /** No function is listed twice under one key. */
  predicate NoDuplicates(reg: Registry)
  {
    forall key :: key in reg ==> Distinct(reg[key])
  }

  /** The index a function is labelled with, and the registry afterwards. */
  datatype Step = Step(idx: nat, reg: Registry)

  /**
   * `idx = enumerations[key].index(func)`, and on `ValueError` the previous
   * length, appending the function: the statsd timer's rule.
   */
  function Enumerate(reg: Registry, key: Key, func: Fn): (r: Step)
    ensures r.idx < |Listed(r.reg, key)| && Listed(r.reg, key)[r.idx] == func
    ensures func !in Listed(r.reg, key)[..r.idx]
    ensures func in Listed(reg, key) ==> r.reg == reg
    ensures func !in Listed(reg, key) ==>
              r.idx == |Listed(reg, key)| && r.reg == reg[key := Listed(reg, key) + [func]]
  {
    var listed := Listed(reg, key);
    match Utils.IndexOf(listed, func)
    case Ok(i) => Step(i, reg)
    case Err(_) =>
      assert (listed + [func])[..|listed|] == listed;
      Step(|listed|, reg[key := listed + [func]])
  }

  /** Only the enumerated key changes, and its list only grows at the end. */
  lemma EnumerateAppends(reg: Registry, key: Key, func: Fn, other: Key)
    ensures Listed(reg, key) <= Listed(Enumerate(reg, key, func).reg, key)
    ensures other != key ==> Listed(Enumerate(reg, key, func).reg, other) == Listed(reg, other)
    ensures |Listed(Enumerate(reg, key, func).reg, key)| <= |Listed(reg, key)| + 1
  {
  }

  /** Enumerating keeps every list free of duplicates. */
  lemma EnumerateNoDuplicates(reg: Registry, key: Key, func: Fn)
    requires NoDuplicates(reg)
    ensures NoDuplicates(Enumerate(reg, key, func).reg)
  {
    var listed := Listed(reg, key);
    if func !in listed {
      var s := listed + [func];
      forall i, j | 0 <= i < j < |s|
        ensures s[i] != s[j]
      {
        if j == |listed| {
          assert s[i] == listed[i];
        }
      }
    }
  }

  /**
   * A function listed under a key keeps its index: enumerating it again,
   * after any number of other enumerations, gives the same index and leaves
   * the registry as it is.
   */
  lemma EnumerateKeepsIndex(reg: Registry, key: Key, func: Fn, idx: nat)
    requires idx < |Listed(reg, key)| && Listed(reg, key)[idx] == func
    requires func !in Listed(reg, key)[..idx]
    ensures Enumerate(reg, key, func) == Step(idx, reg)
  {
  }

  /** Repeating an enumeration changes nothing and gives the same index. */
  lemma EnumerateIdempotent(reg: Registry, key: Key, func: Fn)
    ensures var r := Enumerate(reg, key, func); Enumerate(r.reg, key, func) == r
  {
    var r := Enumerate(reg, key, func);
    EnumerateKeepsIndex(r.reg, key, func, r.idx);
  }

  /** An enumeration under any key never moves a function already listed. */
  lemma EnumerateKeepsEarlier(reg: Registry, key: Key, func: Fn, key2: Key, g: Fn)
    ensures var r1 := Enumerate(reg, key, func);
            var r2 := Enumerate(r1.reg, key2, g);
            Enumerate(r2.reg, key, func) == Step(r1.idx, r2.reg)
  {
    var r1 := Enumerate(reg, key, func);
    var r2 := Enumerate(r1.reg, key2, g);
    EnumerateAppends(r1.reg, key2, g, key);
    var l1 := Listed(r1.reg, key);
    var l2 := Listed(r2.reg, key);
    assert l1 <= l2;
    assert l2[r1.idx] == l1[r1.idx];
    assert l2[..r1.idx] == l1[..r1.idx];
    EnumerateKeepsIndex(r2.reg, key, func, r1.idx);
  }

  /** Two different functions enumerated under one key get different indices. */
  lemma EnumerateSeparates(reg: Registry, key: Key, f: Fn, g: Fn)
    requires f != g
    ensures var r1 := Enumerate(reg, key, f);
            Enumerate(r1.reg, key, g).idx != r1.idx
  {
    var r1 := Enumerate(reg, key, f);
    var r2 := Enumerate(r1.reg, key, g);
    EnumerateAppends(r1.reg, key, g, key);
    assert Listed(r2.reg, key)[r1.idx] == Listed(r1.reg, key)[r1.idx];
  }

  /** The character of one decimal digit. */
  function DigitChar(d: nat): (c: char)
    requires d < 10
    ensures '0' <= c <= '9' && c as int - '0' as int == d
  {
    ['0', '1', '2', '3', '4', '5', '6', '7', '8', '9'][d]
  }

  predicate AllDigits(s: string)
  {
    forall k :: 0 <= k < |s| ==> '0' <= s[k] <= '9'
  }

  /** `f"{n}"` for a non-negative integer. */
  function DecimalString(n: nat): (s: string)
    ensures |s| >= 1 && AllDigits(s)
    ensures |s| > 1 ==> s[0] != '0'
  {
    if n < 10 then [DigitChar(n)] else DecimalString(n / 10) + [DigitChar(n % 10)]
  }

  /** The value of a string of decimal digits. */
  function DecimalValue(s: string): nat
    requires AllDigits(s)
  {
    if |s| == 0 then 0
    else 10 * DecimalValue(s[..|s| - 1]) + (s[|s| - 1] as int - '0' as int)
  }

  /** Reading back what `DecimalString` wrote gives the number. */
  lemma {:induction false} DecimalRoundTrip(n: nat)
    ensures DecimalValue(DecimalString(n)) == n
  {
    if n >= 10 {
      var s := DecimalString(n);
      DecimalRoundTrip(n / 10);
      assert s[..|s| - 1] == DecimalString(n / 10);
    }
  }

  /** Different numbers are written differently. */
  lemma DecimalInjective(a: nat, b: nat)
    requires DecimalString(a) == DecimalString(b)
    ensures a == b
  {
    DecimalRoundTrip(a);
    DecimalRoundTrip(b);
  }

  /** The `-N` suffix of an enumerated label. */
  function IndexSuffix(idx: nat): (s: string)
    ensures |s| >= 2 && s[0] == '-' && s[1..] == DecimalString(idx)
  {
    "-" + DecimalString(idx)
  }

  /** Equal strings with equal heads of the same length have equal tails. */
  lemma CancelHead(a: string, b: string, t: string, u: string)
    requires |a| == |b| && a + t == b + u
    ensures a == b && t == u
  {
    assert a == (a + t)[..|a|];
    assert b == (b + u)[..|b|];
    assert t == (a + t)[|a|..];
    assert u == (b + u)[|b|..];
  }

  /** Labels that differ only in their index suffix are different. */
  lemma SuffixSeparates(head: string, i: nat, j: nat)
    requires i != j
    ensures head + IndexSuffix(i) != head + IndexSuffix(j)
  {
    if head + IndexSuffix(i) == head + IndexSuffix(j) {
      CancelHead(head, head, IndexSuffix(i), IndexSuffix(j));
      assert DecimalString(i) == IndexSuffix(i)[1..];
      DecimalInjective(i, j);
    }
  }
}

=== FILE: estimator_classes.dfy ===
/**
 * The class-level entry points that start from estimator instances:
 * `instrument_estimator_classes`, `uninstrument_estimator_classes` and
 * `instrument_estimators_classes`.
 *
 * They iterate over a Python `set` of classes, whose order is not specified
 * by the language; the model fixes it as ascending class identity.
 */
module EstimatorClasses {
  import opened Wrappers
  import opened Fns
  import opened Config
  import opened MethodRecord
  import opened Objects
  import opened Walk
  import opened Classes
  import Utils

  // ---------------------------------------------------------------------
  // Iterating over a set
  // ---------------------------------------------------------------------

  /** A least element of a non-empty set: set one element aside and compare it with the least of the rest. */
  ghost function LeastOf(s: set<ClassId>): (m: ClassId)
    requires s != {}
    ensures m in s && forall y :: y in s ==> m <= y
    decreases |s|
  {
    var x :| x in s;
    var rest := s - {x};
    assert forall y :: y in s ==> y == x || y in rest;
    if rest == {} then x
    else
      var t := LeastOf(rest);
      if x < t then x else t
  }

  function Min(s: set<ClassId>): (m: ClassId)
    requires s != {}
    ensures m in s && forall y :: y in s ==> m <= y
  {
    assert LeastOf(s) in s && forall y :: y in s ==> LeastOf(s) <= y;
    var m :| m in s && forall y :: y in s ==> m <= y;
    m
  }

  /** The order in which `for c in classes` visits a set: each element once. */
  function Ascending(s: set<ClassId>): (r: seq<ClassId>)
    ensures forall c :: c in r <==> c in s
    ensures |r| == |s|
    decreases |s|
  {
    if s == {} then [] else var m := Min(s); [m] + Ascending(s - {m})
  }

  // ---------------------------------------------------------------------
  // Sequencing class batches
  // ---------------------------------------------------------------------

  /** Instrumenting a concatenation of class lists is instrumenting the first, then the second. */
  lemma {:induction false} InstrumentClassesConcat(cfg: Instrumentor, reg: Registry, cs1: seq<ClassId>, cs2: seq<ClassId>)
    requires forall x :: x in cs1 + cs2 ==> x in reg.classes
    ensures forall x :: x in cs1 ==> x in reg.classes
    ensures var r1 := InstrumentClasses(cfg, reg, cs1);
      InstrumentClasses(cfg, reg, cs1 + cs2) == if r1.Err? then r1 else InstrumentClasses(cfg, r1.value, cs2)
    decreases |cs1|
  {
    if |cs1| > 0 {
      assert (cs1 + cs2)[0] == cs1[0];
      assert (cs1 + cs2)[1..] == cs1[1..] + cs2;
      var r0 := InstrumentClass(cfg, reg, cs1[0]);
      if r0.Ok? {
        InstrumentClassesConcat(cfg, r0.value, cs1[1..], cs2);
      }
    } else {
      assert cs1 + cs2 == cs2;
    }
  }

  // ---------------------------------------------------------------------
  // From estimators to their classes
  // ---------------------------------------------------------------------

  /** Every class collected from `e` is known to the registry. */
  predicate ClassesKnown(cfg: Instrumentor, reg: Registry, e: Node)
  {
    forall c :: c in Walk.Classes(cfg, e) ==> c in reg.classes
  }

  /** `instrument_estimator_classes`: an excluded estimator contributes no class, so nothing changes. */
  function InstrumentEstimatorClasses(cfg: Instrumentor, reg: Registry, e: Node): (r: Result<Registry>)
    requires ClassesKnown(cfg, reg, e)
    ensures IsExcluded(cfg, e) ==> r == Ok(reg)
    ensures r.Ok? ==> r.value.classes.Keys == reg.classes.Keys
  {
    InstrumentClasses(cfg, reg, Ascending(Walk.Classes(cfg, e)))
  }

  /** `uninstrument_estimator_classes`. */
  function UninstrumentEstimatorClasses(cfg: Instrumentor, reg: Registry, e: Node, full: bool): (r: Result<Registry>)
    requires ClassesKnown(cfg, reg, e)
    ensures IsExcluded(cfg, e) ==> r == Ok(reg)
    ensures r.Ok? ==> r.value.classes.Keys == reg.classes.Keys
  {
    UninstrumentClasses(cfg, reg, Ascending(Walk.Classes(cfg, e)), full)
  }

  /** The class sets of a list of estimators, as `_get_estimator_classes` collects them. */
  function ClassSets(cfg: Instrumentor, es: seq<Node>): (ss: seq<set<ClassId>>)
    ensures |ss| == |es|
    ensures forall j :: 0 <= j < |es| ==> ss[j] == Walk.Classes(cfg, es[j])
  {
    seq(|es|, j requires 0 <= j < |es| => Walk.Classes(cfg, es[j]))
  }

  /** The union of a list of class sets. */
  function UnionOf(ss: seq<set<ClassId>>): (u: set<ClassId>)
    ensures forall c :: c in u <==> exists j :: 0 <= j < |ss| && c in ss[j]
  {
    if |ss| == 0 then {}
    else
      var rest := UnionOf(ss[1..]);
      assert forall j :: 1 <= j < |ss| ==> ss[j] == ss[1..][j - 1];
      ss[0] + rest
  }

  /**
   * The loop of `instrument_estimators_classes` as written: the class set
   * accumulates, and `instrument_classes` runs on the whole accumulated set
   * at every iteration, so a class collected early is instrumented again on
   * every later iteration. This is the as-written loop over the corrected
   * class steps (`Classes.InstrumentClasses`); the class steps as written are
   * `ClassFindings.InstrumentClassesAsWritten`.
   */
  function InstrumentClassSetsAsWritten(cfg: Instrumentor, reg: Registry, acc: set<ClassId>, ss: seq<set<ClassId>>)
    : (r: Result<Registry>)
    requires forall c :: c in acc ==> c in reg.classes
    requires forall j, c :: 0 <= j < |ss| && c in ss[j] ==> c in reg.classes
    ensures ss == [] ==> r == Ok(reg)
    ensures r.Ok? ==> r.value.classes.Keys == reg.classes.Keys
    decreases |ss|
  {
    if |ss| == 0 then Ok(reg)
    else
      var acc1 := acc + ss[0];
      match InstrumentClasses(cfg, reg, Ascending(acc1))
      case Err(e) => Err(e)
      case Ok(r1) => InstrumentClassSetsAsWritten(cfg, r1, acc1, ss[1..])
  }

  /** The class sets of known estimators hold known classes only. */
  lemma ClassSetsKnown(cfg: Instrumentor, reg: Registry, es: seq<Node>)
    requires forall e :: e in es ==> ClassesKnown(cfg, reg, e)
    ensures forall j, c :: 0 <= j < |es| && c in ClassSets(cfg, es)[j] ==> c in reg.classes
    ensures forall c :: c in UnionOf(ClassSets(cfg, es)) ==> c in reg.classes
  {
    var ss := ClassSets(cfg, es);
    forall j, c | 0 <= j < |es| && c in ss[j]
      ensures c in reg.classes
    {
      assert es[j] in es;
      assert ClassesKnown(cfg, reg, es[j]);
    }
  }

  /** `instrument_estimators_classes`: the as-written loop over the corrected class steps. */
  function InstrumentEstimatorsClassesAsWritten(cfg: Instrumentor, reg: Registry, es: seq<Node>): (r: Result<Registry>)
    requires forall e :: e in es ==> ClassesKnown(cfg, reg, e)
    ensures es == [] ==> r == Ok(reg)
  {
    ClassSetsKnown(cfg, reg, es);
    InstrumentClassSetsAsWritten(cfg, reg, {}, ClassSets(cfg, es))
  }

  /** The intended loop on class sets: their union, instrumented once. */
  function InstrumentClassSets(cfg: Instrumentor, reg: Registry, ss: seq<set<ClassId>>): (r: Result<Registry>)
    requires forall c :: c in UnionOf(ss) ==> c in reg.classes
    ensures ss == [] ==> r == Ok(reg)
    ensures r.Ok? ==> r.value.classes.Keys == reg.classes.Keys
  {
    InstrumentClasses(cfg, reg, Ascending(UnionOf(ss)))
  }

  /**
   * `instrument_estimators_classes` as evidently intended: the union of the
   * estimators' classes, each class instrumented once.
   */
  function InstrumentEstimatorsClasses(cfg: Instrumentor, reg: Registry, es: seq<Node>): (r: Result<Registry>)
    requires forall e :: e in es ==> ClassesKnown(cfg, reg, e)
    ensures es == [] ==> r == Ok(reg)
    ensures |es| == 1 ==> r == InstrumentEstimatorClasses(cfg, reg, es[0])
  {
    ClassSetsKnown(cfg, reg, es);
    assert |es| == 1 ==> UnionOf(ClassSets(cfg, es)) == Walk.Classes(cfg, es[0]);
    InstrumentClassSets(cfg, reg, ClassSets(cfg, es))
  }

  /**
   * With two estimators whose second contributes no new class, the loop as
   * written (over the corrected class steps) instruments the same class list
   * twice in a row; as intended it is instrumented once.
   */
  lemma AsWrittenRepeatsBatch(cfg: Instrumentor, reg: Registry, s1: set<ClassId>, s2: set<ClassId>)
    requires forall c :: c in s1 ==> c in reg.classes
    requires s2 <= s1
    ensures var cs := Ascending(s1); var r1 := InstrumentClasses(cfg, reg, cs);
      InstrumentClassSetsAsWritten(cfg, reg, {}, [s1, s2]) == if r1.Err? then r1 else InstrumentClasses(cfg, r1.value, cs)
  {
    assert {} + s1 == s1;
    assert s1 + s2 == s1;
    assert [s1, s2][1..] == [s2];
    assert [s2][1..] == [];
  }

  // ---------------------------------------------------------------------
  // A concrete case
  // ---------------------------------------------------------------------

  /** Class `E` (id 0) defining its own uninstrumented `fit`. */
  function SingleClassRegistry(): Registry
  {
    Registry(map[0 := Class("E", {"E"}, [], map["fit" := Function(Orig(1, "E.fit"))], map[])], false)
  }

  /**
   * When class 0 is named `E`, has no excluded type and holds its own `fit`
   * with qualname `E.fit`, instrumenting the classes `[0]` takes the plain
   * path on `fit`.
   */
  lemma SingleClassStep(cfg: Instrumentor, reg: Registry, g: Fn)
    requires 0 in reg.classes && reg.classes[0].name == "E" && reg.classes[0].types == {"E"}
    requires cfg.methods == ["fit"] && cfg.exclude == {}
    requires "fit" in reg.classes[0].attrs && reg.classes[0].attrs["fit"] == Function(g)
    requires Qualname(g) == "E.fit"
    ensures InstrumentClasses(cfg, reg, [0]) == Ok(InstrumentOwn(cfg, reg, 0, "fit", false, g))
  {
    Utils.FirstSegmentOfJoin("E", "fit");
    assert "E" + "." + "fit" == "E.fit";
    ClassifyOwn(reg, 0, "fit", false, g);
    var r := InstrumentOwn(cfg, reg, 0, "fit", false, g);
    assert InstrumentClassMethod(cfg, reg, 0, "fit") == Ok(r);
    assert cfg.methods[1..] == [];
    assert InstrumentClassMethods(cfg, r, 0, []) == Ok(r);
    assert !ClassExcluded(cfg, reg, 0);
    assert InstrumentClass(cfg, reg, 0) == Ok(r);
    assert InstrumentClasses(cfg, r, []) == Ok(r);
  }

  /** Instrumenting class 0 once adds one layer to its own `fit`. */
  lemma SingleClassOnce(i: InstrumentId)
    ensures var cfg := Instrumentor(i, map[], ["fit"], {}); var reg := SingleClassRegistry();
      && InstrumentClasses(cfg, reg, [0]).Ok?
      && var r := InstrumentClasses(cfg, reg, [0]).value;
      && 0 in r.classes && "fit" in r.classes[0].records
      && r.classes[0].records["fit"].instruments == [i]
      && "fit" in r.classes[0].attrs && r.classes[0].attrs["fit"] == Function(Wrap(i, map[], Orig(1, "E.fit")))
  {
    SingleClassStep(Instrumentor(i, map[], ["fit"], {}), SingleClassRegistry(), Orig(1, "E.fit"));
  }

  /** Instrumenting class 0 a second time stacks a second layer on the same record. */
  lemma SingleClassTwice(i: InstrumentId)
    ensures var cfg := Instrumentor(i, map[], ["fit"], {}); var reg := SingleClassRegistry();
      && InstrumentClasses(cfg, reg, [0]).Ok?
      && var r1 := InstrumentClasses(cfg, reg, [0]).value;
      && 0 in r1.classes
      && InstrumentClasses(cfg, r1, [0]).Ok?
      && var r := InstrumentClasses(cfg, r1, [0]).value;
      && 0 in r.classes && "fit" in r.classes[0].records
      && r.classes[0].records["fit"].instruments == [i, i]
      && "fit" in r.classes[0].attrs && r.classes[0].attrs["fit"] == Function(Wrap(i, map[], Wrap(i, map[], Orig(1, "E.fit"))))
  {
    var cfg := Instrumentor(i, map[], ["fit"], {});
    var reg := SingleClassRegistry();
    SingleClassOnce(i);
    var r1 := InstrumentClasses(cfg, reg, [0]).value;
    SingleClassStep(cfg, r1, Wrap(i, map[], Orig(1, "E.fit")));
  }

  /**
   * Two estimators of the same class: as written the class's `fit` ends up
   * instrumented twice, as intended once.
   */
  lemma EstimatorsClassesRepeat(i: InstrumentId)
    ensures var cfg := Instrumentor(i, map[], ["fit"], {}); var reg := SingleClassRegistry();
      && (var w := InstrumentClassSetsAsWritten(cfg, reg, {}, [{0}, {0}]);
          && w.Ok? && 0 in w.value.classes && "fit" in w.value.classes[0].records
          && w.value.classes[0].records["fit"].instruments == [i, i])
      && (var r := InstrumentClassSets(cfg, reg, [{0}, {0}]);
          && r.Ok? && 0 in r.value.classes && "fit" in r.value.classes[0].records
          && r.value.classes[0].records["fit"].instruments == [i])
  {
    var cfg := Instrumentor(i, map[], ["fit"], {});
    var reg := SingleClassRegistry();
    assert Ascending({0}) == [0] by {
      assert Min({0}) == 0;
      assert {0} - {0} == {};
    }
    AsWrittenRepeatsBatch(cfg, reg, {0}, {0});
    assert UnionOf([{0}, {0}]) == {0};
    SingleClassOnce(i);
    SingleClassTwice(i);
  }
}

=== FILE: fns.dfy ===
/**
 * Callables as symbolic terms.
 *
 * An instrument is a decorator `instrument(func, **kwargs) -> wrapper`. Its
 * result is an opaque Python function, so the model represents it as the
 * term `Wrap(instrument, kwargs, func)`. Every instrument in the package
 * decorates with `functools.wraps`, so a wrapper reports the `__qualname__`
 * of the function it wraps.
 */
module Fns {

  /** Identity of an instrument object; instruments are compared with `==`. */
  type InstrumentId = nat

  /** A keyword-argument value: a string, a label dictionary, or anything else. */
  datatype KwValue =
    | Str(s: string)
    | Labels(labels: map<string, string>)
    | Opaque(id: nat)

  /** The `**dkwargs` handed to an instrument. */
  type Kwargs = map<string, KwValue>

  datatype Fn =
    | Orig(id: nat, name: string)
    | Wrap(instrument: InstrumentId, kwargs: Kwargs, inner: Fn)

  /** `f.__qualname__`: a wrapper carries the qualname of what it wraps. */
  function Qualname(f: Fn): string
  {
    match f
    case Orig(_, q) => q
    case Wrap(_, _, inner) => Qualname(inner)
  }

  /** Number of instrument layers around the innermost original function. */
  function Depth(f: Fn): nat
  {
    match f
    case Orig(_, _) => 0
    case Wrap(_, _, inner) => 1 + Depth(inner)
  }

  /** The instruments whose pre-call code runs, in the order it runs: outermost first. */
  function EntryOrder(f: Fn): seq<InstrumentId>
  {
    match f
    case Orig(_, _) => []
    case Wrap(i, _, inner) => [i] + EntryOrder(inner)
  }

  /** Peels `n` layers off a callable. */
  function Strip(f: Fn, n: nat): Fn
    requires n <= Depth(f)
  {
    if n == 0 then f else Strip(f.inner, n - 1)
  }

  function Reverse<T>(s: seq<T>): (r: seq<T>)
    ensures |r| == |s|
    ensures forall k :: 0 <= k < |s| ==> r[k] == s[|s| - 1 - k]
  {
    if |s| == 0 then [] else [s[|s| - 1]] + Reverse(s[..|s| - 1])
  }

  /**
   * The left fold `w := f; for (i, k) in zip(ins, ks): w := i(w, **k)`,
   * written as a recursion on the last pair: the last instrument is outermost.
   */
  function Fold(f: Fn, ins: seq<InstrumentId>, ks: seq<Kwargs>): Fn
    requires |ins| == |ks|
    decreases |ins|
  {
    if |ins| == 0 then f
    else Wrap(ins[|ins| - 1], ks[|ks| - 1], Fold(f, ins[..|ins| - 1], ks[..|ks| - 1]))
  }

  /** Adding one more pair to the lists adds one outermost layer. */
  lemma FoldSnoc(f: Fn, ins: seq<InstrumentId>, ks: seq<Kwargs>, i: InstrumentId, k: Kwargs)
    requires |ins| == |ks|
    ensures Fold(f, ins + [i], ks + [k]) == Wrap(i, k, Fold(f, ins, ks))
  {
    assert (ins + [i])[..|ins|] == ins;
    assert (ks + [k])[..|ks|] == ks;
  }

  /** Folding in two stages is folding the concatenation. */
  lemma {:induction false} FoldConcat(f: Fn, ins1: seq<InstrumentId>, ks1: seq<Kwargs>,
                                      ins2: seq<InstrumentId>, ks2: seq<Kwargs>)
    requires |ins1| == |ks1| && |ins2| == |ks2|
    ensures Fold(f, ins1 + ins2, ks1 + ks2) == Fold(Fold(f, ins1, ks1), ins2, ks2)
    decreases |ins2|
  {
    if |ins2| == 0 {
      assert ins1 + ins2 == ins1;
      assert ks1 + ks2 == ks1;
    } else {
      var n := |ins2| - 1;
      FoldConcat(f, ins1, ks1, ins2[..n], ks2[..n]);
      assert ins1 + ins2 == (ins1 + ins2[..n]) + [ins2[n]];
      assert ks1 + ks2 == (ks1 + ks2[..n]) + [ks2[n]];
      FoldSnoc(f, ins1 + ins2[..n], ks1 + ks2[..n], ins2[n], ks2[n]);
    }
  }

  /** Each pair adds exactly one layer. */
  lemma {:induction false} FoldDepth(f: Fn, ins: seq<InstrumentId>, ks: seq<Kwargs>)
    requires |ins| == |ks|
    ensures Depth(Fold(f, ins, ks)) == Depth(f) + |ins|
    decreases |ins|
  {
    if |ins| > 0 {
      FoldDepth(f, ins[..|ins| - 1], ks[..|ks| - 1]);
    }
  }

  /** Wrapping never changes the reported qualname. */
  lemma {:induction false} FoldQualname(f: Fn, ins: seq<InstrumentId>, ks: seq<Kwargs>)
    requires |ins| == |ks|
    ensures Qualname(Fold(f, ins, ks)) == Qualname(f)
    decreases |ins|
  {
    if |ins| > 0 {
      FoldQualname(f, ins[..|ins| - 1], ks[..|ks| - 1]);
    }
  }

  /**
   * Call order: the instrument added last runs its pre-call code first, so the
   * entry order of the fold is the list reversed, followed by whatever
   * layers `f` already had.
   */
  lemma {:induction false} FoldEntryOrder(f: Fn, ins: seq<InstrumentId>, ks: seq<Kwargs>)
    requires |ins| == |ks|
    ensures EntryOrder(Fold(f, ins, ks)) == Reverse(ins) + EntryOrder(f)
    decreases |ins|
  {
    if |ins| > 0 {
      var n := |ins| - 1;
      FoldEntryOrder(f, ins[..n], ks[..n]);
      assert Reverse(ins) == [ins[n]] + Reverse(ins[..n]);
    }
  }

  /** Stripping as many layers as were folded on gives back the original. */
  lemma {:induction false} FoldStrip(f: Fn, ins: seq<InstrumentId>, ks: seq<Kwargs>)
    requires |ins| == |ks|
    ensures Depth(f) + |ins| == Depth(Fold(f, ins, ks))
    ensures Strip(Fold(f, ins, ks), |ins|) == f
    decreases |ins|
  {
    FoldDepth(f, ins, ks);
    if |ins| > 0 {
      FoldStrip(f, ins[..|ins| - 1], ks[..|ks| - 1]);
    }
  }

  /** A non-empty fold is never the function it started from. */
  lemma FoldNonEmptyDiffers(f: Fn, ins: seq<InstrumentId>, ks: seq<Kwargs>)
    requires |ins| == |ks| && |ins| > 0
    ensures Fold(f, ins, ks) != f
  {
    FoldDepth(f, ins, ks);
  }
}

=== FILE: instance.dfy ===
/**
 * Instance-level instrumentation: `_instrument_instance_method`,
 * `_uninstrument_method`, and the per-estimator loops over method names.
 */
module Instance {
  import opened Wrappers
  import opened Fns
  import opened Config
  import opened MethodRecord
  import opened PyDict
  import opened Objects

  /** `getattr(estimator, name, None)` for a method name. */
  function Lookup(e: Node, name: string): Option<Fn>
    requires e.Estimator?
  {
    var own := Get<Node>(e.attrs, name);
    if own.Some? then (if own.value.Method? then Some(own.value.f) else None)
    else if name in e.view.methods then Some(e.view.methods[name])
    else None
  }

  /** `getattr(estimator, "_skli_" + name, None)`. */
  function RecordOf(e: Node, name: string): Option<ValidRecord>
    requires e.Estimator?
  {
    var own := Get<Node>(e.attrs, AttributeName(name));
    if own.Some? && own.value.Rec? then Some(own.value.r) else None
  }

  /** `isinstance(getattr(type(estimator), name, None), property)`. */
  predicate IsProperty(e: Node, name: string)
    requires e.Estimator?
  {
    name in e.view.properties
  }

  /** The same estimator with a different attribute dictionary. */
  function WithAttrs(e: Node, d: Dict<Node>): (r: Node)
    requires e.Estimator?
    ensures r.Estimator? && r.attrs == d
    ensures r.id == e.id && r.types == e.types && r.cls == e.cls && r.view == e.view
    ensures r.boundMethodClasses == e.boundMethodClasses
  {
    Estimator(e.id, e.types, e.cls, e.view, e.boundMethodClasses, d)
  }

  /** Everything but the attribute dictionary is left alone. */
  predicate SameShell(a: Node, b: Node)
    requires a.Estimator? && b.Estimator?
  {
    a.id == b.id && a.types == b.types && a.cls == b.cls && a.view == b.view
    && a.boundMethodClasses == b.boundMethodClasses
  }

  /** The only attribute values a transition adds are installed methods and records. */
  predicate OnlyLeavesAdded(a: Node, b: Node)
    requires a.Estimator? && b.Estimator?
  {
    forall p :: p in b.attrs ==> p in a.attrs || p.1.Method? || p.1.Rec?
  }

  /** Reserved attributes hold records only. */
  predicate RecordsUnderReserved(e: Node)
    requires e.Estimator?
  {
    forall p :: p in e.attrs && IsReserved(p.0) ==> p.1.Rec?
  }

  /** Lookups of other method names, and their records, are untouched. */
  ghost predicate FramedOutside(a: Node, b: Node, name: string)
    requires a.Estimator? && b.Estimator?
  {
    && (forall k :: k != name && k != AttributeName(name) ==> Get(b.attrs, k) == Get(a.attrs, k))
    && (forall m :: m != name && AttributeName(m) != name ==> RecordOf(b, m) == RecordOf(a, m))
    && (forall m :: m != name && m != AttributeName(name) ==> Lookup(b, m) == Lookup(a, m))
  }

  /** `setattr(e, "_skli_" + name, rec)` followed by `setattr(e, name, rec.wrapper)`. */
  function Install(e: Node, name: string, rec: ValidRecord): (r: Node)
    requires e.Estimator?
    ensures r.Estimator? && SameShell(e, r) && OnlyLeavesAdded(e, r)
    ensures FramedOutside(e, r, name)
    ensures RecordOf(r, name) == Some(rec) && Get(r.attrs, name) == Some(Method(rec.wrapper))
    ensures !IsReserved(name) && RecordsUnderReserved(e) ==> RecordsUnderReserved(r)
  {
    InstallFrame(e, name, rec);
    FramedFromGet(e, Installed(e, name, rec), name);
    InstallShape(e, name, rec);
    Installed(e, name, rec)
  }

  function Installed(e: Node, name: string, rec: ValidRecord): Node
    requires e.Estimator?
  {
    WithAttrs(e, Set(Set(e.attrs, AttributeName(name), Rec(rec)), name, Method(rec.wrapper)))
  }

  lemma InstallFrame(e: Node, name: string, rec: ValidRecord)
    requires e.Estimator?
    ensures OnlyLeavesAdded(e, Installed(e, name, rec))
    ensures forall k :: k != name && k != AttributeName(name) ==>
      Get(Installed(e, name, rec).attrs, k) == Get(e.attrs, k)
    ensures RecordOf(Installed(e, name, rec), name) == Some(rec)
  {
    var key := AttributeName(name);
    var d1 := Set(e.attrs, key, Rec(rec));
    var r := Installed(e, name, rec);
    assert key != name by { assert |key| != |name|; }
    forall k | k != name && k != key
      ensures Get(r.attrs, k) == Get(e.attrs, k)
    {
      assert Get(r.attrs, k) == Get(d1, k);
    }
  }

  /** A change confined to `name` and its record attribute frames every other method. */
  lemma FramedFromGet(a: Node, b: Node, name: string)
    requires a.Estimator? && b.Estimator? && SameShell(a, b)
    requires forall k :: k != name && k != AttributeName(name) ==> Get(b.attrs, k) == Get(a.attrs, k)
    ensures FramedOutside(a, b, name)
  {
    forall m | m != name && AttributeName(m) != name
      ensures RecordOf(b, m) == RecordOf(a, m)
    {
      AttributeNameInjective(m, name);
    }
  }

  /** Under a frame for `n`, another method name sees the same lookup and the same record. */
  lemma FrameAt(a: Node, b: Node, n: string, m: string)
    requires a.Estimator? && b.Estimator? && FramedOutside(a, b, n)
    requires !IsReserved(n) && !IsReserved(m) && n != m
    ensures Lookup(b, m) == Lookup(a, m) && RecordOf(b, m) == RecordOf(a, m)
  {
    AttributeNameIsNotMethod(m, n);
    AttributeNameIsNotMethod(n, m);
  }

  lemma InstallShape(e: Node, name: string, rec: ValidRecord)
    requires e.Estimator?
    ensures Get(Installed(e, name, rec).attrs, name) == Some(Method(rec.wrapper))
    ensures !IsReserved(name) && RecordsUnderReserved(e) ==> RecordsUnderReserved(Installed(e, name, rec))
  {
    assert AttributeName(name) != name by { assert |AttributeName(name)| != |name|; }
  }

  /** `setattr(e, name, f)` followed by `delattr(e, "_skli_" + name)`. */
  function Restore(e: Node, name: string, f: Fn): (r: Node)
    requires e.Estimator?
    ensures r.Estimator? && SameShell(e, r) && OnlyLeavesAdded(e, r)
    ensures FramedOutside(e, r, name)
    ensures RecordOf(r, name).None? && Get(r.attrs, AttributeName(name)).None?
    ensures Get(r.attrs, name) == Some(Method(f))
    ensures !IsReserved(name) && RecordsUnderReserved(e) ==> RecordsUnderReserved(r)
  {
    RestoreFrame(e, name, f);
    FramedFromGet(e, Restored(e, name, f), name);
    RestoreShape(e, name, f);
    Restored(e, name, f)
  }

  function Restored(e: Node, name: string, f: Fn): Node
    requires e.Estimator?
  {
    WithAttrs(e, Del(Set(e.attrs, name, Method(f)), AttributeName(name)))
  }

  lemma RestoreFrame(e: Node, name: string, f: Fn)
    requires e.Estimator?
    ensures OnlyLeavesAdded(e, Restored(e, name, f))
    ensures forall k :: k != name && k != AttributeName(name) ==>
      Get(Restored(e, name, f).attrs, k) == Get(e.attrs, k)
    ensures Get(Restored(e, name, f).attrs, AttributeName(name)).None?
  {
    var key := AttributeName(name);
    var d1 := Set(e.attrs, name, Method(f));
    var r := Restored(e, name, f);
    forall k | k != name && k != key
      ensures Get(r.attrs, k) == Get(e.attrs, k)
    {
      assert Get(r.attrs, k) == Get(d1, k);
    }
  }

  lemma RestoreShape(e: Node, name: string, f: Fn)
    requires e.Estimator?
    ensures Get(Restored(e, name, f).attrs, name) == Some(Method(f))
    ensures !IsReserved(name) && RecordsUnderReserved(e) ==> RecordsUnderReserved(Restored(e, name, f))
  {
    assert AttributeName(name) != name by { assert |AttributeName(name)| != |name|; }
  }

  /**
   * `_instrument_instance_method`: skip class properties and missing methods;
   * otherwise create the record if absent, add the instrument with the
   * effective kwargs, and install the record's wrapper on the instance.
   */
  function InstrumentMethod(cfg: Instrumentor, e: Node, name: string, perCall: Option<Kwargs>): (r: Node)
    requires e.Estimator?
    ensures r.Estimator? && SameShell(e, r) && OnlyLeavesAdded(e, r)
    ensures FramedOutside(e, r, name)
    ensures IsProperty(e, name) || Lookup(e, name).None? ==> r == e
    ensures !IsProperty(e, name) && Lookup(e, name).Some? ==>
      && RecordOf(r, name).Some?
      && Lookup(r, name) == Some(RecordOf(r, name).value.wrapper)
      && (RecordOf(e, name).Some? ==>
            RecordOf(r, name).value == Add(RecordOf(e, name).value, cfg.instrument, EffectiveKwargs(cfg, perCall)))
      && (RecordOf(e, name).None? ==>
            && RecordOf(r, name).value.wrapped == Lookup(e, name).value
            && RecordOf(r, name).value.instruments == [cfg.instrument]
            && RecordOf(r, name).value.kwargs == [EffectiveKwargs(cfg, perCall)])
  {
    if IsProperty(e, name) || Lookup(e, name).None? then e
    else
        var base := if RecordOf(e, name).Some? then RecordOf(e, name).value else New(Lookup(e, name).value);
        var rec := Add(base, cfg.instrument, EffectiveKwargs(cfg, perCall));
        Install(e, name, rec)
  }

  /**
   * `_uninstrument_method`: a no-op for properties, missing methods and
   * methods without a record; otherwise remove this instrument, and either
   * restore `wrapped` and delete the record (when `full` or nothing is left)
   * or install the recomputed wrapper.
   */
  function UninstrumentMethod(cfg: Instrumentor, e: Node, name: string, full: bool): (r: Node)
    requires e.Estimator?
    ensures r.Estimator? && SameShell(e, r) && OnlyLeavesAdded(e, r)
    ensures FramedOutside(e, r, name)
    ensures IsProperty(e, name) || Lookup(e, name).None? || RecordOf(e, name).None? ==> r == e
    ensures !IsProperty(e, name) && Lookup(e, name).Some? && RecordOf(e, name).Some? ==>
      var rem := Remove(RecordOf(e, name).value, cfg.instrument);
      && (full || Empty(rem) ==>
            RecordOf(r, name).None? && Get(r.attrs, AttributeName(name)).None?
            && Lookup(r, name) == Some(RecordOf(e, name).value.wrapped))
      && (!full && !Empty(rem) ==>
            RecordOf(r, name) == Some(rem) && Lookup(r, name) == Some(rem.wrapper)
            && cfg.instrument !in rem.instruments)
  {
    if IsProperty(e, name) || Lookup(e, name).None? || RecordOf(e, name).None? then e
    else
        var rem := Remove(RecordOf(e, name).value, cfg.instrument);
        if full || Empty(rem) then Restore(e, name, rem.wrapped)
        else Install(e, name, rem)
  }

  /** No name in the list is itself a record attribute. */
  predicate NonReserved(names: seq<string>)
  {
    forall n :: n in names ==> !IsReserved(n)
  }

  /** `k` is one of `names` or the record attribute of one of them. */
  predicate Touched(names: seq<string>, k: string)
  {
    k in names || (IsReserved(k) && k[|Prefix|..] in names)
  }

  /** Attributes outside the touched names are untouched. */
  ghost predicate FramedOutsideAll(a: Node, b: Node, names: seq<string>)
    requires a.Estimator? && b.Estimator?
  {
    forall k :: !Touched(names, k) ==> Get(b.attrs, k) == Get(a.attrs, k)
  }

  /** The state `_assert_instrumented_method` expects for an instance method. */
  predicate Instrumented(cfg: Instrumentor, e: Node, m: string)
    requires e.Estimator?
  {
    && RecordOf(e, m).Some?
    && cfg.instrument in RecordOf(e, m).value.instruments
    && Lookup(e, m) == Some(RecordOf(e, m).value.wrapper)
  }

  /** The record of `m` wraps `f` in layers of this instrumentor only. */
  predicate SoleLayersOver(cfg: Instrumentor, e: Node, m: string, f: Fn)
    requires e.Estimator?
  {
    && RecordOf(e, m).Some?
    && RecordOf(e, m).value.wrapped == f
    && forall x :: x in RecordOf(e, m).value.instruments ==> x == cfg.instrument
  }

  /** The state `_assert_uninstrumented_method` expects for an instance method. */
  predicate Uninstrumented(cfg: Instrumentor, e: Node, m: string, full: bool)
    requires e.Estimator?
  {
    && (full ==> RecordOf(e, m).None?)
    && (RecordOf(e, m).Some? ==> cfg.instrument !in RecordOf(e, m).value.instruments)
  }

  /** `m` is back to `f` with no record left. */
  predicate RestoredTo(e: Node, m: string, f: Fn)
    requires e.Estimator?
  {
    RecordOf(e, m).None? && Lookup(e, m) == Some(f)
  }

  /** Instrumenting one method keeps what instrumenting another method established. */
  lemma InstrumentMethodKeeps(cfg: Instrumentor, e: Node, n: string, perCall: Option<Kwargs>, m: string, f: Fn)
    requires e.Estimator? && !IsReserved(n) && !IsReserved(m)
    ensures Instrumented(cfg, e, m) ==> Instrumented(cfg, InstrumentMethod(cfg, e, n, perCall), m)
    ensures SoleLayersOver(cfg, e, m, f) ==> SoleLayersOver(cfg, InstrumentMethod(cfg, e, n, perCall), m, f)
  {
    var r := InstrumentMethod(cfg, e, n, perCall);
    if n != m {
      FrameAt(e, r, n, m);
    } else if !IsProperty(e, m) && Lookup(e, m).Some? && RecordOf(e, m).Some? {
      var rec := RecordOf(e, m).value;
      assert RecordOf(r, m).value.instruments == rec.instruments + [cfg.instrument];
    }
  }

  /** Uninstrumenting one method keeps what uninstrumenting another method established. */
  lemma UninstrumentMethodKeeps(cfg: Instrumentor, e: Node, n: string, full: bool, m: string, f: Fn)
    requires e.Estimator? && !IsReserved(n) && !IsReserved(m)
    ensures Uninstrumented(cfg, e, m, full) ==> Uninstrumented(cfg, UninstrumentMethod(cfg, e, n, full), m, full)
    ensures RestoredTo(e, m, f) ==> RestoredTo(UninstrumentMethod(cfg, e, n, full), m, f)
  {
    if n != m {
      FrameAt(e, UninstrumentMethod(cfg, e, n, full), n, m);
    }
  }

  /**
   * `_instrument_estimator`: `_instrument_instance_method` for each name in
   * turn. Every available non-property method ends up carrying this
   * instrument, and a method that had no record gets one holding only this
   * instrumentor's layers over the method the estimator had.
   */
  function InstrumentMethods(cfg: Instrumentor, e: Node, names: seq<string>, perCall: Option<Kwargs>): (r: Node)
    requires e.Estimator?
    ensures r.Estimator? && SameShell(e, r) && OnlyLeavesAdded(e, r)
    ensures FramedOutsideAll(e, r, names)
    ensures NonReserved(names) ==> forall m :: m in names && !IsProperty(e, m) && Lookup(e, m).Some? ==>
      Instrumented(cfg, r, m)
    ensures NonReserved(names) ==> forall m :: m in names && !IsProperty(e, m) && Lookup(e, m).Some? && RecordOf(e, m).None? ==>
      SoleLayersOver(cfg, r, m, Lookup(e, m).value)
    ensures NonReserved(names) ==> forall m :: !IsReserved(m) && Instrumented(cfg, e, m) ==> Instrumented(cfg, r, m)
    ensures NonReserved(names) ==> forall m, f :: !IsReserved(m) && SoleLayersOver(cfg, e, m, f) ==> SoleLayersOver(cfg, r, m, f)
    decreases |names|
  {
    if |names| == 0 then e
    else
      var e1 := InstrumentMethod(cfg, e, names[0], perCall);
      var r := InstrumentMethods(cfg, e1, names[1..], perCall);
      FramedCompose(e, e1, r, names);
      if NonReserved(names) then
        assert NonReserved(names[1..]);
        InstrumentMethodsStep(cfg, e, names, perCall, e1, r);
        InstrumentMethodsKeepStep(cfg, e, names[0], perCall, e1, r);
        r
      else r
  }

  /** Frames compose: one name, then the rest. */
  lemma FramedCompose(a: Node, b: Node, c: Node, names: seq<string>)
    requires a.Estimator? && b.Estimator? && c.Estimator? && |names| > 0
    requires FramedOutside(a, b, names[0]) && FramedOutsideAll(b, c, names[1..])
    ensures FramedOutsideAll(a, c, names)
  {
    forall k | !Touched(names, k)
      ensures Get(c.attrs, k) == Get(a.attrs, k)
    {
      assert !Touched(names[1..], k);
      assert k != names[0] && k != AttributeName(names[0]);
    }
  }

  lemma InstrumentMethodsStep(cfg: Instrumentor, e: Node, names: seq<string>, perCall: Option<Kwargs>, e1: Node, r: Node)
    requires e.Estimator? && |names| > 0 && NonReserved(names)
    requires e1 == InstrumentMethod(cfg, e, names[0], perCall)
    requires r.Estimator?
    requires forall m :: m in names[1..] && !IsProperty(e1, m) && Lookup(e1, m).Some? ==>
      Instrumented(cfg, r, m)
    requires forall m :: m in names[1..] && !IsProperty(e1, m) && Lookup(e1, m).Some? && RecordOf(e1, m).None? ==>
      SoleLayersOver(cfg, r, m, Lookup(e1, m).value)
    requires forall m :: !IsReserved(m) && Instrumented(cfg, e1, m) ==> Instrumented(cfg, r, m)
    requires forall m, f :: !IsReserved(m) && SoleLayersOver(cfg, e1, m, f) ==> SoleLayersOver(cfg, r, m, f)
    ensures forall m :: m in names && !IsProperty(e, m) && Lookup(e, m).Some? ==>
      Instrumented(cfg, r, m)
    ensures forall m :: m in names && !IsProperty(e, m) && Lookup(e, m).Some? && RecordOf(e, m).None? ==>
      SoleLayersOver(cfg, r, m, Lookup(e, m).value)
  {
    forall m | m in names && !IsProperty(e, m) && Lookup(e, m).Some?
      ensures Instrumented(cfg, r, m)
      ensures RecordOf(e, m).None? ==> SoleLayersOver(cfg, r, m, Lookup(e, m).value)
    {
      InstrumentMethodAt(cfg, e, names[0], perCall, m);
      if m != names[0] {
        assert m in names[1..];
      }
    }
  }

  /** What instrumenting `n` does to the lookups and the record of `m`. */
  lemma InstrumentMethodAt(cfg: Instrumentor, e: Node, n: string, perCall: Option<Kwargs>, m: string)
    requires e.Estimator? && !IsReserved(n) && !IsReserved(m)
    ensures var e1 := InstrumentMethod(cfg, e, n, perCall);
      && (m == n && !IsProperty(e, m) && Lookup(e, m).Some? ==>
            && Instrumented(cfg, e1, m)
            && (RecordOf(e, m).None? ==> SoleLayersOver(cfg, e1, m, Lookup(e, m).value)))
      && (m != n ==> Lookup(e1, m) == Lookup(e, m) && RecordOf(e1, m) == RecordOf(e, m))
  {
    var e1 := InstrumentMethod(cfg, e, n, perCall);
    if m != n {
      FrameAt(e, e1, n, m);
    } else if !IsProperty(e, m) && Lookup(e, m).Some? {
      var rec := RecordOf(e1, m).value;
      if RecordOf(e, m).Some? {
        assert rec.instruments == RecordOf(e, m).value.instruments + [cfg.instrument];
      } else {
        assert rec.instruments == [cfg.instrument];
      }
    }
  }

  lemma InstrumentMethodsKeepStep(cfg: Instrumentor, e: Node, n: string, perCall: Option<Kwargs>, e1: Node, r: Node)
    requires e.Estimator? && !IsReserved(n)
    requires e1 == InstrumentMethod(cfg, e, n, perCall)
    requires r.Estimator?
    requires forall m :: !IsReserved(m) && Instrumented(cfg, e1, m) ==> Instrumented(cfg, r, m)
    requires forall m, f :: !IsReserved(m) && SoleLayersOver(cfg, e1, m, f) ==> SoleLayersOver(cfg, r, m, f)
    ensures forall m :: !IsReserved(m) && Instrumented(cfg, e, m) ==> Instrumented(cfg, r, m)
    ensures forall m, f :: !IsReserved(m) && SoleLayersOver(cfg, e, m, f) ==> SoleLayersOver(cfg, r, m, f)
  {
    forall m | !IsReserved(m) && Instrumented(cfg, e, m)
      ensures Instrumented(cfg, r, m)
    {
      InstrumentMethodKeeps(cfg, e, n, perCall, m, Orig(0, ""));
    }
    forall m, f | !IsReserved(m) && SoleLayersOver(cfg, e, m, f)
      ensures SoleLayersOver(cfg, r, m, f)
    {
      InstrumentMethodKeeps(cfg, e, n, perCall, m, f);
    }
  }

  /** What uninstrumenting `n` does to the lookups and the record of `m`. */
  lemma UninstrumentMethodAt(cfg: Instrumentor, e: Node, n: string, full: bool, m: string, f: Fn)
    requires e.Estimator? && !IsReserved(n) && !IsReserved(m)
    ensures var e1 := UninstrumentMethod(cfg, e, n, full);
      && (m == n && !IsProperty(e, m) && (RecordOf(e, m).Some? ==> Lookup(e, m).Some?) ==>
            Uninstrumented(cfg, e1, m, full))
      && (m == n && !IsProperty(e, m) && Lookup(e, m).Some? && SoleLayersOver(cfg, e, m, f) ==>
            RestoredTo(e1, m, f))
      && (m != n ==> Lookup(e1, m) == Lookup(e, m) && RecordOf(e1, m) == RecordOf(e, m))
  {
    if m != n {
      FrameAt(e, UninstrumentMethod(cfg, e, n, full), n, m);
    } else if !IsProperty(e, m) && Lookup(e, m).Some? && SoleLayersOver(cfg, e, m, f) {
      RemoveSoleInstrumentEmpties(RecordOf(e, m).value, cfg.instrument);
    }
  }

  /** `_uninstrument_method` for each name in turn. */
  function UninstrumentMethods(cfg: Instrumentor, e: Node, names: seq<string>, full: bool): (r: Node)
    requires e.Estimator?
    ensures r.Estimator? && SameShell(e, r) && OnlyLeavesAdded(e, r)
    ensures FramedOutsideAll(e, r, names)
    ensures NonReserved(names) ==> forall m ::
      m in names && !IsProperty(e, m) && (RecordOf(e, m).Some? ==> Lookup(e, m).Some?) ==>
      Uninstrumented(cfg, r, m, full)
    ensures NonReserved(names) ==> forall m, f ::
      m in names && !IsProperty(e, m) && Lookup(e, m).Some? && SoleLayersOver(cfg, e, m, f) ==>
      RestoredTo(r, m, f)
    ensures NonReserved(names) ==> forall m :: !IsReserved(m) && Uninstrumented(cfg, e, m, full) ==> Uninstrumented(cfg, r, m, full)
    ensures NonReserved(names) ==> forall m, f :: !IsReserved(m) && RestoredTo(e, m, f) ==> RestoredTo(r, m, f)
    decreases |names|
  {
    if |names| == 0 then e
    else
      var e1 := UninstrumentMethod(cfg, e, names[0], full);
      var r := UninstrumentMethods(cfg, e1, names[1..], full);
      FramedCompose(e, e1, r, names);
      if NonReserved(names) then
        assert NonReserved(names[1..]);
        UninstrumentMethodsStep(cfg, e, names, full, e1, r);
        UninstrumentMethodsKeepStep(cfg, e, names[0], full, e1, r);
        r
      else r
  }

  lemma UninstrumentMethodsStep(cfg: Instrumentor, e: Node, names: seq<string>, full: bool, e1: Node, r: Node)
    requires e.Estimator? && |names| > 0 && NonReserved(names)
    requires e1 == UninstrumentMethod(cfg, e, names[0], full)
    requires r.Estimator?
    requires forall m ::
      m in names[1..] && !IsProperty(e1, m) && (RecordOf(e1, m).Some? ==> Lookup(e1, m).Some?) ==>
      Uninstrumented(cfg, r, m, full)
    requires forall m, f ::
      m in names[1..] && !IsProperty(e1, m) && Lookup(e1, m).Some? && SoleLayersOver(cfg, e1, m, f) ==>
      RestoredTo(r, m, f)
    requires forall m :: !IsReserved(m) && Uninstrumented(cfg, e1, m, full) ==> Uninstrumented(cfg, r, m, full)
    requires forall m, f :: !IsReserved(m) && RestoredTo(e1, m, f) ==> RestoredTo(r, m, f)
    ensures forall m ::
      m in names && !IsProperty(e, m) && (RecordOf(e, m).Some? ==> Lookup(e, m).Some?) ==>
      Uninstrumented(cfg, r, m, full)
    ensures forall m, f ::
      m in names && !IsProperty(e, m) && Lookup(e, m).Some? && SoleLayersOver(cfg, e, m, f) ==>
      RestoredTo(r, m, f)
  {
    forall m | m in names && !IsProperty(e, m) && (RecordOf(e, m).Some? ==> Lookup(e, m).Some?)
      ensures Uninstrumented(cfg, r, m, full)
    {
      UninstrumentMethodAt(cfg, e, names[0], full, m, Orig(0, ""));
      if m != names[0] {
        assert m in names[1..];
      }
    }
    forall m, f | m in names && !IsProperty(e, m) && Lookup(e, m).Some? && SoleLayersOver(cfg, e, m, f)
      ensures RestoredTo(r, m, f)
    {
      UninstrumentMethodAt(cfg, e, names[0], full, m, f);
      if m != names[0] {
        assert m in names[1..];
      }
    }
  }

  lemma UninstrumentMethodsKeepStep(cfg: Instrumentor, e: Node, n: string, full: bool, e1: Node, r: Node)
    requires e.Estimator? && !IsReserved(n)
    requires e1 == UninstrumentMethod(cfg, e, n, full)
    requires r.Estimator?
    requires forall m :: !IsReserved(m) && Uninstrumented(cfg, e1, m, full) ==> Uninstrumented(cfg, r, m, full)
    requires forall m, f :: !IsReserved(m) && RestoredTo(e1, m, f) ==> RestoredTo(r, m, f)
    ensures forall m :: !IsReserved(m) && Uninstrumented(cfg, e, m, full) ==> Uninstrumented(cfg, r, m, full)
    ensures forall m, f :: !IsReserved(m) && RestoredTo(e, m, f) ==> RestoredTo(r, m, f)
  {
    forall m | !IsReserved(m) && Uninstrumented(cfg, e, m, full)
      ensures Uninstrumented(cfg, r, m, full)
    {
      UninstrumentMethodKeeps(cfg, e, n, full, m, Orig(0, ""));
    }
    forall m, f | !IsReserved(m) && RestoredTo(e, m, f)
      ensures RestoredTo(r, m, f)
    {
      UninstrumentMethodKeeps(cfg, e, n, full, m, f);
    }
  }

  /** Neither the attribute `m` nor its record attribute changed. */
  predicate Unchanged(a: Node, b: Node, m: string)
    requires a.Estimator? && b.Estimator?
  {
    Get(b.attrs, m) == Get(a.attrs, m) && Get(b.attrs, AttributeName(m)) == Get(a.attrs, AttributeName(m))
  }

  /** A name `_instrument_instance_method` skips is skipped on every visit and left alone. */
  lemma {:induction false} InstrumentMethodsSkips(cfg: Instrumentor, e: Node, names: seq<string>, perCall: Option<Kwargs>, m: string)
    requires e.Estimator? && NonReserved(names) && !IsReserved(m)
    requires IsProperty(e, m) || Lookup(e, m).None?
    ensures Unchanged(e, InstrumentMethods(cfg, e, names, perCall), m)
    decreases |names|
  {
    if |names| > 0 {
      var e1 := InstrumentMethod(cfg, e, names[0], perCall);
      InstrumentMethodAt(cfg, e, names[0], perCall, m);
      if m != names[0] {
        AttributeNameIsNotMethod(m, names[0]);
        AttributeNameIsNotMethod(names[0], m);
        AttributeNameInjective(m, names[0]);
      }
      assert NonReserved(names[1..]);
      InstrumentMethodsSkips(cfg, e1, names[1..], perCall, m);
    }
  }

  /** A name `_uninstrument_method` skips is skipped on every visit and left alone. */
  lemma {:induction false} UninstrumentMethodsSkips(cfg: Instrumentor, e: Node, names: seq<string>, full: bool, m: string)
    requires e.Estimator? && NonReserved(names) && !IsReserved(m)
    requires IsProperty(e, m) || Lookup(e, m).None? || RecordOf(e, m).None?
    ensures Unchanged(e, UninstrumentMethods(cfg, e, names, full), m)
    decreases |names|
  {
    if |names| > 0 {
      var e1 := UninstrumentMethod(cfg, e, names[0], full);
      UninstrumentMethodAt(cfg, e, names[0], full, m, Orig(0, ""));
      if m != names[0] {
        AttributeNameIsNotMethod(m, names[0]);
        AttributeNameIsNotMethod(names[0], m);
        AttributeNameInjective(m, names[0]);
      }
      assert NonReserved(names[1..]);
      UninstrumentMethodsSkips(cfg, e1, names[1..], full, m);
    }
  }

  /**
   * `instrument_estimator(estimator, recursive=False)`: the configured
   * methods of one estimator.
   */
  function InstrumentEstimator(cfg: Instrumentor, e: Node, perCall: Option<Kwargs>): (r: Node)
    requires e.Estimator?
    ensures r.Estimator? && SameShell(e, r) && OnlyLeavesAdded(e, r)
    ensures FramedOutsideAll(e, r, cfg.methods)
    ensures NonReserved(cfg.methods) ==> forall m ::
      m in cfg.methods && !IsProperty(e, m) && Lookup(e, m).Some? ==> Instrumented(cfg, r, m)
  {
    InstrumentMethods(cfg, e, cfg.methods, perCall)
  }

  /** `callable(k)` for a key of an instance dictionary: a `str` is never callable. */
  predicate KeyIsCallable(k: string)
  {
    false
  }

  /**
   * The method list `_uninstrument_estimator` builds for `full`: it filters
   * the keys of the instance dictionary by `callable`, so it is always empty.
   */
  function FullMethodsAsWritten(d: Dict<Node>): (names: seq<string>)
    ensures names == []
  {
    if |d| == 0 then []
    else
      var k := d[0].0;
      (if KeyIsCallable(k) then [k] else []) + FullMethodsAsWritten(d[1..])
  }

  /**
   * `_uninstrument_estimator` as written: with `full` it visits no method at
   * all and returns the estimator unchanged.
   */
  function UninstrumentEstimatorAsWritten(cfg: Instrumentor, e: Node, full: bool): (r: Node)
    requires e.Estimator?
    ensures r.Estimator? && SameShell(e, r)
    ensures full ==> r == e
    ensures !full ==> r == UninstrumentEstimator(cfg, e, false)
  {
    UninstrumentMethods(cfg, e, if full then FullMethodsAsWritten(e.attrs) else cfg.methods, full)
  }

  /** A full uninstrumentation as written leaves every instance record in place. */
  lemma AsWrittenFullKeepsRecords(cfg: Instrumentor, e: Node, m: string)
    requires e.Estimator? && RecordOf(e, m).Some?
    ensures RecordOf(UninstrumentEstimatorAsWritten(cfg, e, true), m) == RecordOf(e, m)
    ensures cfg.instrument in RecordOf(e, m).value.instruments ==>
      !Uninstrumented(cfg, UninstrumentEstimatorAsWritten(cfg, e, true), m, true)
  {
  }

  /** The names of the callable attributes of an instance dictionary, in order. */
  function CallableNames(d: Dict<Node>): (names: seq<string>)
    ensures forall k :: k in names ==> exists p :: p in d && p.0 == k && p.1.Method?
    ensures forall k :: Get(d, k).Some? && Get(d, k).value.Method? ==> k in names
  {
    if |d| == 0 then []
    else
      var rest := CallableNames(d[1..]);
      assert forall p :: p in d[1..] ==> p in d;
      if d[0].1.Method? then [d[0].0] + rest else rest
  }

  /**
   * `_uninstrument_estimator` as evidently intended: with `full` it visits
   * every callable attribute of the instance.
   */
  function UninstrumentEstimator(cfg: Instrumentor, e: Node, full: bool): (r: Node)
    requires e.Estimator?
    ensures r.Estimator? && SameShell(e, r) && OnlyLeavesAdded(e, r)
    ensures !full ==> FramedOutsideAll(e, r, cfg.methods)
    ensures !full && NonReserved(cfg.methods) ==> forall m ::
      m in cfg.methods && !IsProperty(e, m) && (RecordOf(e, m).Some? ==> Lookup(e, m).Some?) ==>
      Uninstrumented(cfg, r, m, false)
  {
    UninstrumentMethods(cfg, e, if full then CallableNames(e.attrs) else cfg.methods, full)
  }

  /**
   * The shape the instance methods keep: reserved attributes hold records
   * only, and a method with a record is a non-property whose instance
   * attribute is the installed callable.
   */
  ghost predicate Coherent(e: Node)
    requires e.Estimator?
  {
    && RecordsUnderReserved(e)
    && (forall m :: RecordOf(e, m).Some? ==>
          !IsProperty(e, m) && Get(e.attrs, m).Some? && Get(e.attrs, m).value.Method?)
  }

  /** In a coherent estimator a method with a record is found by lookup. */
  lemma CoherentRecordHasMethod(e: Node, m: string)
    requires e.Estimator? && Coherent(e)
    ensures RecordOf(e, m).Some? ==> Lookup(e, m).Some?
  {
  }

  /** Full uninstrumentation, as intended, leaves no instance record behind. */
  lemma FullUninstrumentClearsRecords(cfg: Instrumentor, e: Node)
    requires e.Estimator? && Coherent(e)
    ensures forall m :: RecordOf(UninstrumentEstimator(cfg, e, true), m).None?
  {
    var names := CallableNames(e.attrs);
    var r := UninstrumentEstimator(cfg, e, true);
    assert NonReserved(names) by {
      forall k | k in names
        ensures !IsReserved(k)
      {
        var p :| p in e.attrs && p.0 == k && p.1.Method?;
      }
    }
    forall m
      ensures RecordOf(r, m).None?
    {
      if RecordOf(e, m).Some? {
        assert m in names;
      } else if m in names && !IsReserved(m) {
        UninstrumentMethodsSkips(cfg, e, names, true, m);
      } else {
        assert !Touched(names, AttributeName(m));
      }
    }
  }

  /** Installing a record on a non-property method keeps an estimator coherent. */
  lemma InstallKeepsCoherent(e: Node, n: string, rec: ValidRecord)
    requires e.Estimator? && Coherent(e) && !IsReserved(n) && !IsProperty(e, n)
    ensures Coherent(Install(e, n, rec))
  {
    var r := Install(e, n, rec);
    forall m | RecordOf(r, m).Some?
      ensures !IsProperty(r, m) && Get(r.attrs, m).Some? && Get(r.attrs, m).value.Method?
    {
      if m != n {
        AttributeNameIsNotMethod(n, m);
        assert RecordOf(e, m).Some?;
        assert !IsReserved(m);
      }
    }
  }

  /** `_instrument_instance_method` keeps an estimator coherent. */
  lemma InstrumentMethodKeepsCoherent(cfg: Instrumentor, e: Node, n: string, perCall: Option<Kwargs>)
    requires e.Estimator? && Coherent(e) && !IsReserved(n)
    ensures Coherent(InstrumentMethod(cfg, e, n, perCall))
  {
    if !IsProperty(e, n) && Lookup(e, n).Some? {
      var base := if RecordOf(e, n).Some? then RecordOf(e, n).value else New(Lookup(e, n).value);
      var rec := Add(base, cfg.instrument, EffectiveKwargs(cfg, perCall));
      assert InstrumentMethod(cfg, e, n, perCall) == Install(e, n, rec);
      InstallKeepsCoherent(e, n, rec);
    }
  }

  /** `_uninstrument_method` keeps an estimator coherent. */
  lemma UninstrumentMethodKeepsCoherent(cfg: Instrumentor, e: Node, n: string, full: bool)
    requires e.Estimator? && Coherent(e) && !IsReserved(n)
    ensures Coherent(UninstrumentMethod(cfg, e, n, full))
  {
    var r := UninstrumentMethod(cfg, e, n, full);
    forall m | RecordOf(r, m).Some?
      ensures !IsProperty(r, m) && Get(r.attrs, m).Some? && Get(r.attrs, m).value.Method?
    {
      if m != n {
        AttributeNameIsNotMethod(n, m);
        assert RecordOf(e, m).Some?;
        assert !IsReserved(m);
      }
    }
  }

  /** Instrumenting a list of non-reserved names keeps an estimator coherent. */
  lemma {:induction false} InstrumentMethodsKeepCoherent(cfg: Instrumentor, e: Node, names: seq<string>, perCall: Option<Kwargs>)
    requires e.Estimator? && Coherent(e) && NonReserved(names)
    ensures Coherent(InstrumentMethods(cfg, e, names, perCall))
    decreases |names|
  {
    if |names| > 0 {
      InstrumentMethodKeepsCoherent(cfg, e, names[0], perCall);
      assert NonReserved(names[1..]);
      InstrumentMethodsKeepCoherent(cfg, InstrumentMethod(cfg, e, names[0], perCall), names[1..], perCall);
    }
  }

  /** Uninstrumenting a list of non-reserved names keeps an estimator coherent. */
  lemma {:induction false} UninstrumentMethodsKeepCoherent(cfg: Instrumentor, e: Node, names: seq<string>, full: bool)
    requires e.Estimator? && Coherent(e) && NonReserved(names)
    ensures Coherent(UninstrumentMethods(cfg, e, names, full))
    decreases |names|
  {
    if |names| > 0 {
      UninstrumentMethodKeepsCoherent(cfg, e, names[0], full);
      assert NonReserved(names[1..]);
      UninstrumentMethodsKeepCoherent(cfg, UninstrumentMethod(cfg, e, names[0], full), names[1..], full);
    }
  }

  /**
   * Instrumenting an estimator whose configured methods carry no record and
   * then uninstrumenting it gives every configured method back the callable
   * it had, with no record left, and touches nothing else.
   */
  lemma InstrumentThenUninstrumentRestores(cfg: Instrumentor, e: Node, perCall: Option<Kwargs>)
    requires e.Estimator? && NonReserved(cfg.methods)
    requires forall m :: m in cfg.methods ==> RecordOf(e, m).None?
    ensures var r := UninstrumentEstimator(cfg, InstrumentEstimator(cfg, e, perCall), false);
      && (forall m :: m in cfg.methods ==> Lookup(r, m) == Lookup(e, m) && RecordOf(r, m).None?)
      && FramedOutsideAll(e, r, cfg.methods)
  {
    forall m | m in cfg.methods
      ensures var r := UninstrumentEstimator(cfg, InstrumentEstimator(cfg, e, perCall), false);
        Lookup(r, m) == Lookup(e, m) && RecordOf(r, m).None?
    {
      RoundTripAt(cfg, e, perCall, m);
    }
  }

  lemma RoundTripAt(cfg: Instrumentor, e: Node, perCall: Option<Kwargs>, m: string)
    requires e.Estimator? && NonReserved(cfg.methods)
    requires m in cfg.methods && RecordOf(e, m).None?
    ensures var r := UninstrumentEstimator(cfg, InstrumentEstimator(cfg, e, perCall), false);
      Lookup(r, m) == Lookup(e, m) && RecordOf(r, m).None?
  {
    var e1 := InstrumentEstimator(cfg, e, perCall);
    if IsProperty(e, m) || Lookup(e, m).None? {
      RoundTripSkips(cfg, e, perCall, m);
    } else {
      var f := Lookup(e, m).value;
      InstrumentEstimatorSole(cfg, e, perCall, m);
      UninstrumentEstimatorRestores(cfg, e1, m, f);
    }
  }

  /** A property or a missing method is left as it was by both halves of the round trip. */
  lemma RoundTripSkips(cfg: Instrumentor, e: Node, perCall: Option<Kwargs>, m: string)
    requires e.Estimator? && NonReserved(cfg.methods) && m in cfg.methods
    requires IsProperty(e, m) || Lookup(e, m).None?
    ensures var r := UninstrumentEstimator(cfg, InstrumentEstimator(cfg, e, perCall), false);
      Unchanged(e, r, m)
  {
    var e1 := InstrumentMethods(cfg, e, cfg.methods, perCall);
    assert InstrumentEstimator(cfg, e, perCall) == e1;
    InstrumentMethodsSkips(cfg, e, cfg.methods, perCall, m);
    UninstrumentMethodsSkips(cfg, e1, cfg.methods, false, m);
    assert UninstrumentEstimator(cfg, e1, false) == UninstrumentMethods(cfg, e1, cfg.methods, false);
  }

  /** Instrumenting a method without a record leaves only this instrumentor's layers over it. */
  lemma InstrumentEstimatorSole(cfg: Instrumentor, e: Node, perCall: Option<Kwargs>, m: string)
    requires e.Estimator? && NonReserved(cfg.methods) && m in cfg.methods
    requires !IsProperty(e, m) && Lookup(e, m).Some? && RecordOf(e, m).None?
    ensures var e1 := InstrumentEstimator(cfg, e, perCall);
      && e1.Estimator? && !IsProperty(e1, m) && Lookup(e1, m).Some?
      && SoleLayersOver(cfg, e1, m, Lookup(e, m).value)
  {
    var e1 := InstrumentMethods(cfg, e, cfg.methods, perCall);
    assert InstrumentEstimator(cfg, e, perCall) == e1;
    assert Instrumented(cfg, e1, m);
    assert SameShell(e, e1);
  }

  /** A partial uninstrument restores a method wrapped only by this instrumentor. */
  lemma UninstrumentEstimatorRestores(cfg: Instrumentor, e1: Node, m: string, f: Fn)
    requires e1.Estimator? && NonReserved(cfg.methods) && m in cfg.methods
    requires !IsProperty(e1, m) && Lookup(e1, m).Some? && SoleLayersOver(cfg, e1, m, f)
    ensures RestoredTo(UninstrumentEstimator(cfg, e1, false), m, f)
  {
    assert UninstrumentEstimator(cfg, e1, false) == UninstrumentMethods(cfg, e1, cfg.methods, false);
  }

  /** `_instrument_instance_method` on a method with a record adds one layer to that record. */
  lemma InstrumentMethodAdds(cfg: Instrumentor, e: Node, m: string, perCall: Option<Kwargs>, rec: ValidRecord)
    requires e.Estimator? && !IsProperty(e, m) && Lookup(e, m).Some?
    requires RecordOf(e, m) == Some(rec) || (RecordOf(e, m).None? && rec == New(Lookup(e, m).value))
    ensures var r := InstrumentMethod(cfg, e, m, perCall);
      && RecordOf(r, m) == Some(Add(rec, cfg.instrument, EffectiveKwargs(cfg, perCall)))
      && !IsProperty(r, m) && Lookup(r, m).Some?
  {
  }

  /**
   * Two instrumentors on one method: removing the first leaves exactly the
   * second one's layer over the original callable.
   */
  lemma OtherInstrumentorSurvives(a: Instrumentor, b: Instrumentor, e: Node, m: string,
                                  pa: Option<Kwargs>, pb: Option<Kwargs>)
    requires e.Estimator? && a.instrument != b.instrument
    requires !IsProperty(e, m) && Lookup(e, m).Some? && RecordOf(e, m).None?
    ensures var r := UninstrumentMethod(a, InstrumentMethod(b, InstrumentMethod(a, e, m, pa), m, pb), m, false);
      && RecordOf(r, m).Some?
      && RecordOf(r, m).value.wrapped == Lookup(e, m).value
      && RecordOf(r, m).value.instruments == [b.instrument]
      && Lookup(r, m) == Some(Wrap(b.instrument, EffectiveKwargs(b, pb), Lookup(e, m).value))
  {
    var f := Lookup(e, m).value;
    var ka := EffectiveKwargs(a, pa);
    var kb := EffectiveKwargs(b, pb);
    var e1 := InstrumentMethod(a, e, m, pa);
    InstrumentMethodAdds(a, e, m, pa, New(f));
    var rec1 := Add(New(f), a.instrument, ka);
    var e2 := InstrumentMethod(b, e1, m, pb);
    InstrumentMethodAdds(b, e1, m, pb, rec1);
    var rec2 := Add(rec1, b.instrument, kb);
    RemoveCommutesWithOtherAdd(rec1, a.instrument, b.instrument, kb);
    RemoveAfterAdd(New(f), a.instrument, ka);
    assert Remove(rec2, a.instrument) == Add(New(f), b.instrument, kb);
  }
}

=== FILE: instance_asserter.dfy ===
/**
 * The instance checks of `SklearnInstrumentionAsserter`: what it demands of
 * an instrumented or uninstrumented estimator, one level and recursively,
 * and the proof that the instrumentor's walks leave objects that pass them.
 */
module InstanceAsserter {
  import opened Wrappers
  import opened Fns
  import opened Config
  import opened MethodRecord
  import opened PyDict
  import opened Objects
  import opened Instance
  import opened Walk

  /**
   * `_assert_instrumented_method`: class properties are skipped; a method the
   * estimator has must carry a record holding the instrument, and a method it
   * lacks must carry none.
   */
  predicate MethodInstrumentedChecked(cfg: Instrumentor, e: Node, m: string)
    requires e.Estimator?
  {
    || IsProperty(e, m)
    || (Lookup(e, m).Some? && RecordOf(e, m).Some? && cfg.instrument in RecordOf(e, m).value.instruments)
    || (Lookup(e, m).None? && RecordOf(e, m).None?)
  }

  /** `_assert_instrumented_estimator`: every configured method passes. */
  predicate EstimatorInstrumentedChecked(cfg: Instrumentor, e: Node)
    requires e.Estimator?
  {
    forall m :: m in cfg.methods ==> MethodInstrumentedChecked(cfg, e, m)
  }

  /**
   * `_assert_uninstrumented_method`: class properties are skipped; with
   * `full` no record may remain, and a remaining record must not hold the
   * instrument.
   */
  predicate MethodUninstrumentedChecked(cfg: Instrumentor, e: Node, m: string, full: bool)
    requires e.Estimator?
  {
    IsProperty(e, m) || Uninstrumented(cfg, e, m, full)
  }

  /** `_assert_uninstrumented_estimator` as written: with `full` the method list is empty. */
  predicate EstimatorUninstrumentedCheckedAsWritten(cfg: Instrumentor, e: Node, full: bool)
    requires e.Estimator?
  {
    var names := if full then FullMethodsAsWritten(e.attrs) else cfg.methods;
    forall m :: m in names ==> MethodUninstrumentedChecked(cfg, e, m, full)
  }

  /**
   * `_assert_uninstrumented_estimator` with `full` checking every callable
   * attribute of the instance, as evidently intended.
   */
  predicate EstimatorUninstrumentedChecked(cfg: Instrumentor, e: Node, full: bool)
    requires e.Estimator?
  {
    var names := if full then CallableNames(e.attrs) else cfg.methods;
    forall m :: m in names ==> MethodUninstrumentedChecked(cfg, e, m, full)
  }

  /** The `full` flag a walk hands to the uninstrumented checks. */
  function FullOf(act: Action): bool
  {
    act.Uninstrument? && act.full
  }

  /** The one-estimator check that matches a walk's action. */
  predicate EstimatorChecked(cfg: Instrumentor, act: Action, e: Node)
    requires e.Estimator?
  {
    match act
    case Instrument(_) => EstimatorInstrumentedChecked(cfg, e)
    case Uninstrument(full) => EstimatorUninstrumentedChecked(cfg, e, full)
  }

  /**
   * `_assert_instrumented_recursively` / `_assert_uninstrumented_recursively`:
   * an excluded object passes if it is not an estimator, and an excluded
   * estimator must pass the uninstrumented check; an estimator is checked and
   * then its `__dict__` is descended, skipping reserved attributes; any
   * other object is descended through its `__dict__`, else its mapping
   * values, else its sequence items.
   */
  predicate Checked(cfg: Instrumentor, act: Action, n: Node)
    decreases Height(n)
  {
    if IsExcluded(cfg, n) then
      n.Estimator? ==> EstimatorUninstrumentedChecked(cfg, n, FullOf(act))
    else
      match n
      case Estimator(_, _, _, _, _, d) =>
        AttrsBelow(n);
        && EstimatorChecked(cfg, act, n)
        && forall p :: p in d && !IsReserved(p.0) ==> Checked(cfg, act, p.1)
      case Obj(_, hd, d, im, vs, isq, xs) =>
        ContentsBelow(n);
        if hd then forall p :: p in d && !IsReserved(p.0) ==> Checked(cfg, act, p.1)
        else if im then forall v :: v in vs ==> Checked(cfg, act, v)
        else if isq then forall v :: v in xs ==> Checked(cfg, act, v)
        else true
      case _ => true
  }

  /**
   * What the walks need of their input: every estimator they will process is
   * coherent, and every excluded estimator already passes the
   * uninstrumented check, since the walk leaves it alone.
   */
  ghost predicate Ready(cfg: Instrumentor, act: Action, n: Node)
    decreases Height(n)
  {
    if IsExcluded(cfg, n) then
      n.Estimator? ==> EstimatorUninstrumentedChecked(cfg, n, FullOf(act))
    else
      match n
      case Estimator(_, _, _, _, _, d) =>
        AttrsBelow(n);
        && Coherent(n)
        && forall p :: p in d && !IsReserved(p.0) ==> Ready(cfg, act, p.1)
      case Obj(_, hd, d, im, vs, isq, xs) =>
        ContentsBelow(n);
        if hd then forall p :: p in d && !IsReserved(p.0) ==> Ready(cfg, act, p.1)
        else if im then forall v :: v in vs ==> Ready(cfg, act, v)
        else if isq then forall v :: v in xs ==> Ready(cfg, act, v)
        else true
      case _ => true
  }

  /**
   * `instrument_estimator(e, recursive=False)` on a coherent estimator
   * passes `assert_instrumented_estimator(e, recursive=False)`.
   */
  lemma InstrumentEstimatorChecked(cfg: Instrumentor, e: Node, perCall: Option<Kwargs>)
    requires e.Estimator? && Coherent(e) && NonReserved(cfg.methods)
    ensures EstimatorInstrumentedChecked(cfg, InstrumentEstimator(cfg, e, perCall))
  {
    var r := InstrumentEstimator(cfg, e, perCall);
    forall m | m in cfg.methods
      ensures MethodInstrumentedChecked(cfg, r, m)
    {
      if IsProperty(e, m) {
        assert IsProperty(r, m);
      } else if Lookup(e, m).Some? {
        assert Instrumented(cfg, r, m);
      } else {
        InstrumentMethodsSkips(cfg, e, cfg.methods, perCall, m);
        CoherentRecordHasMethod(e, m);
        assert Lookup(r, m) == Lookup(e, m) && RecordOf(r, m) == RecordOf(e, m);
      }
    }
  }

  /**
   * `uninstrument_estimator(e, recursive=False, full)` on a coherent
   * estimator passes `assert_uninstrumented_estimator(e, recursive=False,
   * full)`, with `full` as evidently intended on both sides.
   */
  lemma UninstrumentEstimatorChecked(cfg: Instrumentor, e: Node, full: bool)
    requires e.Estimator? && Coherent(e) && NonReserved(cfg.methods)
    ensures EstimatorUninstrumentedChecked(cfg, UninstrumentEstimator(cfg, e, full), full)
  {
    if full {
      FullUninstrumentClearsRecords(cfg, e);
    }
  }

  /** A walk step on a coherent estimator passes the matching check. */
  lemma StepChecked(cfg: Instrumentor, act: Action, e: Node)
    requires e.Estimator? && Coherent(e) && NonReserved(cfg.methods)
    ensures EstimatorChecked(cfg, act, Step(cfg, act, e))
  {
    match act
    case Instrument(perCall) => InstrumentEstimatorChecked(cfg, e, perCall);
    case Uninstrument(full) => UninstrumentEstimatorChecked(cfg, e, full);
  }

  /**
   * Descending after the step keeps the estimator's own check: the walk
   * leaves its methods, records and properties as the step made them.
   */
  lemma WalkKeepsEstimatorChecked(cfg: Instrumentor, act: Action, n: Node)
    requires n.Estimator? && !IsExcluded(cfg, n) && Coherent(n) && NonReserved(cfg.methods)
    ensures EstimatorChecked(cfg, act, Walk.Walk(cfg, act, n))
  {
    var e1 := Step(cfg, act, n);
    var r := Walk.Walk(cfg, act, n);
    StepChecked(cfg, act, n);
    forall m
      ensures Lookup(r, m) == Lookup(e1, m) && RecordOf(r, m) == RecordOf(e1, m)
      ensures IsProperty(r, m) == IsProperty(e1, m)
    {
      WalkKeepsStep(cfg, act, n, m);
    }
    if act.Uninstrument? && act.full {
      assert forall m :: RecordOf(r, m).None? by {
        FullUninstrumentClearsRecords(cfg, n);
      }
    }
  }

  /** Walked dictionary entries under non-reserved keys pass when their originals were ready. */
  lemma WalkDictChecked(cfg: Instrumentor, act: Action, d: Dict<Node>, h: nat, ready: Dict<Node>)
    requires NonReserved(cfg.methods)
    requires forall p :: p in d ==> Height(p.1) < h
    requires forall p :: p in d && !IsReserved(p.0) ==>
               p in ready || p.1.Method? || p.1.Rec?
    requires forall p :: p in ready && !IsReserved(p.0) && Height(p.1) < h ==> Ready(cfg, act, p.1)
    ensures forall p :: p in WalkDict(cfg, act, d, h) && !IsReserved(p.0) ==> Checked(cfg, act, p.1)
    decreases h, 0
  {
    var r := WalkDict(cfg, act, d, h);
    forall p | p in r && !IsReserved(p.0)
      ensures Checked(cfg, act, p.1)
    {
      var j :| 0 <= j < |r| && r[j] == p;
      assert d[j] in d;
      assert p.1 == Walk.Walk(cfg, act, d[j].1);
      if d[j] in ready {
        WalkChecked(cfg, act, d[j].1);
      }
    }
  }

  /** Walked sequence items pass when the originals were ready. */
  lemma WalkSeqChecked(cfg: Instrumentor, act: Action, xs: seq<Node>, h: nat)
    requires NonReserved(cfg.methods)
    requires forall v :: v in xs ==> Height(v) < h && Ready(cfg, act, v)
    ensures forall v :: v in WalkSeq(cfg, act, xs, h) ==> Checked(cfg, act, v)
    decreases h, 0
  {
    var r := WalkSeq(cfg, act, xs, h);
    forall v | v in r
      ensures Checked(cfg, act, v)
    {
      var j :| 0 <= j < |r| && r[j] == v;
      assert xs[j] in xs;
      WalkChecked(cfg, act, xs[j]);
    }
  }

  /**
   * Soundness of the recursive checks: walking a ready object tree with an
   * action leaves a tree that passes the recursive check for that action.
   */
  lemma {:induction false} WalkChecked(cfg: Instrumentor, act: Action, n: Node)
    requires NonReserved(cfg.methods) && Ready(cfg, act, n)
    ensures Checked(cfg, act, Walk.Walk(cfg, act, n))
    decreases Height(n), 1
  {
    if !IsExcluded(cfg, n) {
      match n
      case Estimator(_, _, _, _, _, d) =>
        AttrsBelow(n);
        var e1 := Step(cfg, act, n);
        WalkKeepsEstimatorChecked(cfg, act, n);
        WalkDictChecked(cfg, act, e1.attrs, Height(n), d);
      case Obj(_, hd, d, im, vs, isq, xs) =>
        ContentsBelow(n);
        if hd {
          WalkDictChecked(cfg, act, d, Height(n), d);
        } else if im {
          WalkSeqChecked(cfg, act, vs, Height(n));
        } else if isq {
          WalkSeqChecked(cfg, act, xs, Height(n));
        }
      case _ =>
    }
  }

  /**
   * As written, the full uninstrumented check of an estimator checks no
   * method, so it passes an estimator that still carries the instrument,
   * as the full uninstrumentation as written leaves it; the corrected check
   * rejects that estimator.
   */
  lemma AsWrittenFullCheckMissesRecord(cfg: Instrumentor, e: Node, m: string)
    requires e.Estimator? && !IsProperty(e, m)
    requires Get(e.attrs, m).Some? && Get(e.attrs, m).value.Method?
    requires RecordOf(e, m).Some? && cfg.instrument in RecordOf(e, m).value.instruments
    ensures var r := UninstrumentEstimatorAsWritten(cfg, e, true);
            && EstimatorUninstrumentedCheckedAsWritten(cfg, r, true)
            && !EstimatorUninstrumentedChecked(cfg, r, true)
  {
    var r := UninstrumentEstimatorAsWritten(cfg, e, true);
    assert m in CallableNames(r.attrs);
    assert !MethodUninstrumentedChecked(cfg, r, m, true);
  }
}

=== FILE: objects.dfy ===
/**
 * The object graph the instrumentor walks, as a finite tree.
 *
 * The recursive walks treat a `BaseEstimator` specially and descend into
 * any other object through its `__dict__`, else its mapping values, else its
 * sequence items. Method attributes installed by the instrumentor and the
 * records stored under `"_skli_" + name` are leaves of their own.
 */
module Objects {
  import opened Fns
  import opened Config
  import opened MethodRecord
  import opened PyDict

  type ValidRecord = r: Record | Valid(r) witness New(Orig(0, ""))

  /**
   * What an estimator's class answers for it: the names that are properties
   * on the class, and what `getattr(estimator, name)` yields for names the
   * instance dictionary lacks (absent when the class has no such attribute, or
   * when a delegating method's delegate does not support it).
   */
  datatype ClassView = ClassView(properties: set<string>, methods: map<string, Fn>)

  /**
   * `Estimator` is a `BaseEstimator` instance (which always has a `__dict__`).
   * `Obj` is any other object: it may have a `__dict__` (`hasDict`), be a
   * `MutableMapping` (`isMapping`, with its values) and be a `Sequence`
   * (`isSequence`, with its items), in any combination; with none of the three
   * it is a leaf, and the contents behind a false flag are ignored. `Method` is a callable
   * attribute value and `Rec` a `SklearnMethodInstrumentation`.
   */
  datatype Node =
    | Estimator(id: nat, types: set<TypeName>, cls: ClassId, view: ClassView,
                boundMethodClasses: map<string, ClassId>, attrs: Dict<Node>)
    | Obj(types: set<TypeName>, hasDict: bool, dict: Dict<Node>, isMapping: bool, values: seq<Node>,
          isSequence: bool, items: seq<Node>)
    | Method(f: Fn)
    | Rec(r: ValidRecord)

  /** The type set `isinstance` consults; installed methods and records are never excluded. */
  function TypesOf(n: Node): set<TypeName>
  {
    match n
    case Method(_) => {}
    case Rec(_) => {}
    case _ => n.types
  }

  function MaxOf(s: seq<nat>): (m: nat)
    ensures forall j :: 0 <= j < |s| ==> s[j] <= m
  {
    if |s| == 0 then 0 else var t := MaxOf(s[1..]); if s[0] > t then s[0] else t
  }

  /** Nesting depth of containers; leaves, methods and records have height 0. */
  function Height(n: Node): nat
  {
    match n
    case Estimator(_, _, _, _, _, d) => 1 + MaxOf(seq(|d|, j requires 0 <= j < |d| => Height(d[j].1)))
    case Obj(_, _, d, _, vs, _, xs) =>
      1 + MaxOf([
        MaxOf(seq(|d|, j requires 0 <= j < |d| => Height(d[j].1))),
        MaxOf(seq(|vs|, j requires 0 <= j < |vs| => Height(vs[j]))),
        MaxOf(seq(|xs|, j requires 0 <= j < |xs| => Height(xs[j])))])
    case _ => 0
  }

  function DictHeight(d: Dict<Node>): nat
  {
    MaxOf(seq(|d|, j requires 0 <= j < |d| => Height(d[j].1)))
  }

  function SeqHeight(xs: seq<Node>): nat
  {
    MaxOf(seq(|xs|, j requires 0 <= j < |xs| => Height(xs[j])))
  }

  /** Every value of a dictionary is lower than the dictionary's height bound. */
  lemma DictBelow(d: Dict<Node>)
    ensures forall p :: p in d ==> Height(p.1) <= DictHeight(d)
  {
    var hs := seq(|d|, j requires 0 <= j < |d| => Height(d[j].1));
    forall p | p in d
      ensures Height(p.1) <= DictHeight(d)
    {
      var j :| 0 <= j < |d| && d[j] == p;
      assert hs[j] <= MaxOf(hs);
    }
  }

  /** Every element of a sequence is lower than the sequence's height bound. */
  lemma SeqBelow(xs: seq<Node>)
    ensures forall v :: v in xs ==> Height(v) <= SeqHeight(xs)
  {
    var hs := seq(|xs|, j requires 0 <= j < |xs| => Height(xs[j]));
    forall v | v in xs
      ensures Height(v) <= SeqHeight(xs)
    {
      var j :| 0 <= j < |xs| && xs[j] == v;
      assert hs[j] <= MaxOf(hs);
    }
  }

  /** The attribute values of an estimator are lower than the estimator. */
  lemma AttrsBelow(n: Node)
    requires n.Estimator?
    ensures forall p :: p in n.attrs ==> Height(p.1) < Height(n)
  {
    DictBelow(n.attrs);
  }

  /** The contents of an object are lower than the object. */
  lemma ContentsBelow(n: Node)
    requires n.Obj?
    ensures forall p :: p in n.dict ==> Height(p.1) < Height(n)
    ensures forall v :: v in n.values ==> Height(v) < Height(n)
    ensures forall v :: v in n.items ==> Height(v) < Height(n)
  {
    var hs := [DictHeight(n.dict), SeqHeight(n.values), SeqHeight(n.items)];
    assert hs[0] <= MaxOf(hs) && hs[1] <= MaxOf(hs) && hs[2] <= MaxOf(hs);
    DictBelow(n.dict);
    SeqBelow(n.values);
    SeqBelow(n.items);
  }
}

=== FILE: prometheus.dfy ===
/**
 * The prometheus instruments: the label names added to the metric on
 * construction, and the labels a wrapped function reports under.
 *
 * The metric object itself, `_validate_labelnames` and the metric's own
 * `labels(...)` check belong to the prometheus client library and are
 * outside the model; so is the timing.
 */
module Prometheus {
  import opened Wrappers
  import opened Fns
  import opened Enumerations
  import Utils

  /** A prometheus instrument: the metric's label names and its enumeration state. */
  datatype Instrument = Instrument(labelnames: seq<string>, enumerate: bool, enumerations: Registry)

  /** The instrument after one call, and the label map or the error the call raised. */
  datatype Labelled = Labelled(inst: Instrument, labels: Result<map<string, string>>)

  const QualnameLabel: string := "qualname"

  function Count(names: seq<string>, x: string): nat
  {
    if |names| == 0 then 0 else (if names[0] == x then 1 else 0) + Count(names[1..], x)
  }

  /** `"qualname"` appended to the label names unless it is already one of them. */
  function WithQualname(names: seq<string>): (r: seq<string>)
    ensures QualnameLabel in r
    ensures names <= r && |r| <= |names| + 1
    ensures forall x :: x in r <==> x in names || x == QualnameLabel
  {
    if QualnameLabel in names then names else names + [QualnameLabel]
  }

  lemma {:induction false} CountAppend(names: seq<string>, extra: seq<string>, x: string)
    ensures Count(names + extra, x) == Count(names, x) + Count(extra, x)
    decreases |names|
  {
    if |names| == 0 {
      assert names + extra == extra;
    } else {
      assert (names + extra)[1..] == names[1..] + extra;
      CountAppend(names[1..], extra, x);
    }
  }

  lemma {:induction false} CountAbsent(names: seq<string>, x: string)
    requires x !in names
    ensures Count(names, x) == 0
    decreases |names|
  {
    if |names| > 0 {
      CountAbsent(names[1..], x);
    }
  }

  lemma {:induction false} CountPresent(names: seq<string>, x: string)
    requires x in names
    ensures Count(names, x) >= 1
    decreases |names|
  {
    if names[0] != x {
      CountPresent(names[1..], x);
    }
  }

  /**
   * Adding the label name twice adds it once, and it is never duplicated:
   * it occurs exactly once when it occurred at most once before.
   */
  lemma WithQualnameOnce(names: seq<string>)
    ensures WithQualname(WithQualname(names)) == WithQualname(names)
    ensures Count(names, QualnameLabel) <= 1 ==> Count(WithQualname(names), QualnameLabel) == 1
  {
    if QualnameLabel in names {
      CountPresent(names, QualnameLabel);
    } else {
      CountAbsent(names, QualnameLabel);
      CountAppend(names, [QualnameLabel], QualnameLabel);
    }
  }

  /** `BasePrometheus(metric, enumerate_)`. */
  function NewBase(labelnames: seq<string>, enumerate: bool): (p: Instrument)
    ensures QualnameLabel in p.labelnames && labelnames <= p.labelnames
    ensures forall key :: Listed(p.enumerations, key) == []
  {
    Instrument(WithQualname(labelnames), enumerate, map[])
  }

  /**
   * `PrometheusSummary(summary, enumerate_)`: the summary's label names get
   * `"qualname"` here and again in the base constructor. A missing summary
   * is a new one without label names.
   */
  function NewSummary(labelnames: Option<seq<string>>, enumerate: bool): (p: Instrument)
    ensures var given := if labelnames.Some? then labelnames.value else [];
            p == Instrument(WithQualname(given), enumerate, map[])
  {
    var given := if labelnames.Some? then labelnames.value else [];
    WithQualnameOnce(given);
    NewBase(WithQualname(given), enumerate)
  }

  /** `PrometheusHistogram(histogram, enumerate_)`: the base constructor alone. */
  function NewHistogram(labelnames: Option<seq<string>>, enumerate: bool): (p: Instrument)
    ensures QualnameLabel in p.labelnames
    ensures labelnames.Some? ==> labelnames.value <= p.labelnames
  {
    NewBase(if labelnames.Some? then labelnames.value else [], enumerate)
  }

  /**
   * `{"qualname": func.__qualname__}` updated with `dkwargs.get("labels", {})`.
   * A dictionary overrides the qualname label if it has one; an empty string
   * updates nothing; a non-empty string raises `ValueError` (its items are not
   * pairs) and any other value `TypeError`.
   */
  function BaseLabels(func: Fn, dkwargs: Kwargs): (r: Result<map<string, string>>)
    ensures "labels" !in dkwargs ==> r == Ok(map[QualnameLabel := Qualname(func)])
    ensures r.Ok? ==> QualnameLabel in r.value
    ensures r.Ok? && "labels" in dkwargs && dkwargs["labels"].Labels? ==>
              var given := dkwargs["labels"].labels;
              && r.value.Keys == given.Keys + {QualnameLabel}
              && (forall k :: k in given ==> r.value[k] == given[k])
              && (QualnameLabel !in given ==> r.value[QualnameLabel] == Qualname(func))
    ensures "labels" in dkwargs ==>
              match dkwargs["labels"]
              case Labels(_) => r.Ok?
              case Str(s) => if s == "" then r == Ok(map[QualnameLabel := Qualname(func)])
                             else r == Err(ValueError)
              case Opaque(_) => r == Err(TypeError)
  {
    var base := map[QualnameLabel := Qualname(func)];
    if "labels" !in dkwargs then Ok(base)
    else match dkwargs["labels"]
      case Labels(given) => Ok(base + given)
      case Str(s) => if s == "" then Ok(base) else Err(ValueError)
      case Opaque(_) => Err(TypeError)
  }

  /**
   * `idx = enumerations[key].index(func)`, and on `ValueError` the index 0,
   * appending the function: the rule as the prometheus instrument writes it.
   */
  function EnumerateAsWritten(reg: Registry, key: Key, func: Fn): (r: Step)
    ensures func in Listed(reg, key) ==> r == Enumerate(reg, key, func)
    ensures func !in Listed(reg, key) ==> r == Step(0, Enumerate(reg, key, func).reg)
  {
    var listed := Listed(reg, key);
    match Utils.IndexOf(listed, func)
    case Ok(i) => Step(i, reg)
    case Err(_) => Step(0, reg[key := listed + [func]])
  }

  /** The label map and state after the labels are built and, if on, enumerated. */
  function CallWith(p: Instrument, func: Fn, dkwargs: Kwargs, key: Key,
                    enumerate: (Registry, Key, Fn) -> Step): Labelled
  {
    match BaseLabels(func, dkwargs)
    case Err(e) => Labelled(p, Err(e))
    case Ok(labels) =>
      if !p.enumerate then Labelled(p, Ok(labels))
      else
        var step := enumerate(p.enumerations, key, func);
        Labelled(p.(enumerations := step.reg),
                 Ok(labels[QualnameLabel := Qualname(func) + IndexSuffix(step.idx)]))
  }

  /** `BasePrometheus.__call__(func, **dkwargs)` as written, reduced to its labels. */
  function CallAsWritten(p: Instrument, func: Fn, dkwargs: Kwargs, key: Key): (r: Labelled)
    ensures r.labels.Ok? <==> BaseLabels(func, dkwargs).Ok?
    ensures r.labels.Err? || !p.enumerate ==> r.inst == p
    ensures r.labels.Ok? && !p.enumerate ==> r.labels == BaseLabels(func, dkwargs)
    ensures r.labels.Ok? && p.enumerate ==>
              && func in Listed(r.inst.enumerations, key)
              && r.labels.value.Keys == BaseLabels(func, dkwargs).value.Keys
  {
    CallWith(p, func, dkwargs, key, EnumerateAsWritten)
  }

  /**
   * `BasePrometheus.__call__` with a new function labelled by the previous
   * length of its list, as the statsd timer does.
   */
  function Call(p: Instrument, func: Fn, dkwargs: Kwargs, key: Key): (r: Labelled)
    ensures r.labels.Ok? <==> BaseLabels(func, dkwargs).Ok?
    ensures r.labels.Err? || !p.enumerate ==> r.inst == p
    ensures r.labels.Ok? && !p.enumerate ==> r.labels == BaseLabels(func, dkwargs)
    ensures r.labels.Ok? && p.enumerate ==>
              && func in Listed(r.inst.enumerations, key)
              && r.labels.value.Keys == BaseLabels(func, dkwargs).value.Keys
  {
    CallWith(p, func, dkwargs, key, Enumerate)
  }

  /**
   * With enumeration on, the qualname label is the qualname and the index of
   * the function, whatever the keyword labels said; every other label is
   * theirs.
   */
  lemma CallLabels(p: Instrument, func: Fn, dkwargs: Kwargs, key: Key)
    requires p.enumerate && BaseLabels(func, dkwargs).Ok?
    ensures var r := Call(p, func, dkwargs, key);
            var step := Enumerate(p.enumerations, key, func);
            && r.inst.enumerations == step.reg
            && r.labels.value[QualnameLabel] == Qualname(func) + IndexSuffix(step.idx)
            && forall k :: k in r.labels.value && k != QualnameLabel ==>
                 r.labels.value[k] == BaseLabels(func, dkwargs).value[k]
  {
  }

  /** Calling again with the same function and arguments gives the same labels and state. */
  lemma CallIdempotent(p: Instrument, func: Fn, dkwargs: Kwargs, key: Key)
    ensures var r := Call(p, func, dkwargs, key); Call(r.inst, func, dkwargs, key) == r
  {
    if p.enumerate && BaseLabels(func, dkwargs).Ok? {
      EnumerateIdempotent(p.enumerations, key, func);
    }
  }

  /**
   * Two different functions sharing a key and a qualname report under
   * different qualname labels.
   */
  lemma CallSeparates(p: Instrument, f: Fn, g: Fn, dkwargs: Kwargs, key: Key)
    requires p.enumerate && f != g && Qualname(f) == Qualname(g)
    requires BaseLabels(f, dkwargs).Ok?
    ensures var r1 := Call(p, f, dkwargs, key);
            var r2 := Call(r1.inst, g, dkwargs, key);
            r1.labels.Ok? && r2.labels.Ok?
            && r1.labels.value[QualnameLabel] != r2.labels.value[QualnameLabel]
  {
    var q := Qualname(f);
    assert BaseLabels(g, dkwargs) == BaseLabels(f, dkwargs);
    var s1 := Enumerate(p.enumerations, key, f);
    var s2 := Enumerate(s1.reg, key, g);
    EnumerateSeparates(p.enumerations, key, f, g);
    SuffixSeparates(q, s1.idx, s2.idx);
    var r1 := Call(p, f, dkwargs, key);
    assert r1.inst == p.(enumerations := s1.reg);
    assert r1.labels.value[QualnameLabel] == q + IndexSuffix(s1.idx);
    var r2 := Call(r1.inst, g, dkwargs, key);
    assert r2.labels.value[QualnameLabel] == q + IndexSuffix(s2.idx);
  }

  /** As written, with enumeration on, a call reports the index its enumeration step gives. */
  lemma CallAsWrittenStep(p: Instrument, func: Fn, dkwargs: Kwargs, key: Key, step: Step)
    requires p.enumerate && BaseLabels(func, dkwargs).Ok?
    requires EnumerateAsWritten(p.enumerations, key, func) == step
    ensures CallAsWritten(p, func, dkwargs, key)
            == Labelled(p.(enumerations := step.reg),
                        Ok(BaseLabels(func, dkwargs).value[QualnameLabel := Qualname(func) + IndexSuffix(step.idx)]))
  {
  }

  /**
   * As written, a function met for the first time under a key that already
   * lists another function reports under that function's label, and a later
   * call with the same function reports under a different one.
   */
  lemma AsWrittenLabelsCollideAndMove(p: Instrument, f: Fn, g: Fn, dkwargs: Kwargs, key: Key)
    requires p.enumerate && Listed(p.enumerations, key) == [] && f != g
    requires Qualname(f) == Qualname(g)
    requires BaseLabels(f, dkwargs).Ok?
    ensures var r1 := CallAsWritten(p, f, dkwargs, key);
            var r2 := CallAsWritten(r1.inst, g, dkwargs, key);
            var r3 := CallAsWritten(r2.inst, g, dkwargs, key);
            && r1.labels.Ok? && r2.labels.Ok? && r3.labels.Ok?
            && r2.labels == r1.labels
            && r3.labels.value[QualnameLabel] != r2.labels.value[QualnameLabel]
  {
    var q := Qualname(f);
    assert BaseLabels(g, dkwargs) == BaseLabels(f, dkwargs);
    var p1 := p.(enumerations := p.enumerations[key := [f]]);
    var p2 := p1.(enumerations := p1.enumerations[key := [f, g]]);
    assert Listed(p.enumerations, key) + [f] == [f];
    CallAsWrittenStep(p, f, dkwargs, key, Step(0, p1.enumerations));
    assert Listed(p1.enumerations, key) + [g] == [f, g];
    CallAsWrittenStep(p1, g, dkwargs, key, Step(0, p2.enumerations));
    assert Utils.IndexOf(Listed(p2.enumerations, key), g) == Ok(1);
    CallAsWrittenStep(p2, g, dkwargs, key, Step(1, p2.enumerations));
    SuffixSeparates(q, 1, 0);
  }
}

=== FILE: pydict.dfy ===
/**
 * A Python attribute dictionary (`obj.__dict__`): string keys in insertion
 * order. `setattr` replaces a value in place or appends a new key;
 * `delattr` removes the key.
 */
module PyDict {
  import opened Wrappers

  type Dict<V> = seq<(string, V)>

  predicate HasKey<V>(d: Dict<V>, k: string)
  {
    exists j :: 0 <= j < |d| && d[j].0 == k
  }

  /** `d.get(k)`: the value of the first entry with key `k`. */
  function Get<V>(d: Dict<V>, k: string): (r: Option<V>)
    ensures r.Some? <==> HasKey(d, k)
    ensures r.Some? ==> (k, r.value) in d
  {
    if |d| == 0 then None
    else if d[0].0 == k then Some(d[0].1)
    else Get(d[1..], k)
  }

  /** `setattr(obj, k, v)`. */
  function Set<V>(d: Dict<V>, k: string, v: V): (r: Dict<V>)
    ensures Get(r, k) == Some(v)
    ensures forall k' :: k' != k ==> Get(r, k') == Get(d, k')
    ensures forall p :: p in r ==> p in d || p == (k, v)
    ensures HasKey(d, k) ==> |r| == |d|
    ensures !HasKey(d, k) ==> r == d + [(k, v)]
  {
    if |d| == 0 then [(k, v)]
    else
      var t := d[1..];
      assert d == [d[0]] + t;
      ConsGet(d[0], t);
      if d[0].0 == k then
        ConsGet((k, v), t);
        [(k, v)] + t
      else
        var rest := Set(t, k, v);
        ConsGet(d[0], rest);
        assert HasKey(d, k) <==> HasKey(t, k);
        assert !HasKey(t, k) ==> [d[0]] + rest == d + [(k, v)];
        ConsIn(d[0], rest);
        [d[0]] + rest
  }

  /** The entries of a dictionary with one more entry in front. */
  lemma ConsIn<V>(p: (string, V), d: Dict<V>)
    ensures forall q :: q in [p] + d <==> q == p || q in d
  {
  }

  /** Looking up in a dictionary with one more entry in front. */
  lemma ConsGet<V>(p: (string, V), d: Dict<V>)
    ensures forall k :: Get([p] + d, k) == if p.0 == k then Some(p.1) else Get(d, k)
  {
    assert ([p] + d)[1..] == d;
  }

  /** `delattr(obj, k)`. */
  function Del<V>(d: Dict<V>, k: string): (r: Dict<V>)
    ensures Get(r, k) == None
    ensures forall k' :: k' != k ==> Get(r, k') == Get(d, k')
    ensures forall p :: p in r ==> p in d
  {
    if |d| == 0 then []
    else if d[0].0 == k then Del(d[1..], k)
    else [d[0]] + Del(d[1..], k)
  }

  /** The keys, in order. */
  function Keys<V>(d: Dict<V>): (r: seq<string>)
    ensures |r| == |d|
    ensures forall j :: 0 <= j < |d| ==> r[j] == d[j].0
  {
    if |d| == 0 then [] else [d[0].0] + Keys(d[1..])
  }
}

=== FILE: record.dfy ===
/**
 * `SklearnMethodInstrumentation`: the per-method record that keeps the
 * original callable, the instruments applied to it with their keyword
 * arguments (two parallel lists), and the composed `wrapper`.
 */
module MethodRecord {
  import opened Fns

  datatype Record = Record(
    wrapped: Fn,
    wrapper: Fn,
    instruments: seq<InstrumentId>,
    kwargs: seq<Kwargs>)

  /** The invariant every record keeps: the lists are parallel and `wrapper` is their fold. */
  predicate Valid(r: Record)
  {
    |r.instruments| == |r.kwargs| && r.wrapper == Fold(r.wrapped, r.instruments, r.kwargs)
  }

  /** `SklearnMethodInstrumentation(func)`. */
  function New(f: Fn): (r: Record)
    ensures Valid(r)
    ensures r.wrapped == f && r.wrapper == f
    ensures r.instruments == [] && r.kwargs == []
  {
    Record(f, f, [], [])
  }

  /** `_wrap_function`: the loop that refolds `wrapped` through the two lists. */
  method WrapFunction(r: Record) returns (w: Fn)
    requires |r.instruments| == |r.kwargs|
    ensures w == Fold(r.wrapped, r.instruments, r.kwargs)
    ensures Depth(w) == Depth(r.wrapped) + |r.instruments|
  {
    w := r.wrapped;
    var i := 0;
    while i < |r.instruments|
      invariant 0 <= i <= |r.instruments|
      invariant w == Fold(r.wrapped, r.instruments[..i], r.kwargs[..i])
    {
      FoldSnoc(r.wrapped, r.instruments[..i], r.kwargs[..i], r.instruments[i], r.kwargs[i]);
      assert r.instruments[..i + 1] == r.instruments[..i] + [r.instruments[i]];
      assert r.kwargs[..i + 1] == r.kwargs[..i] + [r.kwargs[i]];
      w := Wrap(r.instruments[i], r.kwargs[i], w);
      i := i + 1;
    }
    assert r.instruments[..i] == r.instruments;
    assert r.kwargs[..i] == r.kwargs;
    FoldDepth(r.wrapped, r.instruments, r.kwargs);
  }

  /** A record with the given lists whose wrapper has just been recomputed. */
  function Refold(wrapped: Fn, ins: seq<InstrumentId>, ks: seq<Kwargs>): (r: Record)
    requires |ins| == |ks|
    ensures Valid(r)
    ensures r.wrapped == wrapped && r.instruments == ins && r.kwargs == ks
  {
    Record(wrapped, Fold(wrapped, ins, ks), ins, ks)
  }

  /**
   * `add`: appends the instrument and (a copy of) its kwargs, with no
   * duplicate check, and recomputes the wrapper.
   */
  function Add(r: Record, i: InstrumentId, k: Kwargs): (r': Record)
    requires Valid(r)
    ensures Valid(r')
    ensures r'.wrapped == r.wrapped
    ensures r'.instruments == r.instruments + [i] && r'.kwargs == r.kwargs + [k]
    ensures r'.wrapper == Wrap(i, k, r.wrapper)
    ensures Depth(r'.wrapper) == Depth(r.wrapper) + 1
  {
    FoldSnoc(r.wrapped, r.instruments, r.kwargs, i, k);
    Refold(r.wrapped, r.instruments + [i], r.kwargs + [k])
  }

  /** The entries of two parallel lists as `(instrument, kwargs)` pairs. */
  function Pairs(ins: seq<InstrumentId>, ks: seq<Kwargs>): (ps: seq<(InstrumentId, Kwargs)>)
    requires |ins| == |ks|
    ensures |ps| == |ins|
    ensures forall j :: 0 <= j < |ins| ==> ps[j] == (ins[j], ks[j])
  {
    seq(|ins|, j requires 0 <= j < |ins| => (ins[j], ks[j]))
  }

  /** The first entry of two parallel lists, and the rest. */
  lemma Unfold(ins: seq<InstrumentId>, ks: seq<Kwargs>)
    requires |ins| == |ks| > 0
    ensures ins == [ins[0]] + ins[1..] && ks == [ks[0]] + ks[1..]
    ensures Pairs(ins, ks) == [(ins[0], ks[0])] + Pairs(ins[1..], ks[1..])
    ensures multiset(ins) == multiset{ins[0]} + multiset(ins[1..])
    ensures forall x :: x in ins <==> x == ins[0] || x in ins[1..]
  {
    assert ins == [ins[0]] + ins[1..];
  }

  /** The pairs whose instrument is not `i`, in their order. */
  function Without(ps: seq<(InstrumentId, Kwargs)>, i: InstrumentId): (r: seq<(InstrumentId, Kwargs)>)
    ensures |r| <= |ps|
    ensures forall p :: p in r <==> p in ps && p.0 != i
  {
    if |ps| == 0 then []
    else
      assert ps == [ps[0]] + ps[1..];
      if ps[0].0 == i then Without(ps[1..], i) else [ps[0]] + Without(ps[1..], i)
  }

  /** Filtering a list with one more pair in front. */
  lemma WithoutCons(p: (InstrumentId, Kwargs), ps: seq<(InstrumentId, Kwargs)>, i: InstrumentId)
    ensures Without([p] + ps, i) == if p.0 == i then Without(ps, i) else [p] + Without(ps, i)
  {
    assert ([p] + ps)[1..] == ps;
  }

  /** Putting one more entry in front of two parallel lists. */
  function Prepend(a: InstrumentId, k: Kwargs, res: (seq<InstrumentId>, seq<Kwargs>))
    : (r: (seq<InstrumentId>, seq<Kwargs>))
    requires |res.0| == |res.1|
    ensures |r.0| == |r.1| == |res.0| + 1
    ensures r == ([a] + res.0, [k] + res.1)
    ensures Pairs(r.0, r.1) == [(a, k)] + Pairs(res.0, res.1)
    ensures multiset(r.0) == multiset{a} + multiset(res.0)
    ensures forall x :: x in r.0 <==> x == a || x in res.0
  {
    var r := ([a] + res.0, [k] + res.1);
    assert r.0[1..] == res.0;
    r
  }

  /**
   * The pairs `(instruments[j], kwargs[j])` with every pair whose instrument
   * equals `i` dropped, the others kept in their order.
   */
  function FilterOut(ins: seq<InstrumentId>, ks: seq<Kwargs>, i: InstrumentId)
    : (res: (seq<InstrumentId>, seq<Kwargs>))
    requires |ins| == |ks|
    ensures |res.0| == |res.1| <= |ins|
    ensures Pairs(res.0, res.1) == Without(Pairs(ins, ks), i)
    ensures forall x :: x in res.0 <==> x in ins && x != i
    ensures forall x :: x != i ==> multiset(res.0)[x] == multiset(ins)[x]
    ensures i !in ins ==> res == (ins, ks)
    decreases |ins|
  {
    if |ins| == 0 then ([], [])
    else
      var rest := FilterOut(ins[1..], ks[1..], i);
      Unfold(ins, ks);
      WithoutCons((ins[0], ks[0]), Pairs(ins[1..], ks[1..]), i);
      if ins[0] == i then rest
      else Prepend(ins[0], ks[0], rest)
  }

  /** `remove`: drops every entry equal to `i` together with its kwargs. */
  function Remove(r: Record, i: InstrumentId): (r': Record)
    requires Valid(r)
    ensures Valid(r')
    ensures r'.wrapped == r.wrapped
    ensures i !in r'.instruments
    ensures forall x :: x in r'.instruments <==> x in r.instruments && x != i
    ensures forall x :: x != i ==> multiset(r'.instruments)[x] == multiset(r.instruments)[x]
    ensures Pairs(r'.instruments, r'.kwargs) == Without(Pairs(r.instruments, r.kwargs), i)
    ensures i !in r.instruments ==> r' == r
  {
    var res := FilterOut(r.instruments, r.kwargs, i);
    Refold(r.wrapped, res.0, res.1)
  }

  /** `empty`. */
  predicate Empty(r: Record)
  {
    |r.instruments| == 0
  }

  /** An empty record's wrapper is the original callable. */
  lemma EmptyMeansUnwrapped(r: Record)
    requires Valid(r)
    ensures Empty(r) <==> r.wrapper == r.wrapped
  {
    if !Empty(r) {
      FoldNonEmptyDiffers(r.wrapped, r.instruments, r.kwargs);
    }
  }

  /** The head and the tail of a concatenation whose first part is non-empty. */
  lemma TailOfAppend<T>(a: seq<T>, b: seq<T>)
    requires |a| > 0
    ensures (a + b)[0] == a[0] && (a + b)[1..] == a[1..] + b
  {
  }

  /** Appending a non-empty sequence is appending its head, then its tail. */
  lemma AppendFirst<T>(a: seq<T>, b: seq<T>)
    requires |b| > 0
    ensures a + b == (a + [b[0]]) + b[1..]
  {
    assert b == [b[0]] + b[1..];
  }

  /** Pairing distributes over concatenation. */
  lemma PairsConcat(ins1: seq<InstrumentId>, ks1: seq<Kwargs>, ins2: seq<InstrumentId>, ks2: seq<Kwargs>)
    requires |ins1| == |ks1| && |ins2| == |ks2|
    ensures Pairs(ins1 + ins2, ks1 + ks2) == Pairs(ins1, ks1) + Pairs(ins2, ks2)
  {
  }

  /** Two pairs of parallel lists with the same pairs are the same lists. */
  lemma PairsInjective(ins1: seq<InstrumentId>, ks1: seq<Kwargs>, ins2: seq<InstrumentId>, ks2: seq<Kwargs>)
    requires |ins1| == |ks1| && |ins2| == |ks2|
    requires Pairs(ins1, ks1) == Pairs(ins2, ks2)
    ensures ins1 == ins2 && ks1 == ks2
  {
    assert forall j :: 0 <= j < |ins1| ==> Pairs(ins1, ks1)[j] == Pairs(ins2, ks2)[j];
  }

  /** Filtering pairs distributes over concatenation. */
  lemma {:induction false} WithoutConcat(ps1: seq<(InstrumentId, Kwargs)>, ps2: seq<(InstrumentId, Kwargs)>, i: InstrumentId)
    ensures Without(ps1 + ps2, i) == Without(ps1, i) + Without(ps2, i)
    decreases |ps1|
  {
    if |ps1| > 0 {
      var p, t := ps1[0], ps1[1..];
      WithoutConcat(t, ps2, i);
      TailOfAppend(ps1, ps2);
      if p.0 != i {
        assert [p] + (Without(t, i) + Without(ps2, i)) == ([p] + Without(t, i)) + Without(ps2, i);
      }
    } else {
      assert ps1 + ps2 == ps2;
    }
  }

  /** Filtering distributes over concatenation, so it keeps the relative order of the survivors. */
  lemma FilterOutConcat(ins1: seq<InstrumentId>, ks1: seq<Kwargs>,
                        ins2: seq<InstrumentId>, ks2: seq<Kwargs>, i: InstrumentId)
    requires |ins1| == |ks1| && |ins2| == |ks2|
    ensures FilterOut(ins1 + ins2, ks1 + ks2, i).0 == FilterOut(ins1, ks1, i).0 + FilterOut(ins2, ks2, i).0
    ensures FilterOut(ins1 + ins2, ks1 + ks2, i).1 == FilterOut(ins1, ks1, i).1 + FilterOut(ins2, ks2, i).1
  {
    var whole := FilterOut(ins1 + ins2, ks1 + ks2, i);
    var left := FilterOut(ins1, ks1, i);
    var right := FilterOut(ins2, ks2, i);
    PairsConcat(ins1, ks1, ins2, ks2);
    WithoutConcat(Pairs(ins1, ks1), Pairs(ins2, ks2), i);
    PairsConcat(left.0, left.1, right.0, right.1);
    assert Pairs(whole.0, whole.1) == Pairs(left.0 + right.0, left.1 + right.1);
    PairsInjective(whole.0, whole.1, left.0 + right.0, left.1 + right.1);
  }

  /** Removing an instrument right after adding it undoes the add and every earlier add of it. */
  lemma RemoveAfterAdd(r: Record, i: InstrumentId, k: Kwargs)
    requires Valid(r)
    ensures Remove(Add(r, i, k), i) == Remove(r, i)
  {
    FilterOutConcat(r.instruments, r.kwargs, [i], [k], i);
    assert FilterOut([i], [k], i) == ([], []);
    var a := FilterOut(r.instruments, r.kwargs, i);
    assert a.0 + [] == a.0;
    assert a.1 + [] == a.1;
  }

  /** Removing one instrument commutes with adding a different one. */
  lemma RemoveCommutesWithOtherAdd(r: Record, i: InstrumentId, j: InstrumentId, k: Kwargs)
    requires Valid(r) && i != j
    ensures Remove(Add(r, j, k), i) == Add(Remove(r, i), j, k)
  {
    FilterOutConcat(r.instruments, r.kwargs, [j], [k], i);
    assert FilterOut([j], [k], i) == ([j], [k]) by {
      assert [j][1..] == [];
    }
  }

  /** Adding the same instrument twice stacks two layers: `add` has no duplicate check. */
  lemma AddTwiceStacks(r: Record, i: InstrumentId, k: Kwargs)
    requires Valid(r)
    ensures var r2 := Add(Add(r, i, k), i, k);
      && multiset(r2.instruments)[i] == multiset(r.instruments)[i] + 2
      && r2.wrapper == Wrap(i, k, Wrap(i, k, r.wrapper))
      && r2.wrapper != Add(r, i, k).wrapper
  {
    var r1 := Add(r, i, k);
    assert r1.instruments == r.instruments + [i];
    assert multiset(r1.instruments) == multiset(r.instruments) + multiset{i};
    var r2 := Add(r1, i, k);
    assert multiset(r2.instruments) == multiset(r1.instruments) + multiset{i};
  }

  /** Applies `add` for each pair in turn. */
  function AddAll(r: Record, ins: seq<InstrumentId>, ks: seq<Kwargs>): (r': Record)
    requires Valid(r) && |ins| == |ks|
    ensures Valid(r')
    decreases |ins|
  {
    if |ins| == 0 then r else AddAll(Add(r, ins[0], ks[0]), ins[1..], ks[1..])
  }

  /** Applies `remove` for each instrument in turn. */
  function RemoveAll(r: Record, xs: seq<InstrumentId>): (r': Record)
    requires Valid(r)
    ensures Valid(r')
    decreases |xs|
  {
    if |xs| == 0 then r else RemoveAll(Remove(r, xs[0]), xs[1..])
  }

  /** A sequence of adds appends to the lists and keeps the original callable. */
  lemma {:induction false} AddAllLists(r: Record, ins: seq<InstrumentId>, ks: seq<Kwargs>)
    requires Valid(r) && |ins| == |ks|
    ensures AddAll(r, ins, ks).wrapped == r.wrapped
    ensures AddAll(r, ins, ks).instruments == r.instruments + ins
    ensures AddAll(r, ins, ks).kwargs == r.kwargs + ks
    decreases |ins|
  {
    if |ins| == 0 {
      assert r.instruments + ins == r.instruments;
      assert r.kwargs + ks == r.kwargs;
    } else {
      var r1 := Add(r, ins[0], ks[0]);
      AddAllLists(r1, ins[1..], ks[1..]);
      AppendFirst(r.instruments, ins);
      AppendFirst(r.kwargs, ks);
    }
  }

  /** A sequence of adds appends to the lists and folds onto the previous wrapper. */
  lemma AddAllAppends(r: Record, ins: seq<InstrumentId>, ks: seq<Kwargs>)
    requires Valid(r) && |ins| == |ks|
    ensures AddAll(r, ins, ks).wrapped == r.wrapped
    ensures AddAll(r, ins, ks).instruments == r.instruments + ins
    ensures AddAll(r, ins, ks).kwargs == r.kwargs + ks
    ensures AddAll(r, ins, ks).wrapper == Fold(r.wrapper, ins, ks)
  {
    AddAllLists(r, ins, ks);
    FoldConcat(r.wrapped, r.instruments, r.kwargs, ins, ks);
  }

  /** After a sequence of removes, exactly the instruments not removed are left. */
  lemma {:induction false} RemoveAllLeaves(r: Record, xs: seq<InstrumentId>)
    requires Valid(r)
    ensures RemoveAll(r, xs).wrapped == r.wrapped
    ensures forall x :: x in RemoveAll(r, xs).instruments <==> x in r.instruments && x !in xs
    decreases |xs|
  {
    if |xs| > 0 {
      RemoveAllLeaves(Remove(r, xs[0]), xs[1..]);
    }
  }

  /** A record none of whose instrument ids is left is empty, and its wrapper is the original. */
  lemma NoneLeftIsEmpty(r: Record)
    requires Valid(r)
    requires forall x :: x !in r.instruments
    ensures Empty(r) && r.wrapper == r.wrapped
  {
    NoMemberNoElement(r.instruments);
    EmptyMeansUnwrapped(r);
  }

  /** A sequence without members is empty. */
  lemma NoMemberNoElement(s: seq<InstrumentId>)
    ensures (forall x :: x !in s) ==> |s| == 0
  {
    if |s| > 0 {
      assert s[0] in s;
    }
  }

  /**
   * Reversibility: adding instruments to a fresh record and then removing
   * each of them, in any order, leaves an empty record whose wrapper is the
   * original callable again.
   */
  lemma Reversible(f: Fn, ins: seq<InstrumentId>, ks: seq<Kwargs>, xs: seq<InstrumentId>)
    requires |ins| == |ks|
    requires forall x :: x in ins ==> x in xs
    ensures Empty(RemoveAll(AddAll(New(f), ins, ks), xs))
    ensures RemoveAll(AddAll(New(f), ins, ks), xs).wrapper == f
  {
    var a := AddAll(New(f), ins, ks);
    AddAllAppends(New(f), ins, ks);
    assert a.instruments == ins && a.wrapped == f;
    var b := RemoveAll(a, xs);
    RemoveAllLeaves(a, xs);
    NoneLeftIsEmpty(b);
  }

  /** A record holding layers of one instrument only is empty once that instrument is removed. */
  lemma RemoveSoleInstrumentEmpties(r: Record, i: InstrumentId)
    requires Valid(r)
    requires forall x :: x in r.instruments ==> x == i
    ensures Empty(Remove(r, i))
    ensures Remove(r, i).wrapper == r.wrapped
  {
    NoneLeftIsEmpty(Remove(r, i));
  }
}

=== FILE: statsd.dfy ===
/**
 * The statsd timer instrument: how it names the timer of a wrapped function.
 *
 * The timer is `prefix.qualname` or `qualname`, followed by `-N` when
 * enumeration is on, where N is the function's position among the functions
 * seen under the same key. The client and the timing itself are outside the
 * model; only the instrument's own state, the enumeration registry, is kept.
 */
module Statsd {
  import opened Wrappers
  import opened Fns
  import opened Enumerations

  /** A `StatsdTimer`: its `enumerate` switch and its `enumerations`. */
  datatype Timer = Timer(enumerate: bool, enumerations: Registry)

  /** The timer after one call, and the label or the error the call raised. */
  datatype Labelled = Labelled(timer: Timer, name: Result<string>)

  /** `StatsdTimer(client, enumerate_)`: nothing is enumerated yet. */
  function NewTimer(enumerate: bool): (t: Timer)
    ensures t.enumerate == enumerate
    ensures forall key :: Listed(t.enumerations, key) == []
  {
    Timer(enumerate, map[])
  }

  /**
   * `dkwargs.get("prefix", "")`, followed by `"."` when it is not empty. A
   * prefix that is not a string cannot be concatenated with `"."`.
   */
  function PrefixPart(dkwargs: Kwargs): (r: Result<string>)
    ensures "prefix" !in dkwargs ==> r == Ok("")
    ensures "prefix" in dkwargs ==> (r.Ok? <==> dkwargs["prefix"].Str?)
    ensures r.Err? ==> r.error == TypeError
    ensures r.Ok? && "prefix" in dkwargs ==>
              if dkwargs["prefix"].s == "" then r.value == ""
              else |r.value| == |dkwargs["prefix"].s| + 1
                   && r.value[..|dkwargs["prefix"].s|] == dkwargs["prefix"].s
                   && r.value[|dkwargs["prefix"].s|] == '.'
  {
    if "prefix" !in dkwargs then Ok("")
    else match dkwargs["prefix"]
      case Str(s) => if s == "" then Ok("") else Ok(s + ".")
      case _ => Err(TypeError)
  }

  /**
   * `StatsdTimer.__call__(func, **dkwargs)`, reduced to its label. `key`
   * stands for the repr of the sorted keyword arguments with the function.
   * Enumeration happens first, so a call that fails on the prefix has still
   * registered the function.
   */
  function Call(t: Timer, func: Fn, dkwargs: Kwargs, key: Key): (r: Labelled)
    ensures r.timer.enumerate == t.enumerate
    ensures r.name.Ok? <==> PrefixPart(dkwargs).Ok?
    ensures !t.enumerate ==> r.timer == t
    ensures t.enumerate ==> func in Listed(r.timer.enumerations, key)
    ensures r.name.Ok? ==>
              var head := PrefixPart(dkwargs).value + Qualname(func);
              |head| <= |r.name.value| && r.name.value[..|head|] == head
  {
    var step := if t.enumerate then Enumerate(t.enumerations, key, func) else Step(0, t.enumerations);
    var suffix := if t.enumerate then IndexSuffix(step.idx) else "";
    var timer := t.(enumerations := step.reg);
    match PrefixPart(dkwargs)
    case Err(e) => Labelled(timer, Err(e))
    case Ok(p) =>
      assert (p + Qualname(func) + suffix)[..|p + Qualname(func)|] == p + Qualname(func);
      Labelled(timer, Ok(p + Qualname(func) + suffix))
  }

  /** With enumeration off the label is the prefix and the qualname, nothing more. */
  lemma CallUnenumerated(t: Timer, func: Fn, dkwargs: Kwargs, key: Key)
    requires !t.enumerate
    requires PrefixPart(dkwargs).Ok?
    ensures Call(t, func, dkwargs, key) == Labelled(t, Ok(PrefixPart(dkwargs).value + Qualname(func)))
  {
    assert PrefixPart(dkwargs).value + Qualname(func) + "" == PrefixPart(dkwargs).value + Qualname(func);
  }

  /**
   * With enumeration on, a function already listed under the key is labelled
   * with its position and the registry stays as it is.
   */
  lemma CallListed(t: Timer, func: Fn, dkwargs: Kwargs, key: Key, idx: nat)
    requires t.enumerate
    requires PrefixPart(dkwargs).Ok?
    requires idx < |Listed(t.enumerations, key)| && Listed(t.enumerations, key)[idx] == func
    requires func !in Listed(t.enumerations, key)[..idx]
    ensures Call(t, func, dkwargs, key)
            == Labelled(t, Ok(PrefixPart(dkwargs).value + Qualname(func) + IndexSuffix(idx)))
  {
    EnumerateKeepsIndex(t.enumerations, key, func, idx);
  }

  /**
   * With enumeration on, a function not yet listed is labelled with the
   * previous length of the list and appended to it.
   */
  lemma CallNew(t: Timer, func: Fn, dkwargs: Kwargs, key: Key)
    requires t.enumerate
    requires PrefixPart(dkwargs).Ok?
    requires func !in Listed(t.enumerations, key)
    ensures var n := |Listed(t.enumerations, key)|;
            Call(t, func, dkwargs, key)
            == Labelled(t.(enumerations := t.enumerations[key := Listed(t.enumerations, key) + [func]]),
                        Ok(PrefixPart(dkwargs).value + Qualname(func) + IndexSuffix(n)))
  {
  }

  /** Calling again with the same function and arguments gives the same label and state. */
  lemma CallIdempotent(t: Timer, func: Fn, dkwargs: Kwargs, key: Key)
    ensures var r := Call(t, func, dkwargs, key); Call(r.timer, func, dkwargs, key) == r
  {
    if t.enumerate {
      EnumerateIdempotent(t.enumerations, key, func);
    }
  }

  /** Calls keep every enumeration list free of duplicates. */
  lemma CallNoDuplicates(t: Timer, func: Fn, dkwargs: Kwargs, key: Key)
    requires NoDuplicates(t.enumerations)
    ensures NoDuplicates(Call(t, func, dkwargs, key).timer.enumerations)
  {
    if t.enumerate {
      EnumerateNoDuplicates(t.enumerations, key, func);
    }
  }

  /**
   * Enumeration tells apart two different functions that share a key and a
   * qualname, such as the same method of two equal-looking estimators: they
   * get different timers.
   */
  lemma CallSeparates(t: Timer, f: Fn, g: Fn, dkwargs: Kwargs, key: Key)
    requires t.enumerate && f != g && Qualname(f) == Qualname(g)
    requires PrefixPart(dkwargs).Ok?
    ensures var r1 := Call(t, f, dkwargs, key);
            var r2 := Call(r1.timer, g, dkwargs, key);
            r1.name.Ok? && r2.name.Ok? && r1.name != r2.name
  {
    var s1 := Enumerate(t.enumerations, key, f);
    var s2 := Enumerate(s1.reg, key, g);
    EnumerateSeparates(t.enumerations, key, f, g);
    var head := PrefixPart(dkwargs).value + Qualname(f);
    SuffixSeparates(head, s1.idx, s2.idx);
  }

  /** A later call, under any key, leaves an earlier function's label as it was. */
  lemma CallKeepsEarlier(t: Timer, f: Fn, dkwargs: Kwargs, key: Key,
                         g: Fn, gkwargs: Kwargs, gkey: Key)
    ensures var r1 := Call(t, f, dkwargs, key);
            var r2 := Call(r1.timer, g, gkwargs, gkey);
            Call(r2.timer, f, dkwargs, key) == Labelled(r2.timer, r1.name)
  {
    if t.enumerate {
      EnumerateKeepsEarlier(t.enumerations, key, f, gkey, g);
    }
  }
}

=== FILE: utils.dfy ===
/**
 * The small helpers of `utils.py`: decorator composition, positional
 * argument arithmetic, closure inspection and the qualname-based
 * inheritance test. Signatures, closures and qualnames are plain data here.
 */
module Utils {
  import opened Wrappers
  import opened Fns
  import opened MethodRecord

  /** A closure cell's content, as far as the helpers look at it. */
  datatype Cell =
    | EstimatorCell(estimator: nat)   // a `BaseEstimator` instance
    | DescriptorCell(descriptor: nat) // an `_IffHasAttrDescriptor`
    | OtherCell

  /**
   * A callable as the helpers see it: its `__qualname__`, the parameter names
   * of `inspect.signature`, its `__closure__` (`None` for a function that
   * closes over nothing) and, for a bound method, its `__self__`.
   */
  datatype Callable = Callable(
    qualname: string,
    params: seq<string>,
    closure: Option<seq<Cell>>,
    boundSelf: Option<Cell>)

  // ---------------------------------------------------------------------
  // Python list indexing
  // ---------------------------------------------------------------------

  /** `xs[i]` with Python's negative indices; out of range raises `IndexError`. */
  function PyIndex<T>(xs: seq<T>, i: int): (r: Result<T>)
    ensures r.Ok? <==> -|xs| <= i < |xs|
    ensures r.Err? ==> r.error == IndexError
  {
    if 0 <= i < |xs| then Ok(xs[i])
    else if -|xs| <= i < 0 then Ok(xs[|xs| + i])
    else Err(IndexError)
  }

  /** `xs.index(x)`: the first position of `x`; `ValueError` when it is absent. */
  function IndexOf<T(==)>(xs: seq<T>, x: T): (r: Result<nat>)
    ensures r.Ok? <==> x in xs
    ensures r.Ok? ==> r.value < |xs| && xs[r.value] == x && x !in xs[..r.value]
    ensures r.Err? ==> r.error == ValueError
  {
    if |xs| == 0 then Err(ValueError)
    else if xs[0] == x then Ok(0)
    else
      match IndexOf(xs[1..], x)
      case Ok(j) =>
        assert xs[..j + 1] == [xs[0]] + xs[1..][..j];
        Ok(j + 1)
      case Err(e) => Err(e)
  }

  predicate HoldsEstimator(c: Cell) { c.EstimatorCell? }

  predicate HoldsDescriptor(c: Cell) { c.DescriptorCell? }

  /** The position of the first cell satisfying `p`, if any. */
  function FirstCell(cells: seq<Cell>, p: Cell -> bool): (r: Option<nat>)
    ensures r.Some? ==> r.value < |cells| && p(cells[r.value])
    ensures r.Some? ==> forall k :: 0 <= k < r.value ==> !p(cells[k])
    ensures r.None? <==> forall k :: 0 <= k < |cells| ==> !p(cells[k])
  {
    if |cells| == 0 then None
    else if p(cells[0]) then Some(0)
    else
      match FirstCell(cells[1..], p)
      case Some(j) => Some(j + 1)
      case None => None
  }

  // ---------------------------------------------------------------------
  // compose_decorators
  // ---------------------------------------------------------------------

  /**
   * What a call of `compose_decorators(ds)(func, **k)` runs: `func` re-wrapped
   * by each decorator in list order, every one with the same `k`, so the last
   * decorator is the outermost.
   */
  function Composed(ds: seq<InstrumentId>, k: Kwargs, f: Fn): (g: Fn)
    ensures Depth(g) == Depth(f) + |ds|
    ensures Qualname(g) == Qualname(f)
    ensures ds == [] ==> g == f
  {
    var ks := seq(|ds|, _ => k);
    FoldDepth(f, ds, ks);
    FoldQualname(f, ds, ks);
    Fold(f, ds, ks)
  }

  /** The composed decorator runs the decorators' entry code last-to-first. */
  lemma ComposedEntryOrder(ds: seq<InstrumentId>, k: Kwargs, f: Fn)
    ensures EntryOrder(Composed(ds, k, f)) == Reverse(ds) + EntryOrder(f)
  {
    FoldEntryOrder(f, ds, seq(|ds|, _ => k));
  }

  /**
   * A composed decorator is the same callable as a method record that had
   * each of the decorators added, in order, with the same kwargs.
   */
  lemma {:induction false} ComposedIsStackedRecord(ds: seq<InstrumentId>, k: Kwargs, f: Fn)
    ensures Composed(ds, k, f) == AddAll(New(f), ds, seq(|ds|, _ => k)).wrapper
  {
    var ks := seq(|ds|, _ => k);
    AddAllAppends(New(f), ds, ks);
    assert [] + ds == ds;
    assert [] + ks == ks;
  }

  /** Composing `ds1` and then `ds2` around the result is composing `ds1 + ds2`. */
  lemma ComposedConcat(ds1: seq<InstrumentId>, ds2: seq<InstrumentId>, k: Kwargs, f: Fn)
    ensures Composed(ds1 + ds2, k, f) == Composed(ds2, k, Composed(ds1, k, f))
  {
    var ks1 := seq(|ds1|, _ => k);
    var ks2 := seq(|ds2|, _ => k);
    FoldConcat(f, ds1, ks1, ds2, ks2);
    assert ks1 + ks2 == seq(|ds1 + ds2|, _ => k);
  }

  // ---------------------------------------------------------------------
  // Methods, delegators and positional arguments
  // ---------------------------------------------------------------------

  /**
   * `get_sklearn_estimator_from_method`: the `__self__` of a bound method when
   * it is an estimator; for anything else, the first estimator in the closure.
   * Every other case raises `TypeError`.
   */
  function EstimatorFromMethod(f: Callable): (r: Result<nat>)
    ensures r.Err? ==> r.error == TypeError
    ensures f.boundSelf.Some? ==>
      (r.Ok? <==> f.boundSelf.value.EstimatorCell?) &&
      (r.Ok? ==> r.value == f.boundSelf.value.estimator)
    ensures f.boundSelf.None? && f.closure.None? ==> r.Err?
    ensures f.boundSelf.None? && f.closure.Some? ==>
      var cells := f.closure.value;
      && (r.Ok? <==> exists k :: 0 <= k < |cells| && cells[k].EstimatorCell?)
      && (r.Ok? ==> exists k :: 0 <= k < |cells| && cells[k] == EstimatorCell(r.value) &&
                      forall j :: 0 <= j < k ==> !cells[j].EstimatorCell?)
  {
    match f.boundSelf
    case Some(s) => if s.EstimatorCell? then Ok(s.estimator) else Err(TypeError)
    case None =>
      match f.closure
      case None => Err(TypeError)
      case Some(cells) =>
        match FirstCell(cells, HoldsEstimator)
        case Some(k) => Ok(cells[k].estimator)
        case None => Err(TypeError)
  }

  /**
   * `is_class_method`: whether the first parameter is named `self` (the
   * source returns `None`, which is falsy, otherwise); a callable without
   * parameters raises `IndexError`.
   */
  function IsClassMethod(f: Callable): (r: Result<bool>)
    ensures r.Err? <==> f.params == []
    ensures r.Err? ==> r.error == IndexError
    ensures r.Ok? ==> (r.value <==> f.params[0] == "self")
  {
    if |f.params| == 0 then Err(IndexError) else Ok(f.params[0] == "self")
  }

  /** `is_instance_method`: the negation of `is_class_method`. */
  function IsInstanceMethod(f: Callable): (r: Result<bool>)
    ensures r.Ok? <==> IsClassMethod(f).Ok?
    ensures r.Ok? ==> r.value == !IsClassMethod(f).value
    ensures r.Err? ==> r.error == IndexError
  {
    match IsClassMethod(f)
    case Ok(b) => Ok(!b)
    case Err(e) => Err(e)
  }

  /** `is_delegator`: some closure cell holds a delegation descriptor; no closure means no. */
  predicate IsDelegator(f: Callable)
  {
    f.closure.Some? && exists k :: 0 <= k < |f.closure.value| && f.closure.value[k].DescriptorCell?
  }

  /**
   * `get_delegator`: the first delegation descriptor in the closure, or
   * `None`; iterating a missing closure raises `TypeError`.
   */
  function GetDelegator(f: Callable): (r: Result<Option<nat>>)
    ensures r.Err? <==> f.closure.None?
    ensures r.Err? ==> r.error == TypeError
    ensures r.Ok? && r.value.Some? ==>
      exists k :: 0 <= k < |f.closure.value| && f.closure.value[k] == DescriptorCell(r.value.value) &&
        forall j :: 0 <= j < k ==> !f.closure.value[j].DescriptorCell?
  {
    match f.closure
    case None => Err(TypeError)
    case Some(cells) =>
      match FirstCell(cells, HoldsDescriptor)
      case Some(k) => Ok(Some(cells[k].descriptor))
      case None => Ok(None)
  }

  /** `is_delegator` holds exactly when `get_delegator` finds a descriptor. */
  lemma DelegatorAgreement(f: Callable)
    ensures IsDelegator(f) <==> GetDelegator(f).Ok? && GetDelegator(f).value.Some?
  {
    if f.closure.Some? {
      var cells := f.closure.value;
      var k := FirstCell(cells, HoldsDescriptor);
      if IsDelegator(f) {
        var j :| 0 <= j < |cells| && cells[j].DescriptorCell?;
        assert HoldsDescriptor(cells[j]);
      } else {
        assert forall j :: 0 <= j < |cells| ==> !HoldsDescriptor(cells[j]);
      }
    }
  }

  /**
   * `non_self_arg`: the `idx`-th argument after `self`, i.e. `args[idx + 1]`
   * for a function whose first parameter is `self` and `args[idx]` otherwise
   * (Python indexing).
   */
  function NonSelfArg<T>(f: Callable, args: seq<T>, idx: int): (r: Result<T>)
    ensures IsClassMethod(f).Err? ==> r == Err(IndexError)
    ensures IsClassMethod(f) == Ok(true) ==> r == PyIndex(args, idx + 1)
    ensures IsClassMethod(f) == Ok(false) ==> r == PyIndex(args, idx)
  {
    match IsClassMethod(f)
    case Err(e) => Err(e)
    case Ok(b) => if b then PyIndex(args, idx + 1) else PyIndex(args, idx)
  }

  /**
   * `get_arg_by_key`: the argument at the position of parameter `key`,
   * one lower for a delegator (whose signature lists `self` but whose
   * arguments do not); an unknown key raises `ValueError`.
   */
  function ArgByKey<T>(f: Callable, args: seq<T>, key: string): (r: Result<T>)
    ensures key !in f.params ==> r == Err(ValueError)
    ensures key in f.params && !IsDelegator(f) ==> r == PyIndex(args, IndexOf(f.params, key).value)
    ensures key in f.params && IsDelegator(f) ==> r == PyIndex(args, IndexOf(f.params, key).value - 1)
  {
    match IndexOf(f.params, key)
    case Err(e) => Err(e)
    case Ok(idx) => if IsDelegator(f) then PyIndex(args, idx - 1) else PyIndex(args, idx)
  }

  /** The bound method of `f`: `self` leaves the signature and moves to `__self__`. */
  function Bind(f: Callable, s: Cell): (g: Callable)
    requires f.params != []
    ensures g.params == f.params[1..] && g.closure == f.closure
  {
    Callable(f.qualname, f.params[1..], f.closure, Some(s))
  }

  /**
   * Non-self arguments read the same through the function (with `self`
   * passed first) and through its bound method (without it).
   */
  lemma NonSelfArgBoundAgrees<T>(f: Callable, s: Cell, self_: T, args: seq<T>, idx: nat)
    requires |f.params| >= 2 && f.params[0] == "self" && f.params[1] != "self"
    ensures NonSelfArg(f, [self_] + args, idx) == NonSelfArg(Bind(f, s), args, idx)
  {
  }

  /**
   * A keyword's argument reads the same through the function (with `self`
   * passed first) and through its bound method (without it).
   */
  lemma ArgByKeyBoundAgrees<T>(f: Callable, s: Cell, self_: T, args: seq<T>, key: string)
    requires f.params != [] && f.params[0] == "self" && key != "self"
    requires !IsDelegator(f)
    ensures ArgByKey(f, [self_] + args, key) == ArgByKey(Bind(f, s), args, key)
  {
    var g := Bind(f, s);
    if key in f.params {
      var i := IndexOf(f.params, key).value;
      assert key in g.params by {
        assert f.params[i] == g.params[i - 1];
      }
      var j := IndexOf(g.params, key).value;
      assert f.params[j + 1] == key;
      assert key !in f.params[..j + 1] by {
        assert f.params[..j + 1] == [f.params[0]] + g.params[..j];
      }
      assert i == j + 1;
    } else {
      assert key !in g.params by {
        forall k | 0 <= k < |g.params|
          ensures g.params[k] != key
        {
          assert g.params[k] == f.params[k + 1];
        }
      }
    }
  }

  /**
   * A delegator is called without `self` although its signature lists it:
   * its keyed argument is the one the plain function would read with `self`
   * passed first.
   */
  lemma ArgByKeyDelegatorShift<T>(d: Callable, f: Callable, self_: T, args: seq<T>, key: string)
    requires IsDelegator(d) && !IsDelegator(f) && d.params == f.params
    requires key in f.params && IndexOf(f.params, key).value >= 1
    ensures ArgByKey(d, args, key) == ArgByKey(f, [self_] + args, key)
  {
  }

  // ---------------------------------------------------------------------
  // method_is_inherited
  // ---------------------------------------------------------------------

  /** `q.split(".")[0]`: the qualname up to its first dot. */
  function FirstSegment(q: string): (r: string)
    ensures '.' !in r
    ensures |r| <= |q| && r == q[..|r|]
    ensures |r| < |q| ==> q[|r|] == '.'
  {
    if |q| == 0 || q[0] == '.' then ""
    else [q[0]] + FirstSegment(q[1..])
  }

  /** A method's qualname `C.name` (or `C.<locals>.name`) yields `C`. */
  lemma {:induction false} FirstSegmentOfJoin(c: string, rest: string)
    requires '.' !in c
    ensures FirstSegment(c + "." + rest) == c
    decreases |c|
  {
    if |c| > 0 {
      assert (c + "." + rest)[1..] == c[1..] + "." + rest;
      FirstSegmentOfJoin(c[1..], rest);
    }
  }

  /**
   * The name `method_is_inherited` compares against: `estimator.__name__`
   * for a class and, when that attribute is missing (an instance), the name
   * of `estimator.__class__`.
   */
  function OwnerName(nameAttr: Option<string>, className: string): string
  {
    if nameAttr.Some? then nameAttr.value else className
  }

  /**
   * `method_is_inherited` once `getattr(estimator, method_name)` has been
   * looked up: `qualname` is the resolved attribute's `__qualname__` (missing
   * attribute and missing qualname both raise `AttributeError`).
   */
  function MethodIsInherited(qualname: Option<string>, nameAttr: Option<string>, className: string)
    : (r: Result<bool>)
    ensures r.Err? <==> qualname.None?
    ensures r.Err? ==> r.error == AttributeError
    ensures r.Ok? ==> (r.value <==> FirstSegment(qualname.value) != OwnerName(nameAttr, className))
  {
    match qualname
    case None => Err(AttributeError)
    case Some(q) => Ok(FirstSegment(q) != OwnerName(nameAttr, className))
  }

  /** A method defined in the class body of `C` is not inherited by `C`, and is by any other name. */
  lemma MethodIsInheritedByDefiner(c: string, rest: string, nameAttr: Option<string>, className: string)
    requires '.' !in c
    ensures MethodIsInherited(Some(c + "." + rest), nameAttr, className) == Ok(c != OwnerName(nameAttr, className))
  {
    FirstSegmentOfJoin(c, rest);
  }
}

=== FILE: walk.dfy ===
/**
 * The recursive walks over an object tree: `_instrument_recursively`,
 * `_uninstrument_recursively` and `_get_estimator_classes`.
 */
module Walk {
  import opened Wrappers
  import opened Fns
  import opened Config
  import opened PyDict
  import opened Objects
  import opened Instance

  /** What a walk does at each estimator it reaches. */
  datatype Action =
    | Instrument(perCall: Option<Kwargs>)
    | Uninstrument(full: bool)

  /** `_instrument_estimator` or `_uninstrument_estimator` on one estimator. */
  function Step(cfg: Instrumentor, act: Action, e: Node): (r: Node)
    requires e.Estimator?
    ensures r.Estimator? && SameShell(e, r) && OnlyLeavesAdded(e, r)
  {
    match act
    case Instrument(perCall) => InstrumentEstimator(cfg, e, perCall)
    case Uninstrument(full) => UninstrumentEstimator(cfg, e, full)
  }

  /** Whether `isinstance(obj, tuple(self.exclude))` holds. */
  predicate IsExcluded(cfg: Instrumentor, n: Node)
  {
    Excluded(TypesOf(n), cfg.exclude)
  }

  /**
   * `_instrument_recursively` / `_uninstrument_recursively`. An excluded
   * object is returned as it is. An estimator is processed first and then its
   * (updated) `__dict__` is walked; any other object is walked through its
   * `__dict__` if it has one, else its mapping values, else its sequence items.
   */
  function Walk(cfg: Instrumentor, act: Action, n: Node): (r: Node)
    ensures IsExcluded(cfg, n) ==> r == n
    ensures TypesOf(r) == TypesOf(n)
    ensures n.Method? || n.Rec? ==> r == n
    ensures n.Estimator? <==> r.Estimator?
    ensures n.Estimator? ==> SameShell(n, r)
    ensures n.Obj? <==> r.Obj?
    ensures n.Obj? ==> r.hasDict == n.hasDict && r.isMapping == n.isMapping && r.isSequence == n.isSequence
    ensures n.Obj? && n.hasDict ==> r.values == n.values && r.items == n.items
    ensures n.Obj? && !n.hasDict ==> r.dict == n.dict
    ensures n.Obj? && !n.hasDict && n.isMapping ==> r.items == n.items
    ensures n.Obj? && !n.hasDict && !n.isMapping ==> r.values == n.values
    ensures n.Obj? && !n.hasDict && !n.isMapping && !n.isSequence ==> r == n
    decreases Height(n), 1
  {
    if IsExcluded(cfg, n) then n
    else
      match n
      case Estimator(_, _, _, _, _, _) =>
        var e1 := Step(cfg, act, n);
        AttrsBelow(n);
        WithAttrs(e1, WalkDict(cfg, act, e1.attrs, Height(n)))
      case Obj(t, hd, d, im, vs, isq, xs) =>
        ContentsBelow(n);
        if hd then Obj(t, hd, WalkDict(cfg, act, d, Height(n)), im, vs, isq, xs)
        else if im then Obj(t, hd, d, im, WalkSeq(cfg, act, vs, Height(n)), isq, xs)
        else if isq then Obj(t, hd, d, im, vs, isq, WalkSeq(cfg, act, xs, Height(n)))
        else n
      case _ => n
  }

  /** The loop over `obj.__dict__.items()`: reserved attributes are not descended. */
  function WalkDict(cfg: Instrumentor, act: Action, d: Dict<Node>, h: nat): (r: Dict<Node>)
    requires forall p :: p in d ==> Height(p.1) < h
    ensures |r| == |d|
    ensures forall j :: 0 <= j < |d| ==> r[j].0 == d[j].0
    ensures forall j :: 0 <= j < |d| && IsReserved(d[j].0) ==> r[j] == d[j]
    ensures forall j :: 0 <= j < |d| && !IsReserved(d[j].0) ==> r[j].1 == Walk(cfg, act, d[j].1)
    decreases h, 0, |d|
  {
    if |d| == 0 then []
    else
      assert d[0] in d;
      var v := if IsReserved(d[0].0) then d[0].1 else Walk(cfg, act, d[0].1);
      [(d[0].0, v)] + WalkDict(cfg, act, d[1..], h)
  }

  /** The loops over mapping values and sequence items. */
  function WalkSeq(cfg: Instrumentor, act: Action, xs: seq<Node>, h: nat): (r: seq<Node>)
    requires forall v :: v in xs ==> Height(v) < h
    ensures |r| == |xs|
    ensures forall j :: 0 <= j < |xs| ==> r[j] == Walk(cfg, act, xs[j])
    decreases h, 0, |xs|
  {
    if |xs| == 0 then []
    else
      assert xs[0] in xs;
      [Walk(cfg, act, xs[0])] + WalkSeq(cfg, act, xs[1..], h)
  }

  /** The walk does not change the kind of a node: a method stays that method, anything else stays a non-method. */
  lemma WalkKeepsKind(cfg: Instrumentor, act: Action, n: Node)
    ensures Walk(cfg, act, n).Method? <==> n.Method?
    ensures n.Method? ==> Walk(cfg, act, n) == n
    ensures Walk(cfg, act, n).Rec? <==> n.Rec?
  {
  }

  /** Looking a key up in a walked dictionary: reserved keys keep their value, others hold the walked value. */
  lemma {:induction false} WalkDictGet(cfg: Instrumentor, act: Action, d: Dict<Node>, h: nat, k: string)
    requires forall p :: p in d ==> Height(p.1) < h
    ensures var g := Get(WalkDict(cfg, act, d, h), k);
      && (g.Some? <==> Get(d, k).Some?)
      && (IsReserved(k) ==> g == Get(d, k))
      && (!IsReserved(k) && g.Some? ==> g.value == Walk(cfg, act, Get(d, k).value))
    decreases |d|
  {
    if |d| > 0 {
      assert forall p :: p in d[1..] ==> p in d;
      var r := WalkDict(cfg, act, d, h);
      var rest := WalkDict(cfg, act, d[1..], h);
      assert r[0].0 == d[0].0 && r[1..] == rest;
      if d[0].0 == k {
        assert Get(r, k) == Some(r[0].1) && Get(d, k) == Some(d[0].1);
      } else {
        assert Get(r, k) == Get(rest, k) && Get(d, k) == Get(d[1..], k);
        WalkDictGet(cfg, act, d[1..], h, k);
      }
    }
  }

  /**
   * Walking an estimator's dictionary after processing it leaves the
   * processed method attributes and records exactly as processing made them.
   */
  lemma WalkKeepsStep(cfg: Instrumentor, act: Action, n: Node, m: string)
    requires n.Estimator? && !IsExcluded(cfg, n)
    ensures var e1 := Step(cfg, act, n);
      var r := Walk(cfg, act, n);
      && Lookup(r, m) == Lookup(e1, m)
      && RecordOf(r, m) == RecordOf(e1, m)
      && IsProperty(r, m) == IsProperty(e1, m)
  {
    var e1 := Step(cfg, act, n);
    AttrsBelow(n);
    var h := Height(n);
    var d := WalkDict(cfg, act, e1.attrs, h);
    var r := Walk(cfg, act, n);
    assert r == WithAttrs(e1, d);
    WalkDictGet(cfg, act, e1.attrs, h, AttributeName(m));
    assert Get(d, AttributeName(m)) == Get(e1.attrs, AttributeName(m));
    WalkDictGet(cfg, act, e1.attrs, h, m);
    var g := Get(e1.attrs, m);
    if g.Some? && !IsReserved(m) {
      WalkKeepsKind(cfg, act, g.value);
      assert Get(d, m).value.Method? <==> g.value.Method?;
      assert g.value.Method? ==> Get(d, m) == g;
    }
    assert Lookup(r, m) == Lookup(e1, m);
  }

  // ---------------------------------------------------------------------
  // `_get_estimator_classes`
  // ---------------------------------------------------------------------

  /**
   * The classes an estimator contributes by itself: its own class and, for
   * each configured method name bound on it, the class that defines the
   * method (`get_method_class`, given as data).
   */
  function OwnClasses(cfg: Instrumentor, e: Node): (cs: set<ClassId>)
    requires e.Estimator?
    ensures e.cls in cs
    ensures forall k :: k in e.boundMethodClasses && k in cfg.methods ==> e.boundMethodClasses[k] in cs
    ensures forall c :: c in cs ==> c == e.cls || exists k :: k in e.boundMethodClasses && k in cfg.methods && e.boundMethodClasses[k] == c
  {
    {e.cls} + set k | k in e.boundMethodClasses && k in cfg.methods :: e.boundMethodClasses[k]
  }

  /**
   * The objects `_get_estimator_classes` descends into: every `__dict__`
   * value (reserved attributes included), else the mapping values, else the
   * sequence items.
   */
  function Children(n: Node): (cs: seq<Node>)
    ensures forall c :: c in cs ==> Height(c) < Height(n)
  {
    match n
    case Estimator(_, _, _, _, _, d) =>
      AttrsBelow(n);
      seq(|d|, j requires 0 <= j < |d| => d[j].1)
    case Obj(_, hd, d, im, vs, isq, xs) =>
      ContentsBelow(n);
      if hd then seq(|d|, j requires 0 <= j < |d| => d[j].1)
      else if im then vs
      else if isq then xs
      else []
    case _ => []
  }

  /** `_get_estimator_classes`. */
  function Classes(cfg: Instrumentor, n: Node): (cs: set<ClassId>)
    ensures IsExcluded(cfg, n) ==> cs == {}
    ensures !IsExcluded(cfg, n) && n.Estimator? ==> OwnClasses(cfg, n) <= cs
    ensures !IsExcluded(cfg, n) ==> forall c :: c in Children(n) ==> Classes(cfg, c) <= cs
    decreases Height(n), 1
  {
    if IsExcluded(cfg, n) then {}
    else
      var own := if n.Estimator? then OwnClasses(cfg, n) else {};
      own + ClassesOfAll(cfg, Children(n), Height(n))
  }

  /** The union of `_get_estimator_classes` over a list of objects. */
  function ClassesOfAll(cfg: Instrumentor, xs: seq<Node>, h: nat): (cs: set<ClassId>)
    requires forall v :: v in xs ==> Height(v) < h
    ensures forall v :: v in xs ==> Classes(cfg, v) <= cs
    ensures forall c :: c in cs ==> exists v :: v in xs && c in Classes(cfg, v)
    decreases h, 0, |xs|
  {
    if |xs| == 0 then {}
    else
      assert xs[0] in xs;
      assert forall v :: v in xs[1..] ==> v in xs;
      Classes(cfg, xs[0]) + ClassesOfAll(cfg, xs[1..], h)
  }

  /**
   * The estimators class collection reaches from `n`: `n` itself unless it is
   * excluded, and whatever is reached from its children; exclusion prunes the
   * whole subtree.
   */
  ghost predicate Reaches(cfg: Instrumentor, n: Node, x: Node)
    decreases Height(n)
  {
    && !IsExcluded(cfg, n)
    && ((n.Estimator? && x == n) || exists c :: c in Children(n) && Reaches(cfg, c, x))
  }

  /** The collected classes are exactly the own classes of the estimators reached. */
  lemma {:induction false} ClassesAreReachedOwnClasses(cfg: Instrumentor, n: Node, c: ClassId)
    ensures c in Classes(cfg, n) <==> exists x :: Reaches(cfg, n, x) && x.Estimator? && c in OwnClasses(cfg, x)
    decreases Height(n)
  {
    if !IsExcluded(cfg, n) {
      if c in Classes(cfg, n) {
        if n.Estimator? && c in OwnClasses(cfg, n) {
          assert Reaches(cfg, n, n);
        } else {
          var h := Height(n);
          assert c in ClassesOfAll(cfg, Children(n), h);
          var v :| v in Children(n) && c in Classes(cfg, v);
          ClassesAreReachedOwnClasses(cfg, v, c);
          var x :| Reaches(cfg, v, x) && x.Estimator? && c in OwnClasses(cfg, x);
          assert Reaches(cfg, n, x);
        }
      }
      if exists x :: Reaches(cfg, n, x) && x.Estimator? && c in OwnClasses(cfg, x) {
        var x :| Reaches(cfg, n, x) && x.Estimator? && c in OwnClasses(cfg, x);
        if !(n.Estimator? && x == n) {
          var v :| v in Children(n) && Reaches(cfg, v, x);
          ClassesAreReachedOwnClasses(cfg, v, c);
        }
      }
    }
  }
}

=== FILE: wrappers.dfy ===
/** Failure-carrying values used wherever the Python code raises or returns None. */
module Wrappers {

  datatype Option<+T> = None | Some(value: T)

  /** The Python exceptions the modelled code can raise on its own. */
  datatype PyError =
    | TypeError
    | ValueError
    | IndexError
    | AttributeError

  datatype Result<+T> = Ok(value: T) | Err(error: PyError)
}
